=== FILE: README.md ===
# stbchef trading core in Dafny

This project models the decision logic of the stbchef trading assistant. In that system three
language models (Gemini, Groq, Mistral) vote BUY, SELL or HOLD on ETH. The votes are stored in
SQLite and later judged against the price. The browser scores the votes, keeps charts and
statistics, and suggests or executes wallet swaps. The model covers:

- the decision store (`db.py`): storing, the outcome labeller, the aggregate queries and
  cleanup;
- the two client-side scoring files (`modelPredictions.js`, `marketAnalysis.js`), the chart
  series and the statistics page;
- the market-data clients: the gas oracle, the block explorer's price and gas readers, the
  fear-and-greed index, and the keyword extraction shared by the three model clients;
- the two state dataclass modules;
- the wallet, swap, smart-account and notification logic of the browser;
- the pure parts of the two deployment scripts.

Each source file is one Dafny module over immutable datatypes. Clocks, HTTP replies, provider
answers and user confirmations are parameters. `Common`, `Seqs` and `Sorting` hold the shared
helpers: Option/Result, ASCII text functions, decimal parsing, filters and counts, and
descending sort with SQL `LIMIT`.

## Model

| member | source | states |
|---|---|---|
| DecisionStore.StoreMarketData | src/database/db.py:84-121 | fails exactly when a sentiment key is missing or a non-empty gas dictionary lacks a level; otherwise exactly one row is appended holding the time, price, volume, high, low, the three gas levels iff the dictionary is non-empty, and both sentiment texts; earlier rows and the decisions are untouched |
| DecisionStore.StoredMarketRowReadsBack | src/database/db.py:84-121 | a snapshot stored later than every earlier one is the row the newest-first listing of one reads back |
| DecisionStore.StoreAiDecision | src/database/db.py:123-147 | exactly one pending row (no verdict, no profit/loss) is appended with the given model, decision and price; every existing row stays as it was |
| DecisionStore.StoreAiDecisionWellFormed | src/database/db.py:132-146 | storing keeps row ids strictly increasing and below the next id, so each `UPDATE … WHERE id` touches one row |
| DecisionStore.Judge | src/database/db.py:163-177 | BUY is right iff the price rose, SELL iff it fell, HOLD iff the move is strictly inside ±0.5 %; any other action text gets no verdict |
| DecisionStore.HoldVerdict | src/database/db.py:175-176 | a HOLD is right exactly when the move is less than 1/200 of the stored price |
| DecisionStore.JudgeProfitNonNegative | src/database/db.py:164-177 | for a positive stored price every stored profit/loss is non-negative, whichever way the verdict goes |
| DecisionStore.WrongBuyStoresGain | src/database/db.py:169-171 | a wrong BUY (100 then 90) stores +10 as its profit/loss |
| DecisionStore.Label | src/database/db.py:163-183 | labelling never changes a row's id, time, model, decision or price |
| DecisionStore.LabelRows | src/database/db.py:155-183 | only pending rows older than 30 s are labelled; every other row is unchanged; a selected row with price 0 fails |
| DecisionStore.UpdateDecisionAccuracy | src/database/db.py:149-185 | the pass fails exactly when a selected row has stored price 0; otherwise every selected row is labelled and nothing else changes |
| DecisionStore.AfterUpdate | src/database/db.py:151-185 | a failed pass leaves the database as it was (rollback) |
| DecisionStore.LabelledRowsAreFinal | src/database/db.py:155-160 | a row that already has a verdict is never changed by a later pass |
| DecisionStore.PendingAfterUpdate | src/database/db.py:155-183 | after a successful pass a selected BUY/SELL/HOLD row has a verdict; a row with any other action stays pending |
| DecisionStore.UpdateIdempotent | src/database/db.py:149-185 | a second pass with the same clock and price changes nothing |
| DecisionStore.UpdateWellFormed | src/database/db.py:149-185 | the pass keeps row ids unique and increasing |
| DecisionStore.UpdateKeepsProfitsNonNegative | src/database/db.py:164-177 | with positive prices, labelling keeps every stored profit/loss non-negative |
| DecisionStore.StoreKeepsProfitsNonNegative | src/database/db.py:132-146 | storing a decision keeps every stored profit/loss non-negative |
| DecisionStore.GroupOf | src/database/db.py:191-203 | the rows of one model that pass the filter, all from the table; non-empty exactly when the model has such a row |
| DecisionStore.AccuracyEntryOf | src/database/db.py:194-216 | accuracy = correct ÷ total × 100, average profit = sum of profits ÷ total, max loss and max profit = least and greatest profit (a missing profit read as 0); correct ≤ total, the accuracy lies in [0, 100] and is 100 iff every row is correct |
| DecisionStore.AccuracyStats | src/database/db.py:187-217 | one entry per model with a labelled non-HOLD row, and each entry is the accuracy figures of exactly that model's labelled non-HOLD rows |
| DecisionStore.AccuracyIgnoresHoldAndPending | src/database/db.py:191-205 | HOLD rows and pending rows never reach the accuracy statistics |
| DecisionStore.RecentDecisions | src/database/db.py:239-255 | newest first, at most `limit` rows (all for a negative limit), all drawn from the table |
| DecisionStore.RecentMarketData | src/database/db.py:219-237 | the same ordering and limit rules for market rows |
| DecisionStore.RecentDecisionsAreNewest | src/database/db.py:239-255 | a decision left out of a limited listing is no newer than any decision listed |
| DecisionStore.RecentMarketDataAreNewest | src/database/db.py:219-237 | the same for market rows |
| DecisionStore.ParseTimeframe | src/database/db.py:259-268 | exactly hour, day, week and month are accepted; anything else is an error |
| DecisionStore.PeriodEntryOf | src/database/db.py:275-279 | the row count; the accuracy is correct rows ÷ rows × 100 (0 without rows); the total profit is the sum with a missing profit read as 0; the average is total ÷ rows, between the smallest and largest profit |
| DecisionStore.EntriesFor | src/database/db.py:272-298 | one entry per period, in the order given, each summarising exactly the rows whose timestamp falls in that period |
| DecisionStore.ModelTimeline | src/database/db.py:283-298 | periods strictly decreasing, each with scored rows and an accuracy in [0, 100], every row's period present, and each entry the summary of exactly its period's rows |
| DecisionStore.PerformanceByTimeframe | src/database/db.py:257-299 | an unknown timeframe fails before any query; otherwise each model with scored rows gets a non-empty timeline, newest period first, whose entries summarise that model's scored rows of each period |
| DecisionStore.SameModelsInBothViews | src/database/db.py:191-203 | the timeframe view and the accuracy view report the same models |
| DecisionStore.ComparisonEntryOf | src/database/db.py:305-340 | total and correct rows; accuracy is correct ÷ total × 100; total profit is the sum and average profit the sum ÷ total, a missing profit read as 0; max loss and max profit are the smallest and largest profit; the buy, sell and hold counts count those actions, together at most the total |
| DecisionStore.ModelComparison | src/database/db.py:301-341 | one entry per model with a decision in the window, pending and HOLD rows included, holding the comparison figures of exactly that model's rows in the window |
| DecisionStore.AllKnownInGroup | src/database/db.py:305-340 | when every stored action is BUY, SELL or HOLD, so is every action in a group |
| DecisionStore.ComparisonDistributionComplete | src/database/db.py:305-340 | when every stored action is BUY, SELL or HOLD, buy + sell + hold = total |
| DecisionStore.CleanupOldData | src/database/db.py:343-356 | the kept rows of both tables are exactly the rows of the last seven days |
| DecisionStore.CleanupKeepsOrder | src/database/db.py:343-356 | the kept rows stay in their original order: cleaning up older rows followed by newer rows keeps the older survivors before the newer ones |
| DecisionStore.CleanupIdempotent | src/database/db.py:343-356 | cleaning twice at the same moment removes nothing more |
| DecisionStore.CleanupKeepsWindowGroups | src/database/db.py:305-356 | a cleanup never touches the rows of a comparison window of at most seven days |
| DecisionStore.CleanupPreservesComparison | src/database/db.py:301-356 | a comparison over at most seven days gives the same figures before and after a cleanup at the same moment |
| Sorting.TopByKey | src/database/db.py:219-255 | `ORDER BY … DESC LIMIT`: sorted newest first, exactly min(limit, n) rows (all for a negative limit), drawn from the input |
| Sorting.TopByKeyIsTop | src/database/db.py:219-255 | a row left out by the limit is never newer than a row returned |
| Sorting.DistinctDesc | src/database/db.py:276-298 | `GROUP BY period ORDER BY period DESC`: each value once, strictly decreasing, the same set as the input |
| ModelPredictions.VotersFor | src/web/static/js/modelPredictions.js:8-27 | a model is listed exactly when its vote is the action, in the order Gemini, Groq, Mistral |
| ModelPredictions.GetModelDecisions | src/web/static/js/modelPredictions.js:8-14 | a model is listed exactly when its vote is the string `BUY`; Gemini, Groq, Mistral order; at most three |
| ModelPredictions.GetModelSellDecisions | src/web/static/js/modelPredictions.js:21-27 | a model is listed exactly when its vote is the string `SELL`; Gemini, Groq, Mistral order; at most three |
| ModelPredictions.BuyersAndSellersDisjoint | src/web/static/js/modelPredictions.js:8-27 | no model is both a buyer and a seller |
| ModelPredictions.CheckLLMConsensus | src/web/static/js/modelPredictions.js:34-50 | none with fewer than two truthy votes or with a vote that is not an action, not an array-index text and not `__proto__`; a returned action has at least two votes and no action has more |
| ModelPredictions.IndexLikeVoteDoesNotVeto | src/web/static/js/modelPredictions.js:45-49 | an index-like text such as `1` counts as a truthy vote but leaves two BUY votes the consensus |
| ModelPredictions.ProtoVoteDoesNotVeto | src/web/static/js/modelPredictions.js:45-49 | a `__proto__` vote creates no counter and leaves two SELL votes the consensus |
| ModelPredictions.PaddedNumberVetoes | src/web/static/js/modelPredictions.js:45-49 | `01` is not an index key, so its `NaN` counter wins the reduce and there is no consensus |
| ModelPredictions.VoteCounts | src/web/static/js/modelPredictions.js:34-50 | the action votes together never exceed the truthy votes |
| ModelPredictions.ConsensusFound | src/web/static/js/modelPredictions.js:34-50 | with at most three recognised votes, an action with two votes is the consensus |
| ModelPredictions.DynamicThreshold | src/web/static/js/modelPredictions.js:113-136 | the step function 0.4, 0.5, 0.75, 1.0 over the volatility bands |
| ModelPredictions.ThresholdMonotone | src/web/static/js/modelPredictions.js:113-136 | more volatility never lowers the threshold |
| ModelPredictions.TradeScore | src/web/static/js/modelPredictions.js:145-188 | the score lies in [0, 1.5]: a significant right move scores in (1, 1.5], an insignificant one 0.5, a wrong one 0; HOLD scores 1 or 0.3; anything else 0 |
| ModelPredictions.ScoreMatchesVerdict | src/web/static/js/modelPredictions.js:145-227 | a score of at least 1 means exactly that the raw verdict is correct |
| ModelPredictions.CalculateVolatility | src/web/static/js/modelPredictions.js:70-87 | the buffer keeps the newest prices, never more than the window, the new price last; the volatility is 0 while fewer than two are held |
| ModelPredictions.PushCapped | src/web/static/js/modelPredictions.js:241-244 | the history never exceeds 100 entries and keeps the newest |
| ModelPredictions.Score | src/web/static/js/modelPredictions.js:214-244 | one scored update adds one trade, and one correct exactly when the verdict holds |
| ModelPredictions.ScoreModel | src/web/static/js/modelPredictions.js:205-244 | other models are untouched; this model advances by one scored update |
| ModelPredictions.UpdateAccuracy | src/web/static/js/modelPredictions.js:197-244 | nothing changes without a previous price; otherwise the buffer takes the price and every model advances with the threshold of the new volatility |
| ModelPredictions.AdvancedMeaning | src/web/static/js/modelPredictions.js:214-244 | a model with a truthy vote gains exactly one trade, one correct exactly when BUY > t, SELL < −t or HOLD \|x\| ≤ t, and a newest history entry carrying that verdict |
| ModelPredictions.ScoreModelConsistent | src/web/static/js/modelPredictions.js:214-227 | scoring keeps correct ≤ total, the accuracy equal to the share, and the history within its cap |
| ModelPredictions.UpdateAccuracyConsistent | src/web/static/js/modelPredictions.js:197-244 | an accuracy update keeps those invariants for every model |
| ModelPredictions.CalculateAccuracy | src/web/static/js/modelPredictions.js:57-68 | the percentage of trades that pass the test (count ÷ trades × 100), in [0, 100], and 0 without trades |
| MarketAnalysis.CalculateVolatility | src/web/static/js/marketAnalysis.js:9-22 | the buffer never exceeds window·60 prices, and the volatility is left unchanged while at most one price is held |
| MarketAnalysis.SameBufferAsModelPredictions | src/web/static/js/marketAnalysis.js:10-22 | the hour-based buffer equals the other file's sample-based buffer with window·60 samples |
| MarketAnalysis.DynamicThreshold | src/web/static/js/marketAnalysis.js:30-35 | the threshold lies in [0.5, 2.0] and equals the volatility inside that band |
| MarketAnalysis.ThresholdMonotone | src/web/static/js/marketAnalysis.js:30-35 | more volatility never lowers the threshold |
| MarketAnalysis.TradeScore | src/web/static/js/marketAnalysis.js:44-64 | 0 unless the verdict is correct; a correct BUY/SELL scores in (1, 1.5] and a correct HOLD in [0.5, 1] |
| MarketAnalysis.ScorePositiveIffCorrect | src/web/static/js/marketAnalysis.js:44-64 | the score is positive exactly when the verdict is correct |
| MarketAnalysis.ScorersAgreeOnVerdict | src/web/static/js/marketAnalysis.js:44-64 | this scorer is positive exactly when the other file's scorer reaches 1 |
| MarketAnalysis.CheckLLMConsensus | src/web/static/js/marketAnalysis.js:71-84 | some action iff one has two votes, tested BUY before SELL before HOLD |
| MarketAnalysis.ConsensusVariantsAgree | src/web/static/js/marketAnalysis.js:71-84 | with three votes of recognised actions, both consensus rules agree |
| MarketAnalysis.TieSplitsTheVariants | src/web/static/js/marketAnalysis.js:71-84 | with four voters split two against two the rules differ |
| MarketAnalysis.UnknownVoteSplitsTheVariants | src/web/static/js/marketAnalysis.js:71-84 | an unrecognised vote vetoes the other rule's consensus but not this one's |
| ChartHandlers.ShiftPush | src/web/static/js/chartHandlers.js:150-156 | the new point is last, and when dropping, the oldest goes |
| ChartHandlers.AppendPoint | src/web/static/js/chartHandlers.js:148-156 | parallel series stay parallel, take the new point last and drop the oldest only above 100 points |
| ChartHandlers.SeriesStayBounded | src/web/static/js/chartHandlers.js:148-156 | from empty, any number of updates keeps the series parallel and at most 101 points long |
| ChartHandlers.UpdateCharts | src/web/static/js/chartHandlers.js:123-156 | the remembered votes are scored against the new price before they are replaced by the current ones |
| ChartHandlers.ScoresPreviousVotes | src/web/static/js/chartHandlers.js:133-145 | the counters move with the previous call's votes, whatever the current ones are |
| ChartHandlers.FirstUpdateScoresNothing | src/web/static/js/chartHandlers.js:133-145 | the first update only remembers the votes and the price |
| ChartHandlers.UpdateChartsConsistent | src/web/static/js/chartHandlers.js:123-156 | chart updates keep the per-model bookkeeping consistent |
| StatsManager.SummaryOf | src/web/static/js/statsManager.js:19-34 | total, correct ≤ total, incorrect = total − correct, and the per-action counts; the average change is 0 without correct trades and otherwise the sum of their price changes divided by their number, between the smallest and largest |
| StatsManager.DistributionPartitions | src/web/static/js/statsManager.js:19-28 | when every decision is BUY, SELL or HOLD, the three counts add up to the total |
| StatsManager.AsWrittenCountsNothing | src/web/static/js/statsManager.js:20-32 | as written, no recorded trade is ever counted as correct |
| StatsManager.AsWrittenMissesCorrectBuy | src/web/static/js/modelPredictions.js:61 | one correct BUY recorded by the accuracy update is summarised as no correct trade |
| StatsManager.UpdateModelStats | src/web/static/js/statsManager.js:7-34 | nothing without a wallet; otherwise each model's trades summarised with the `profitable` test as written: no trade is counted correct, all are incorrect, and the average change is 0 |
| StatsManager.UpdateModelStatsCorrected | src/web/static/js/statsManager.js:7-34 | nothing without a wallet; otherwise each model's trades summarised counting the trades whose stored verdict is correct |
| StatsManager.CorrectedStatsMatchBoard | src/web/static/js/modelPredictions.js:214-244 | while no history has been capped, the corrected statistics show each model's raw correct and total counters |
| StatsManager.ScoreKeepsMatch | src/web/static/js/modelPredictions.js:214-244 | one scored trade keeps the history and the raw counters matched |
| StatsManager.UpdateAccuracyKeepsMatch | src/web/static/js/modelPredictions.js:197-244 | every accuracy update keeps the history and the raw counters matched |
| StatsManager.CorrectedMatchesRawCounter | src/web/static/js/statsManager.js:19-34 | counting stored verdicts gives exactly the raw correct counter while nothing was dropped |
| StatsManager.StatFor | src/web/static/js/statsManager.js:178-184 | a missing model defaults to the all-zero record; a present one is used as is |
| StatsManager.BandOf | src/web/static/js/statsManager.js:232-236 | green from 65, yellow from 45, red below |
| StatsManager.BandMonotone | src/web/static/js/statsManager.js:232-236 | a higher accuracy never gets a worse colour |
| StatsManager.WalletModelView | src/web/static/js/statsManager.js:160-236 | activity is shown iff the model has decisions; the labels carry the bands of the accuracy and the raw accuracy; a missing model shows red and no activity |
| StatsManager.GetRecentTrades | src/web/static/js/statsManager.js:280-284 | exactly the trades strictly newer than now − 24 h, in order |
| StatsManager.RecentTradesSplit | src/web/static/js/statsManager.js:280-284 | the recent trades of two histories joined are those of the first followed by those of the second |
| StatsManager.RecentTradeOfOne | src/web/static/js/statsManager.js:280-284 | one trade is kept, once, exactly when it is newer than 24 h before now |
| StatsManager.RecentTradesKeepOrder | src/web/static/js/statsManager.js:280-284 | a chronological history stays chronological |
| StatsManager.RecentTradesIdempotent | src/web/static/js/statsManager.js:280-284 | filtering twice keeps the same trades |
| StatsManager.CheckDailyReset | src/web/static/js/statsManager.js:290-307 | resets and records today exactly when the stored marker is not today |
| StatsManager.DailyResetOncePerDay | src/web/static/js/statsManager.js:290-307 | the first call of a day resets and every later call that day does not |
| StatsManager.CheckFreshSession | src/web/static/js/statsManager.js:471-532 | clears only without a readable last visit or after more than 24 h, and always records the visit |
| StatsManager.FreshSessionAfterADay | src/web/static/js/statsManager.js:476-532 | a visit within a day of the recorded one does not clear; one more than a day later does |
| StatsManager.FreshCountersConsistent | src/web/static/js/statsManager.js:476-532 | the reset state satisfies both bookkeeping invariants |
| GasPrice.ParseLevels | src/tools/gas_price_api.py:72-79 | the three levels are read iff all three fields are readable numbers |
| GasPrice.Costs | src/tools/gas_price_api.py:104-109 | at a non-negative ETH price the costs keep the order of the gas prices, and positive prices cost something |
| GasPrice.CostMonotone | src/tools/gas_price_api.py:104-109 | at a non-negative ETH price the costs keep the order of the gas prices |
| GasPrice.ParseAll | src/tools/gas_price_api.py:117 | the list has one value per piece, or fails when any piece does not parse |
| GasPrice.Utilisation | src/tools/gas_price_api.py:117-118 | defined iff every ratio reads, and then the arithmetic mean of the ratios (sum ÷ count), between the smallest and the largest |
| GasPrice.UtilisationOfOneRatio | src/tools/gas_price_api.py:117-118 | a single ratio without a comma is the utilisation itself |
| GasPrice.Recommend | src/tools/gas_price_api.py:121-134 | the ladder low / standard / fast / wait with thresholds 0.4, 0.7, 50, 100, 150 |
| GasPrice.RecommendMonotone | src/tools/gas_price_api.py:121-134 | a quieter network never gets a later rung of the ladder |
| GasPrice.Fallback | src/tools/gas_price_api.py:145-164 | always "wait" with no base fee and no utilisation; with remembered prices, those prices, the remembered costs and the high flag; without them, no prices, costs or flag |
| GasPrice.AfterPrices | src/tools/gas_price_api.py:86-143 | without a valid `ethusd` the fallback with the new prices; otherwise the costs of the three prices at that ETH price are remembered; success exactly when the ratios and the base fee read too, reporting those costs, the mean utilisation, the base fee, the high flag standard > 100 and the level of the ladder |
| GasPrice.GetGasPrice | src/tools/gas_price_api.py:38-164 | the remembered prices are always all positive; an invalid oracle reply, unreadable or non-positive prices give the fallback with nothing remembered; readable positive prices are remembered and continue as `AfterPrices`; a success reports the oracle's three prices and their costs at the reply's `ethusd`, which are the remembered ones, and the high flag |
| GasPrice.SuccessWhenEverythingReads | src/tools/gas_price_api.py:38-143 | when both replies, the ratios and the base fee read and the prices are positive, the call succeeds with the prices, their costs, the mean utilisation, the base fee and the ladder's level |
| GasPrice.NonPositivePricesAreNotRemembered | src/tools/gas_price_api.py:81-84 | a non-positive price never overwrites the remembered prices |
| GasPrice.FirstFailureHasNoPrices | src/tools/gas_price_api.py:157-164 | without an earlier success a failure returns no prices and no costs |
| GasPrice.FallbackPairsNewPricesWithOldCosts | src/tools/gas_price_api.py:84-156 | when the ETH price fails, the fallback carries the new prices with the old costs |
| Explorer.ValidResult | src/tools/etherscan_api.py:62-69 | a result is used only with status "1" and a result present |
| Explorer.Field | src/tools/etherscan_api.py:74 | a missing key reads as nothing; a digit string reads as its value |
| Etherscan.Estimate | src/tools/etherscan_api.py:76-81 | high 1.05·price and low 0.95·price, symmetric around the price, so low ≤ price ≤ high for a non-negative price |
| Etherscan.ReadQuote | src/tools/etherscan_api.py:69-81 | no quote without `ethusd`; otherwise the estimate from it and the volume factor, which defaults to 0 |
| Etherscan.GetEthPrice | src/tools/etherscan_api.py:37-100 | the cache is served iff it is fresh and non-empty; a success is cached; a failure gives the cache or four zeros |
| Etherscan.CachedWithinDuration | src/tools/etherscan_api.py:46-48 | within the cache duration after a success, the same quote comes back whatever the reply |
| Etherscan.FailureServesCacheOrZeros | src/tools/etherscan_api.py:91-100 | a failure never forgets the cache, and without one gives zeros |
| Etherscan.KeepNumeric | src/tools/etherscan_api.py:146-147 | only digits and dots are kept, never more characters than given, and a digit string is kept whole |
| Etherscan.ParseGasPrice | src/tools/etherscan_api.py:138-155 | a digit string reads as its value; with `<` the `<` are dropped; otherwise only digits and dots are kept; failure gives 0 |
| Etherscan.LessThanOneReadsAsOne | src/tools/etherscan_api.py:142-144 | "<1" reads as 1 |
| Etherscan.NoDigitsReadsAsZero | src/tools/etherscan_api.py:148-150 | text with no digit and no `<` reads as 0 |
| Etherscan.ParseGasPriceRoundTrip | src/tools/etherscan_api.py:141-153 | every whole number printed in decimal reads back unchanged |
| Etherscan.ParseGasPriceNonNegative | src/tools/etherscan_api.py:145-155 | without `<` the reader never returns a negative price |
| Etherscan.FloatOfNumericNonNegative | src/tools/etherscan_api.py:146-149 | digits and dots alone never spell a negative number |
| Etherscan.GetGasPrices | src/tools/etherscan_api.py:102-190 | a valid reply with all three keys replaces the cache with its lenient reading rounded to three decimals; any failure keeps the cache and returns it |
| Etherscan.Round3 | src/tools/etherscan_api.py:157-161 | `round(x, 3)`: a whole number of thousandths within 0.0005 of x, and x itself when x already has three decimals |
| Etherscan.Round3Idempotent | src/tools/etherscan_api.py:157-161 | rounding a rounded level changes nothing |
| Etherscan.Round3Monotone | src/tools/etherscan_api.py:157-161 | rounding never reverses the order of two prices |
| Etherscan.SubGweiIsRounded | src/tools/etherscan_api.py:157-161 | "1.23456" is handed out as 1.235 |
| Etherscan.TiesGoToEven | src/tools/etherscan_api.py:157-161 | an exact half rounds to the even thousandth: 0.0025 gives 0.002, 0.0035 gives 0.004 |
| Etherscan.ReadLevel | src/tools/etherscan_api.py:138-161 | one level read leniently and rounded: three decimals, within 0.0005 of the lenient reading |
| Etherscan.LevelsKeepThreeDecimals | src/tools/etherscan_api.py:157-190 | every level handed out, fresh or cached, has three decimals at most |
| Etherscan.FailureAfterSuccessServesCache | src/tools/etherscan_api.py:178-190 | a failure after a success hands out exactly the levels of that success |
| FearGreed.AsDict | src/tools/fear_greed_api.py:51-71 | every result has exactly the two keys |
| FearGreed.ReadIndex | src/tools/fear_greed_api.py:40-54 | read iff the first entry of a non-empty list has an integer value and a classification; bullish iff above 50, never neutral |
| FearGreed.GetFearGreedIndex | src/tools/fear_greed_api.py:24-71 | the cache is served while fresh; a success is cached; an error gives the cache or the neutral default |
| FearGreed.NeutralOnlyAsDefault | src/tools/fear_greed_api.py:49-71 | neutral is returned exactly as the default when nothing was ever fetched |
| FearGreed.ReusedForTwelveHours | src/tools/fear_greed_api.py:22-35 | within twelve hours of a success the same index comes back |
| FearGreed.EmptyDataIsAnError | src/tools/fear_greed_api.py:42-43 | a missing or empty `data` list takes the error path |
| FearGreed.SingleEntry | src/tools/fear_greed_api.py:45-54 | one readable entry gives its value and sentiment |
| FearGreed.BullishAboveFifty | src/tools/fear_greed_api.py:49 | "51" is bullish and "50" bearish |
| LlmDecision.BuildPrompt | src/tools/groq_api.py:103-127 | the gas section is present iff the dictionary is truthy; a truthy one missing a level raises |
| LlmDecision.RenderedGasSection | src/tools/groq_api.py:122-127 | the gas section shows each level after its label |
| LlmDecision.ExtractDecision | src/tools/groq_api.py:89-101 | always BUY, SELL or HOLD: a substring test on the upper-cased reply with precedence BUY > SELL > HOLD, HOLD otherwise |
| LlmDecision.GetTradingDecision | src/tools/groq_api.py:31-101 | a prompt failure or any exception gives HOLD; otherwise the extracted decision |
| LlmDecision.ClientsAgree | src/tools/mistral_api.py:87-99 | the Groq, Mistral and Gemini clients reach the same decision on the same input |
| LlmDecision.BuyWinsAnywhere | src/tools/gemini_api.py:64-70 | a reply that rejects buying still reads as BUY |
| LlmDecision.LowerCaseCounts | src/tools/gemini_api.py:64-70 | lower-case keywords count too |
| AgentsState.High | src/agents/state.py:57-60 | the high, or the price when unset |
| AgentsState.Low | src/agents/state.py:62-65 | the low, or the price when unset |
| AgentsState.GasIsAcceptable | src/agents/state.py:67-72 | acceptable when the high flag is unknown, else its negation |
| AgentsState.GasPriceGwei | src/agents/state.py:74-77 | the standard entry, or none without a dictionary |
| AgentsState.GasPriceUsd | src/agents/state.py:79-82 | the standard cost, or none without a dictionary |
| AgentsState.RangeBracketsPrice | src/agents/state.py:52-65 | without a range high and low read as the price; a bracketing range stays bracketing |
| AgentsState.EstimatedRangeBracketsPrice | src/agents/state.py:57-65 | the explorer's estimated range always brackets a non-negative price |
| AgentsState.UpdateMarketData | src/agents/state.py:102-109 | the snapshot is replaced and the action kept |
| AgentsState.UpdateTradingAction | src/agents/state.py:111-118 | only the action changes |
| AgentsState.GetCurrentPrice | src/agents/state.py:120-124 | the snapshot's price, or 0.0 before any |
| AgentsState.PriceFollowsLatestSnapshot | src/agents/state.py:97-124 | a fresh state reads 0.0 and HOLD; after a snapshot the price is the snapshot's, whatever the action |
| AppState.WithDefaults | src/state.py:14-26 | the high flag defaults to False and the level to "standard" |
| AppState.UpdateMarketData | src/state.py:37-55 | an "ethereum" snapshot with the given values replaces the old; the sentiment is not stored |
| AppState.GetCurrentPrice | src/state.py:58-60 | the snapshot's price, or none before an update |
| AppState.PriceReadBack | src/state.py:32-60 | no price before an update; the stored price after one |
| AppState.SentimentIsDropped | src/state.py:37-55 | two updates that differ only in sentiment give the same state |
| SmartAccount.BuildPectraTx | src/web/static/js/smartAccount.js:355-373 | every field is kept, the type is 3, `gasToken` present iff truthy, `batch` iff a non-empty array |
| SmartAccount.BuildPectraTxIdempotent | src/web/static/js/smartAccount.js:355-373 | building twice with the same extras changes nothing more |
| SmartAccount.CreateSmartAccount | src/web/static/js/smartAccount.js:286-345 | a memoised address is returned as is; otherwise the configured or a freshly deployed address, then memoised |
| SmartAccount.SecondCallIsMemoised | src/web/static/js/smartAccount.js:291-338 | a second call returns the same address and deploys nothing |
| SmartAccount.NoDeploymentWhileConfigured | src/web/static/js/smartAccount.js:5-12 | with a configured account no signer causes a deployment |
| SmartAccount.UsdcFor | src/web/static/js/smartAccount.js:425-439 | the USDC token of chains 1, 59144, 59140 and 31337, none otherwise |
| SmartAccount.ExecuteSwap | src/web/static/js/smartAccount.js:384-489 | succeeds iff the chain has a non-empty SimpleSwap entry and a USDC token; the native path sells ETH, the other path buys it and approves iff the allowance is short |
| SmartAccount.OnlyLocalAndLineaSwap | src/web/static/js/smartAccount.js:5-12 | only the local and Linea mainnet chains can swap |
| SmartAccount.ApproveOnlyWhenShort | src/web/static/js/smartAccount.js:444-462 | the approval is skipped iff the allowance covers the amount; the native path never approves |
| SmartAccount.BatchGasToken | src/web/static/js/smartAccount.js:498 | USDC on Ethereum iff asked for, else none |
| SmartAccount.BatchTx | src/web/static/js/smartAccount.js:491-505 | to the smart account, empty data, no value, type 3, the gas token when asked for |
| SwapManager.ChainUsdc | src/web/static/js/swapManager.js:114-130 | chain 1, 59144 and the testnet/local chains map to their USDC tokens; others are rejected |
| SwapManager.ChainTablesAgree | src/web/static/js/swapManager.js:114-130 | this table agrees with the smart-account table on every supported chain |
| SwapManager.SwapAmount | src/web/static/js/swapManager.js:377-411 | at most 90 % of the balance and at least min(floor, 10 % of it) below that |
| SwapManager.SwapAmountBounds | src/web/static/js/swapManager.js:377-411 | for a non-negative balance the size stays in its bounds and grows with the confidence |
| SwapManager.ExecuteAIRecommendedSwap | src/web/static/js/swapManager.js:346-431 | no wallet is an error; a swap iff balances, BUY/SELL and a positive price; BUY spends the sized USDC, SELL the sized ETH |
| SwapManager.RecommendedSwapWithinBalance | src/web/static/js/swapManager.js:377-411 | a recommended swap never spends more than 90 % of its balance, nor a negative amount |
| SwapManager.SwapEthToUsdc | src/web/static/js/swapManager.js:76-211 | refused when amount + 0.0002 ETH exceeds the balance; routed iff the chain is supported and confirmed; Linea through Kyber, others through SimpleSwap |
| SwapManager.SwapUsdcToEth | src/web/static/js/swapManager.js:213-344 | no reserve check; routed iff the chain is supported and confirmed; Linea through Kyber, others through SimpleSwap |
| SwapManager.ReserveCheckedBeforeChain | src/web/static/js/swapManager.js:103-109 | an ETH sale eating into the reserve is refused even on an unsupported chain |
| SwapManager.SimpleRoutesMeetExecuteSwap | src/web/static/js/swapManager.js:152-164 | on the local chain the SimpleSwap routes are exactly the native and token paths of the smart-account swap |
| SwapManager.EthSaleRecord | src/web/static/js/swapManager.js:167-182 | the USDC estimate is the amount at the ETH price |
| SwapManager.UsdcSpendRecord | src/web/static/js/swapManager.js:298-313 | the ETH estimate is the amount over the price, or 0 without a price |
| SwapManager.RecordSwap | src/web/static/js/swapManager.js:177-182 | the record goes first, the older records follow in order, and at most ten are kept |
| SwapManager.RecentSwapsNewestFirst | src/web/static/js/swapManager.js:177-182 | from empty, the list holds the last ten swaps at most, newest first |
| SwapManager.RecordAllFrom | src/web/static/js/swapManager.js:177-182 | recording several gives them reversed in front, cut to ten |
| SwapManager.KyberGuard | src/web/static/js/swapManager.js:598-603 | native input below 1e15 wei and token input below 1e6 units are refused |
| SwapManager.KyberGuardIgnoresCase | src/web/static/js/swapManager.js:598-603 | the letter case of the input token never changes the verdict |
| SwapManager.DecodeKyberReply | src/web/static/js/swapManager.js:564-581 | top-level calldata wins; code 0 with data gives the data; other legacy replies fail with the message, else the no-route text for 4008, else their code, a `null` code kept distinct from any number; no code is unexpected |
| SwapManager.KyberFormatsAgree | src/web/static/js/swapManager.js:564-575 | a quote sent top-level or under `data` with code 0 decodes to the same quote |
| SwapManager.KyberErrorReplySendsNothing | src/web/static/js/swapManager.js:572-581 | a legacy reply without code 0 and data never produces a router transaction |
| SwapManager.KyberTxFor | src/web/static/js/swapManager.js:604-626 | a token input is approved when the allowance is short; the quoted value, or the amount for native input, is sent |
| SwapManager.ExecuteKyberSwap | src/web/static/js/swapManager.js:594-626 | guard, decode, approve and send, in that order |
| SwapManager.NativeInputCarriesItsValue | src/web/static/js/swapManager.js:604-626 | native input needs no approval and carries the amount when no value is quoted |
| NotificationManager.MinEthTransaction | src/web/static/js/notificationManager.js:110 | 0.001 ETH or a quarter of a smaller positive balance; 0 for none |
| NotificationManager.MinUsdcTransaction | src/web/static/js/notificationManager.js:111 | 0.5 USDC or a quarter of a smaller positive balance; 0 for none |
| NotificationManager.UsdcToUse | src/web/static/js/notificationManager.js:119 | for a positive balance a positive spend within the balance, at least the minimum and 5 % above 0.5 USDC |
| NotificationManager.EthToSell | src/web/static/js/notificationManager.js:185 | for a positive balance a positive sale within the balance, at least the minimum and 5 % above 0.01 ETH |
| NotificationManager.FallbackFees | src/web/static/js/notificationManager.js:91-102 | always a gas price; EIP-1559 values exactly for Ethereum and Linea |
| NotificationManager.ReadFees | src/web/static/js/notificationManager.js:74-102 | a failed fetch or a missing standard level gives the fallback; with a base fee the priority is 1.5 gwei and the cap 2·base + 1.5; without one no EIP-1559 values |
| NotificationManager.TxFeeFields | src/web/static/js/notificationManager.js:145-164 | EIP-1559 fields iff chain 1 or 59144 and both are known; else the legacy gas price |
| NotificationManager.FeeCapCoversDoubledBase | src/web/static/js/notificationManager.js:80-86 | the cap covers twice the base fee plus the priority fee |
| NotificationManager.OtherChainsAreLegacy | src/web/static/js/notificationManager.js:145-164 | other chains always send the legacy field |
| NotificationManager.SendWalletNotification | src/web/static/js/notificationManager.js:30-304 | a transaction only for BUY/SELL with a wallet and a positive price; a BUY with USDC converts the `UsdcToUse` amount of the USDC balance (its ETH equivalent at the price), a SELL with ETH sells the `EthToSell` amount of the ETH balance (its USDC value at the price), otherwise a notice; the fees are those of the chain and the gas reply |
| NotificationManager.HoldNeverTransacts | src/web/static/js/notificationManager.js:38-41 | HOLD never produces a transaction |
| NotificationManager.EthAllocation | src/web/static/js/notificationManager.js:322-324 | eth·price/total·100 for a positive recorded total and 0 for a negative one; a missing or zero (falsy) total falls back to the ETH value, giving 100 % for a positive ETH value and 0 otherwise; in [0, 100] when the ETH value is within a positive total |
| NotificationManager.AllEthWithoutTotal | src/web/static/js/notificationManager.js:322-324 | an all-ETH portfolio without a total, or with the 0 total written before the balances are complete, is 100 % ETH |
| NotificationManager.ShareIsPercent | src/web/static/js/notificationManager.js:322-324 | a part of a positive whole is between 0 and 100 percent of it |
| NotificationManager.RecordWalletAction | src/web/static/js/notificationManager.js:311-357 | recorded only with a wallet, a positive price and an accepting server; the recorded fields are the action, the balances, the ETH share read with the `totalValueUSD \|\| ethValueUSD` fallback, and the network "linea" iff chain 59144 |
| WalletCore.Abbreviate | src/web/static/js/walletCore.js:41-43 | 13 characters keeping the first six and last four |
| WalletCore.FormatWalletAddress | src/web/static/js/walletCore.js:36-44 | empty stays empty; a short invalid text is kept; everything else is abbreviated to 13 characters |
| WalletCore.FormattedAddressKeepsEnds | src/web/static/js/walletCore.js:38-43 | two addresses format alike iff their first six and last four characters agree |
| WalletCore.RememberDisconnected | src/web/static/js/walletCore.js:204-208 | the lower-case account is appended only if absent, so the list never has duplicates |
| WalletCore.ForgetDisconnected | src/web/static/js/walletCore.js:258-261 | an absent account leaves the list as is; a present one is removed once and nothing is added; on a list without duplicates it is gone afterwards |
| WalletCore.ForgetUndoesRemember | src/web/static/js/walletCore.js:204-261 | forgetting an account just remembered gives the list back |
| WalletCore.SetupListeners | src/web/static/js/walletCore.js:324-335 | listeners are installed once a provider is seen and counted only on the first install; nothing else changes |
| WalletCore.SetupKeepsListenersOnce | src/web/static/js/walletCore.js:325-334 | setup keeps the at-most-once invariant |
| WalletCore.RepeatedSetupInstallsOnce | src/web/static/js/walletCore.js:325-334 | any number of setups installs at most once |
| WalletCore.GetWalletBalances | src/web/static/js/walletCore.js:141-185 | without an account or provider every balance is zero; otherwise the balances are zeroed keeping a known ETH price, USDC is read only on chains 1 and 59144, a missing price comes from the server, and the total is ETH times price plus USDC, or zero without a price |
| WalletCore.FetchReplacesOldBalances | src/web/static/js/walletCore.js:148-151 | only the known ETH price of the earlier balances influences the fetched balances |
| WalletCore.ConnectWallet | src/web/static/js/walletCore.js:201-281 | a connected wallet disconnects, is remembered, loses the provider and has zero balances; otherwise the first account connects, leaves the disconnected list, is saved, and its balances are fetched |
| WalletCore.HandleAccountsChanged | src/web/static/js/walletCore.js:311-321 | no account clears the account and balances; a disconnected account clears the account; the same account is a no-op; otherwise it switches, is saved, and its balances are fetched |
| WalletCore.DisconnectedAccountStaysOut | src/web/static/js/walletCore.js:204-208 | an account the user disconnected is not reconnected by the provider, in any letter case |
| WalletCore.ReconnectRestores | src/web/static/js/walletCore.js:201-281 | disconnecting and connecting again restores the account and the list; the balances are fetched afresh from no known price |
| WalletManager.PersistWalletConnection | src/web/static/js/walletManager.js:7-13 | the account is saved iff truthy, else removed; other keys untouched |
| WalletManager.ButtonLabel | src/web/static/js/walletManager.js:18-29 | `substring(0,6)` + "..." + `substring(38)` + icon, or "Connect Wallet" |
| WalletManager.LabelMatchesFormattedAddress | src/web/static/js/walletManager.js:21 | on an address the label shows the same abbreviation as the formatter |
| WalletManager.LabelDiffersOnLongerText | src/web/static/js/walletManager.js:21 | on a 44-character text the label is two characters longer |
| WalletManager.PersistTradingHistory | src/web/static/js/walletManager.js:62-71 | the history, accuracy, raw accuracy and time stamp are saved; other keys untouched |
| WalletManager.LoadPersistedHistory | src/web/static/js/walletManager.js:34-57 | nothing is read without a wallet; saved non-empty texts replace the current ones |
| WalletManager.PersistThenLoad | src/web/static/js/walletManager.js:37-67 | a connected page loads back what was saved; one without a wallet keeps its own |
| WalletManager.ClearExpiredWith | src/web/static/js/walletManager.js:76-86 | the six keys go iff the stamp is more than a day old; others stay |
| WalletManager.ClearExpiredData | src/web/static/js/walletManager.js:76-86 | the rule applied to the saved stamp read without radix |
| WalletManager.MissingStampCountsAsZero | src/web/static/js/walletManager.js:78 | a missing stamp counts as 0 |
| WalletManager.ExpiresAfterADay | src/web/static/js/walletManager.js:62-86 | data saved at a time is cleared iff more than a day has passed; the account is never touched |
| WalletUI.ButtonLabel | src/web/static/js/walletUI.js:28-40 | the formatted account + icon, or "Connect Wallet" |
| WalletUI.LabelsAgreeOnAddresses | src/web/static/js/walletUI.js:31-32 | both label copies agree on every address and on no account |
| WalletUI.SaveWalletCard | src/web/static/js/walletUI.js:42-49 | saved only when nothing is saved yet and the card is non-empty |
| WalletUI.FirstCardStaysSaved | src/web/static/js/walletUI.js:47-49 | the first non-empty card stays saved whatever later calls see |
| WalletUI.NetworkBadge | src/web/static/js/walletUI.js:64-78 | the six known chains and "Unknown Network" on grey |
| WalletUI.MatchBg | src/web/static/js/walletUI.js:79 | a match of `bg-\w+-\d+` at the start is at least six characters, within the text, and starts with `bg-` |
| WalletUI.StripBg | src/web/static/js/walletUI.js:79 | the rewrite never lengthens the class text |
| WalletUI.BadgeClass | src/web/static/js/walletUI.js:79 | the new class ends with the chosen background after one space |
| WalletUI.StripRemovesBgTokens | src/web/static/js/walletUI.js:79 | on tokens that are backgrounds or free of `bg-`, exactly the background tokens are removed |
| WalletUI.BackgroundReplaced | src/web/static/js/walletUI.js:68-79 | a badge with one class and a background gets the chosen background instead |
| WalletUI.ClearExpiredData | src/web/static/js/walletUI.js:118-128 | the six keys go iff the radix-10 stamp is more than a day old |
| WalletUI.ExpiryCopiesAgree | src/web/static/js/walletUI.js:118-128 | the two copies agree on every stamp the page writes |
| WalletUI.ExpiryCopiesDifferOnHex | src/web/static/js/walletUI.js:118-128 | they differ on "0x1" |
| Utils.FormatMessage | src/web/static/js/utils.js:8-19 | the `<div>`-wrapped lines of the message, concatenated, with no line break |
| Utils.FormatMessageLines | src/web/static/js/utils.js:13 | one wrapper per line, newlines + 1 of them, and the lines rejoined give the message |
| Utils.SingleLineMessage | src/web/static/js/utils.js:13 | a message without line breaks is one wrapper |
| Utils.ShowNotification | src/web/static/js/utils.js:8-19 | the class is the type, "info" by default, and the body the formatted message |
| Utils.LogToServer | src/web/static/js/utils.js:36-68 | error and warn go to their console methods and are posted; everything else is logged only |
| Utils.PostMirrorsConsole | src/web/static/js/utils.js:38-67 | the server receives exactly the lines not printed with `console.log`, under the printing console method's name and with the same message |
| ExtractAddresses.NetworkChainId | scripts/extract-addresses.js:6-13 | linea names give 59144, testnet names 59140, local names 31337, others none |
| ExtractAddresses.ResolveChain | scripts/extract-addresses.js:38-61 | the captured id, else the mapped name, else 59140; a testnet id yields to a known name |
| ExtractAddresses.KnownNameOverridesTestnetId | scripts/extract-addresses.js:58-61 | a known name wins over a captured testnet id |
| ExtractAddresses.HardhatWithTestnetId | scripts/extract-addresses.js:58-61 | "hardhat (chainId: 59140)" resolves to 31337 |
| ExtractAddresses.ResolvedChainNonEmpty | scripts/extract-addresses.js:40-61 | the resolved id is never empty |
| ExtractAddresses.MappedChainsAreNamed | scripts/extract-addresses.js:6-13 | every chain id a network name maps to has a name in the update script |
| ExtractAddresses.ResolvedChainIsNamed | scripts/extract-addresses.js:38-61 | with nothing captured, or a known name without a usable id, the resolved chain has a name in the update script |
| ExtractAddresses.UpdateArgs | scripts/extract-addresses.js:69-78 | address and chain, plus the smart account only for 31337 with one |
| ExtractAddresses.UpdateCommand | scripts/extract-addresses.js:68-83 | no command without a SimpleSwap address |
| ExtractAddresses.SplitJoin | scripts/extract-addresses.js:78-83 | the shell's split of the command gives back its words |
| ExtractAddresses.ExtractedAddressesReachUpdate | scripts/extract-addresses.js:68-83 | the built command makes the update script record the address under the resolved chain |
| UpdateAddresses.GetNetworkName | scripts/update-contract-addresses.js:53-64 | the three known chains and "Unknown Network" |
| UpdateAddresses.UpdateFromArgs | scripts/update-contract-addresses.js:67-90 | an error iff no argument; the chain defaults to 59140; only its entry is written; the smart account only for 31337 |
| UpdateAddresses.OnlyNamedChainWritten | scripts/update-contract-addresses.js:78 | the other chains keep an empty address |
| UpdateAddresses.LoneAddressGoesToTestnet | scripts/update-contract-addresses.js:75 | a lone address goes to the testnet entry |
| Common.Lower | src/web/static/js/walletCore.js:204-208 | ASCII lower case, character by character, same length |
| Common.Split | src/web/static/js/utils.js:13 | at least one piece, none containing the separator |
| Common.JoinSplit | src/web/static/js/utils.js:13 | joining the pieces of a split gives the text back |
| Common.ParseIntDigits | src/web/static/js/walletManager.js:78 | both `parseInt` flavours read a digit string as its value |

## Left out

- HTTP and provider I/O (Etherscan, alternative.me, Kyber, the model providers, MetaMask and ethers signers): replies are inputs, and failures are an error value.
- The wording of the model prompts: only whether the gas section is present, and its levels, are modelled.
- Flask routes, the market-data agent wiring, SQLite DDL, PRAGMA and VACUUM.
- SQL `strftime` period strings: the period is an abstract function of the time stamp. The local time versus UTC skew of `datetime('now')` is left out too.
- ROUND and `toFixed` display rounding. Floating point is `real`: no NaN, infinities or rounding.
- Etherscan.GetGasPrices: the levels are returned and cached as numbers. The source returns and caches `str()` of each rounded float, which is not modelled. `round(…, 3)` is modelled on exact reals: a tie goes to the even thousandth, while Python decides a tie on the binary value of the float, which is rarely exactly half way.
- The square-root volatility and the weighted display score. The volatility is an input to the thresholds.
- Unicode case mapping: upper and lower case are ASCII only. Python `float`/`int` and JavaScript `parseInt` read ASCII decimal forms only; `parseInt` without radix also reads `0x`.
- JSON stringify/parse of local-storage values: the saved values are kept as texts. `STORAGE_KEYS` string values are not part of this model (an abstract key type stands in).
- DOM, Chart.js, modals, timers and async ordering. The `classList.remove` normalisation of the badge is left out; the rewrite of the class text is modelled.
- Ethers `parseEther`/`parseUnits` decimals and overflow exceptions, `toWei` failures in fees, and the general-notification transaction details.
- `NETWORK_CHAIN_IDS` inherited object properties (such as "constructor").
- The deployment log's regular-expression searches (the captures are inputs), and file reads and writes in the scripts.
- `switchNetwork` and `getTokenBalance`: provider calls with no decision logic.
- WalletCore.GetWalletBalances: the provider and server requests are a parameter (`Fetched`); a request that fails after the first, or a late reply racing a later call, is not modelled.
- The Solidity contracts, deployment and verification scripts, hardhat and playwright configuration, `moduleLoader.js`, `clear-storage.js` and the tests.
- MarketAnalysis.TradeScore: requires a positive threshold, which both threshold functions guarantee.
- ModelPredictions.UpdateAccuracy: requires a non-zero previous price. The page divides by it and would produce Infinity or NaN, which reals cannot model.
- ChartHandlers.UpdateCharts: the same non-zero previous price as the accuracy update.
- DecisionStore.ModelComparison: `days` is a natural number; a negative window makes SQLite compare with NULL.
- ModelPredictions.CheckLLMConsensus: votes are texts or absent; a non-text vote, such as a number, is not modelled.
- WalletUI.StripBg: states only that the rewrite never lengthens the text; what it removes is stated by WalletUI.StripRemovesBgTokens under that lemma's token assumption.
- DecisionStore.Judge: requires a non-zero stored price; the zero-price case is the error path of DecisionStore.LabelRows.
- StatsManager.GetRecentTrades: the cutoff is exactly 24 hours (`DayMs`) before now. The page subtracts 24 from the local clock's hours (`setHours(getHours() - 24)`), which is 23 or 25 hours across a daylight-saving change; time zones are not modelled.
- WalletUI.StripRemovesBgTokens: assumes every token is a background or free of `bg-`. The regular expression has no word boundary, so "hover:bg-blue-800" becomes "hover:".

## Findings

| source | as written | input that shows it | evidently intended | confidence | as-written member | corrected member |
|---|---|---|---|---|---|---|
| src/web/static/js/statsManager.js:20 | the correct count filters on `t.profitable`, a field the accuracy update never records (it stores `isCorrect`); `calculateAccuracy` in modelPredictions.js:61 does the same | one BUY scored on a +2 % move at a 0.5 % threshold: stored `isCorrect` true, counted correct 0 | count the trades whose stored verdict is correct, matching the raw counter | high; not executed | StatsManager.AsWrittenMissesCorrectBuy | StatsManager.UpdateModelStatsCorrected |

Other behaviours the proofs make visible are modelled as written:

- `buildPectraTx` uses transaction type 3, which is EIP-4844's. EIP-7702 uses type 4.
- Chains 1 and 59140 cannot swap through SimpleSwap.
- The gas fallback pairs new prices with old costs.
- A reply "SELL, NOT BUY" reads as BUY.
- A truthy gas dictionary missing a level gives HOLD.
- The notification fee code reads `gas_prices.base_fee`, which the backend's gas dictionary never has.
- The two copies of `clearExpiredData` differ on hexadecimal stamps.
- The legacy button label differs from `formatWalletAddress` on texts that are not 42 characters long.
- `formatWalletAddress` lengthens invalid texts of 11 or 12 characters to 13.

=== FILE: agents_state.dfy ===
/** The agents' state (`src/agents/state.py`): the market snapshot with its derived
    readings, and the trading state holding the latest snapshot and action. The fetch
    time is an input. */
module AgentsState {
  import opened Common
  import Etherscan

  /** `MarketData`: every field after `timestamp` is optional. */
  datatype MarketData = MarketData(
    symbol: string, priceUsd: real, timestamp: int,
    volume: Option<real>, high24h: Option<real>, low24h: Option<real>,
    gasPrices: Option<map<string, real>>, gasCostsUsd: Option<map<string, real>>,
    isGasPriceHigh: Option<bool>, recommendedGasLevel: Option<string>)

  /** A snapshot with only the three required fields set. */
  function Snapshot(symbol: string, priceUsd: real, timestamp: int): (m: MarketData)
    ensures m.symbol == symbol && m.priceUsd == priceUsd && m.timestamp == timestamp
    ensures m.volume.None? && m.high24h.None? && m.low24h.None?
    ensures m.gasPrices.None? && m.gasCostsUsd.None?
    ensures m.isGasPriceHigh.None? && m.recommendedGasLevel.None?
  {
    MarketData(symbol, priceUsd, timestamp, None, None, None, None, None, None, None)
  }

  function Price(m: MarketData): real
  {
    m.priceUsd
  }

  /** The daily high, standing in the current price when unknown. */
  function High(m: MarketData): (h: real)
    ensures m.high24h.None? ==> h == Price(m)
    ensures m.high24h.Some? ==> h == m.high24h.value
  {
    if m.high24h.Some? then m.high24h.value else m.priceUsd
  }

  /** The daily low, standing in the current price when unknown. */
  function Low(m: MarketData): (l: real)
    ensures m.low24h.None? ==> l == Price(m)
    ensures m.low24h.Some? ==> l == m.low24h.value
  {
    if m.low24h.Some? then m.low24h.value else m.priceUsd
  }

  /** Gas is acceptable unless it is known to be high; an unknown flag counts as
      acceptable. */
  function GasIsAcceptable(m: MarketData): (ok: bool)
    ensures ok <==> m.isGasPriceHigh != Some(true)
  {
    if m.isGasPriceHigh.Some? then !m.isGasPriceHigh.value else true
  }

  /** `d.get("standard") if d else None`: an empty dictionary is falsy. */
  function Standard(d: Option<map<string, real>>): (r: Option<real>)
    ensures r.Some? <==> d.Some? && "standard" in d.value
    ensures r.Some? ==> r.value == d.value["standard"]
  {
    if d.Some? && |d.value| > 0 then
      if "standard" in d.value then Some(d.value["standard"]) else None
    else None
  }

  /** The standard gas price in gwei, when known. */
  function GasPriceGwei(m: MarketData): (r: Option<real>)
    ensures r.Some? <==> m.gasPrices.Some? && "standard" in m.gasPrices.value
    ensures r.Some? ==> r.value == m.gasPrices.value["standard"]
  {
    Standard(m.gasPrices)
  }

  /** The standard transfer cost in USD, when known. */
  function GasPriceUsd(m: MarketData): (r: Option<real>)
    ensures r.Some? <==> m.gasCostsUsd.Some? && "standard" in m.gasCostsUsd.value
    ensures r.Some? ==> r.value == m.gasCostsUsd.value["standard"]
  {
    Standard(m.gasCostsUsd)
  }

  /** Without a daily range, the high and the low both read as the price; a range that
      brackets the price keeps it bracketed. */
  lemma RangeBracketsPrice(m: MarketData)
    requires m.high24h.None? || m.high24h.value >= m.priceUsd
    requires m.low24h.None? || m.low24h.value <= m.priceUsd
    ensures Low(m) <= Price(m) <= High(m)
    ensures m.high24h.None? && m.low24h.None? ==> Low(m) == Price(m) == High(m)
  {
  }

  /** The range the explorer client estimates from a non-negative price always brackets
      that price. */
  lemma EstimatedRangeBracketsPrice(symbol: string, price: real, factor: real, timestamp: int)
    requires price >= 0.0
    ensures var q := Etherscan.Estimate(price, factor);
      var m := Snapshot(symbol, q.price, timestamp).(high24h := Some(q.high), low24h := Some(q.low));
      Low(m) <= Price(m) <= High(m)
  {
  }

  /** `TradingState`: the latest snapshot, if any, and the current action. */
  datatype TradingState = TradingState(marketData: Option<MarketData>, tradingAction: Action)

  /** A new state: no snapshot and HOLD. */
  const Initial := TradingState(None, Hold)

  function UpdateMarketData(s: TradingState, m: MarketData): (r: TradingState)
    ensures r.marketData == Some(m) && r.tradingAction == s.tradingAction
  {
    s.(marketData := Some(m))
  }

  function UpdateTradingAction(s: TradingState, a: Action): (r: TradingState)
    ensures r.tradingAction == a && r.marketData == s.marketData
  {
    s.(tradingAction := a)
  }

  /** The latest price, or 0.0 before any snapshot. */
  function GetCurrentPrice(s: TradingState): (p: real)
    ensures s.marketData.None? ==> p == 0.0
    ensures s.marketData.Some? ==> p == Price(s.marketData.value)
  {
    match s.marketData
    case None => 0.0
    case Some(m) => m.priceUsd
  }

  /** A fresh state reads price 0.0 and action HOLD; after storing a snapshot the price
      read back is the snapshot's, and changing the action does not change it. */
  lemma PriceFollowsLatestSnapshot(s: TradingState, m: MarketData, a: Action)
    ensures GetCurrentPrice(Initial) == 0.0 && Initial.tradingAction == Hold
    ensures GetCurrentPrice(UpdateMarketData(s, m)) == m.priceUsd
    ensures GetCurrentPrice(UpdateTradingAction(UpdateMarketData(s, m), a)) == m.priceUsd
    ensures UpdateTradingAction(UpdateMarketData(s, m), a) == UpdateMarketData(UpdateTradingAction(s, a), m)
  {
  }
}

=== FILE: app_state.dfy ===
/** The application's state (`src/state.py`): a market snapshot with gas defaults, and the
    trading state the refresh loop writes. The clock is an input. */
module AppState {
  import opened Common

  /** `MarketData` of the application: the high-gas flag defaults to false and the gas
      level to "standard". */
  datatype MarketData = MarketData(
    symbol: string, priceUsd: real, timestamp: int,
    volume: Option<real>, high24h: Option<real>, low24h: Option<real>,
    gasPrices: Option<map<string, int>>, gasCostsUsd: Option<map<string, real>>,
    isGasPriceHigh: Option<bool>, recommendedGasLevel: string)

  /** The snapshot built with only the required fields and the six optional ones that
      `update_market_data` passes; the rest take their defaults. */
  function WithDefaults(symbol: string, priceUsd: real, timestamp: int, volume: Option<real>,
                        high: Option<real>, low: Option<real>, gasPrices: Option<map<string, int>>): (m: MarketData)
    ensures m.symbol == symbol && m.priceUsd == priceUsd && m.timestamp == timestamp
    ensures m.volume == volume && m.high24h == high && m.low24h == low && m.gasPrices == gasPrices
    ensures m.gasCostsUsd.None? && m.isGasPriceHigh == Some(false) && m.recommendedGasLevel == "standard"
  {
    MarketData(symbol, priceUsd, timestamp, volume, high, low, gasPrices, None, Some(false), "standard")
  }

  /** `TradingState`: the latest snapshot and when it was taken. */
  datatype TradingState = TradingState(marketData: Option<MarketData>, lastUpdate: Option<int>)

  const Initial := TradingState(None, None)

  /** `update_market_data` at time `now`: a new "ethereum" snapshot replaces the old one;
      the sentiment argument is accepted but not stored. */
  function UpdateMarketData(s: TradingState, price: real, volume: real, high: real, low: real,
                            gasPrices: Option<map<string, int>>, sentiment: map<string, string>, now: int)
    : (r: TradingState)
    ensures r.lastUpdate == Some(now)
    ensures r.marketData.Some?
    ensures var m := r.marketData.value;
      && m.symbol == "ethereum" && m.priceUsd == price && m.timestamp == now
      && m.volume == Some(volume) && m.high24h == Some(high) && m.low24h == Some(low)
      && m.gasPrices == gasPrices
      && m.gasCostsUsd.None? && m.isGasPriceHigh == Some(false) && m.recommendedGasLevel == "standard"
  {
    TradingState(Some(WithDefaults("ethereum", price, now, Some(volume), Some(high), Some(low), gasPrices)), Some(now))
  }

  /** The latest price, or `None` before the first update. */
  function GetCurrentPrice(s: TradingState): (p: Option<real>)
    ensures p.Some? <==> s.marketData.Some?
    ensures p.Some? ==> p.value == s.marketData.value.priceUsd
  {
    if s.marketData.Some? then Some(s.marketData.value.priceUsd) else None
  }

  /** Before any update there is no price; after `update_market_data(p, …)` the price read
      back is `p`, whatever was there before. */
  lemma PriceReadBack(s: TradingState, price: real, volume: real, high: real, low: real,
                      gasPrices: Option<map<string, int>>, sentiment: map<string, string>, now: int)
    ensures GetCurrentPrice(Initial).None?
    ensures GetCurrentPrice(UpdateMarketData(s, price, volume, high, low, gasPrices, sentiment, now)) == Some(price)
  {
  }

  /** The sentiment never reaches the state, and the previous state is fully replaced. */
  lemma SentimentIsDropped(s1: TradingState, s2: TradingState, price: real, volume: real, high: real, low: real,
                           gasPrices: Option<map<string, int>>, e1: map<string, string>, e2: map<string, string>, now: int)
    ensures UpdateMarketData(s1, price, volume, high, low, gasPrices, e1, now)
         == UpdateMarketData(s2, price, volume, high, low, gasPrices, e2, now)
  {
  }
}

=== FILE: chart_handlers.dfy ===
/** `updateCharts` of `chartHandlers.js`: scores the previous votes against the new
    price, then remembers the new votes, and appends one point to the three parallel
    chart series, keeping about a hundred points. */
module ChartHandlers {
  import opened Common
  import MP = ModelPredictions

  /** Most points a series holds before the oldest is dropped. */
  const SeriesCap: nat := 100

  /** `window.timeLabels`, `window.priceHistory`, `window.volumeHistory`. */
  datatype Series = Series(labels: seq<string>, prices: seq<real>, volumes: seq<real>)

  predicate Parallel(s: Series)
  {
    |s.labels| == |s.prices| == |s.volumes|
  }

  /** `shift()` when `drop` holds (a no-op on an empty array), then `push(x)`. */
  function ShiftPush<T>(s: seq<T>, drop: bool, x: T): (r: seq<T>)
    ensures |r| > 0 && r[|r| - 1] == x
    ensures drop && |s| > 0 ==> r == s[1..] + [x]
    ensures !drop ==> r == s + [x]
  {
    (if drop && |s| > 0 then s[1..] else s) + [x]
  }

  /** The series part of `updateCharts`: all three series drop their oldest point when the
      labels already hold more than 100, and then take the new point. */
  function AppendPoint(s: Series, timeLabel: string, price: real, volume: real): (r: Series)
    ensures Parallel(s) ==> Parallel(r)
    ensures |s.labels| <= SeriesCap + 1 ==> |r.labels| <= SeriesCap + 1
    ensures |r.labels| == if |s.labels| > SeriesCap then |s.labels| else |s.labels| + 1
    ensures |r.labels| > 0 && r.labels[|r.labels| - 1] == timeLabel
    ensures |r.prices| > 0 && r.prices[|r.prices| - 1] == price
    ensures |r.volumes| > 0 && r.volumes[|r.volumes| - 1] == volume
    ensures |s.labels| > SeriesCap ==> r.labels == s.labels[1..] + [timeLabel]
    ensures |s.labels| <= SeriesCap ==>
      r.labels == s.labels + [timeLabel] && r.prices == s.prices + [price] && r.volumes == s.volumes + [volume]
  {
    var drop := |s.labels| > SeriesCap;
    Series(ShiftPush(s.labels, drop, timeLabel), ShiftPush(s.prices, drop, price), ShiftPush(s.volumes, drop, volume))
  }

  /** Successive calls of `AppendPoint`. */
  function AppendAll(s: Series, points: seq<(string, real, real)>): Series
    decreases |points|
  {
    if points == [] then s
    else
      var (l, p, v) := points[0];
      AppendAll(AppendPoint(s, l, p, v), points[1..])
  }

  /** Starting from empty series, any number of updates keeps them parallel and at most
      101 points long. */
  lemma {:induction false} SeriesStayBounded(s: Series, points: seq<(string, real, real)>)
    requires Parallel(s) && |s.labels| <= SeriesCap + 1
    ensures var r := AppendAll(s, points); Parallel(r) && |r.labels| <= SeriesCap + 1
    decreases |points|
  {
    if points != [] {
      var (l, p, v) := points[0];
      SeriesStayBounded(AppendPoint(s, l, p, v), points[1..]);
    }
  }

  /** The page state one chart update touches. */
  datatype Page = Page(board: MP.Board, series: Series)

  /** The page before the first update: no previous votes, no previous price. */
  function InitialLast(): MP.LastDecisions
  {
    MP.LastDecisions(MP.PerModel(None, None, None), None)
  }

  /** `updateCharts(price, sentiment, gemini, groq, mistral, volume)`. When
      `updateAccuracy` is loaded it scores the votes remembered by the previous call
      against `price`; only afterwards are the new votes and price remembered. `timeLabel` is
      the local time string and `spread` the volatility the buffer computes; the
      sentiment argument is unused. */
  function UpdateCharts(page: Page, price: real, votes: MP.Decisions, volume: real,
                        accuracyLoaded: bool, timeLabel: string, now: int, spread: real): (r: Page)
    requires page.board.last.price.Some? ==> page.board.last.price.value != 0.0
    ensures r.board.last == MP.LastDecisions(votes, Some(price))
    ensures accuracyLoaded ==>
      var scored := MP.UpdateAccuracy(page.board, price, now, spread);
      r.board == scored.(last := r.board.last)
    ensures !accuracyLoaded ==> r.board == page.board.(last := r.board.last)
    ensures r.series == AppendPoint(page.series, timeLabel, price, volume)
  {
    var scored := if accuracyLoaded then MP.UpdateAccuracy(page.board, price, now, spread) else page.board;
    Page(scored.(last := MP.LastDecisions(votes, Some(price))), AppendPoint(page.series, timeLabel, price, volume))
  }

  /** The counters advance with the votes of the previous call, not with the votes passed
      in: whatever `votes` holds, every model moves exactly as its remembered vote says. */
  lemma ScoresPreviousVotes(page: Page, price: real, votes: MP.Decisions, volume: real,
                            timeLabel: string, now: int, spread: real, m: MP.Model)
    requires page.board.last.price.Some? && page.board.last.price.value != 0.0
    ensures var r := UpdateCharts(page, price, votes, volume, true, timeLabel, now, spread);
      MP.Advanced(page.board, r.board, m, MP.MoveSince(page.board.last.price.value, price),
                  MP.DynamicThreshold(r.board.tracker.current), price, now)
  {
  }

  /** The first update scores nothing and only remembers the votes and the price. */
  lemma FirstUpdateScoresNothing(page: Page, price: real, votes: MP.Decisions, volume: real,
                                 accuracyLoaded: bool, timeLabel: string, now: int, spread: real)
    requires page.board.last == InitialLast()
    ensures var r := UpdateCharts(page, price, votes, volume, accuracyLoaded, timeLabel, now, spread);
      && r.board.raw == page.board.raw
      && r.board.history == page.board.history
      && r.board.tracker == page.board.tracker
  {
  }

  /** Scoring keeps the per-model bookkeeping consistent across chart updates. */
  lemma UpdateChartsConsistent(page: Page, price: real, votes: MP.Decisions, volume: real,
                               accuracyLoaded: bool, timeLabel: string, now: int, spread: real)
    requires page.board.last.price.Some? ==> page.board.last.price.value != 0.0
    requires MP.Consistent(page.board)
    ensures MP.Consistent(UpdateCharts(page, price, votes, volume, accuracyLoaded, timeLabel, now, spread).board)
  {
    if accuracyLoaded {
      MP.UpdateAccuracyConsistent(page.board, price, now, spread);
    }
  }
}

=== FILE: common.dfy ===
/** Shared vocabulary of the trading-bot model: optional and failing results, the three
    trading actions, and the small ASCII string and number-parsing helpers that the
    Python services and the browser scripts both rely on. */
module Common {

  /** A value that may be missing (Python `None`, JavaScript `null`/`undefined`). */
  datatype Option<+T> = None | Some(value: T)

  /** The outcome of an operation that can raise: `Err` stands for the exception. */
  datatype Result<+T, +E> = Ok(value: T) | Err(error: E)

  /** A JavaScript value that is either a string or `null`/`undefined` (`None`). */
  type JsString = Option<string>

  /** JavaScript truthiness of such a value: present and non-empty. */
  predicate Truthy(v: JsString)
  {
    v.Some? && v.value != ""
  }

  /** The three trading signals every predictor emits. */
  datatype Action = Buy | Sell | Hold

  /** The wire spelling of an action, as stored in the database and sent to the browser. */
  function ActionName(a: Action): string
  {
    match a
    case Buy => "BUY"
    case Sell => "SELL"
    case Hold => "HOLD"
  }

  /** Reads an action back from its wire spelling; any other text is not an action. */
  function ParseAction(s: string): (r: Option<Action>)
    ensures r.Some? ==> ActionName(r.value) == s
    ensures s in {"BUY", "SELL", "HOLD"} <==> r.Some?
  {
    if s == "BUY" then Some(Buy)
    else if s == "SELL" then Some(Sell)
    else if s == "HOLD" then Some(Hold)
    else None
  }

  lemma ActionNameRoundTrip(a: Action)
    ensures ParseAction(ActionName(a)) == Some(a)
  {
  }

  // ---------------------------------------------------------------- numbers

  function Min(a: real, b: real): real { if a <= b then a else b }
  function Max(a: real, b: real): real { if a >= b then a else b }
  function Abs(x: real): real { if x < 0.0 then -x else x }

  /** `Math.max(lo, Math.min(hi, x))`: the value pulled into `[lo, hi]`. */
  function Clamp(x: real, lo: real, hi: real): (r: real)
    requires lo <= hi
    ensures lo <= r <= hi
    ensures lo <= x <= hi ==> r == x
    ensures x < lo ==> r == lo
    ensures x > hi ==> r == hi
  {
    Max(lo, Min(hi, x))
  }

  function Pow10(n: nat): (r: nat)
    ensures r >= 1
  {
    if n == 0 then 1 else 10 * Pow10(n - 1)
  }

  // ---------------------------------------------------------------- characters

  predicate IsDigit(c: char) { '0' <= c <= '9' }

  predicate IsHexDigit(c: char)
  {
    IsDigit(c) || 'a' <= c <= 'f' || 'A' <= c <= 'F'
  }

  /** The whitespace characters both Python's `strip` and JavaScript's `trim` remove
      (ASCII subset). */
  predicate IsSpace(c: char)
  {
    c == ' ' || c == '\t' || c == '\n' || c == '\r' || c == '\U{B}' || c == '\U{C}'
  }

  /** Characters matched by the regular-expression class `\w`. */
  predicate IsWordChar(c: char)
  {
    IsDigit(c) || 'a' <= c <= 'z' || 'A' <= c <= 'Z' || c == '_'
  }

  function DigitValue(c: char): nat
    requires IsDigit(c)
  {
    (c as int - '0' as int) as nat
  }

  function HexValue(c: char): nat
    requires IsHexDigit(c)
  {
    if IsDigit(c) then DigitValue(c)
    else if 'a' <= c <= 'f' then (c as int - 'a' as int + 10) as nat
    else (c as int - 'A' as int + 10) as nat
  }

  function UpperChar(c: char): char
  {
    if 'a' <= c <= 'z' then (c as int - 32) as char else c
  }

  function LowerChar(c: char): char
  {
    if 'A' <= c <= 'Z' then (c as int + 32) as char else c
  }

  /** Python `str.upper` / JavaScript `toUpperCase`, on the ASCII letters. */
  function Upper(s: string): (r: string)
    ensures |r| == |s|
    ensures forall i | 0 <= i < |s| :: r[i] == UpperChar(s[i])
  {
    if s == [] then [] else [UpperChar(s[0])] + Upper(s[1..])
  }

  /** JavaScript `toLowerCase` / Python `str.lower`, on the ASCII letters. */
  function Lower(s: string): (r: string)
    ensures |r| == |s|
    ensures forall i | 0 <= i < |s| :: r[i] == LowerChar(s[i])
  {
    if s == [] then [] else [LowerChar(s[0])] + Lower(s[1..])
  }

  lemma LowerIdempotent(s: string)
    ensures Lower(Lower(s)) == Lower(s)
  {
  }

  lemma UpperIdempotent(s: string)
    ensures Upper(Upper(s)) == Upper(s)
  {
  }

  // ---------------------------------------------------------------- strings

  predicate IsPrefix(p: string, s: string)
  {
    |p| <= |s| && s[..|p|] == p
  }

  /** Python `sub in s` / JavaScript `s.includes(sub)`. */
  predicate Contains(s: string, sub: string)
    decreases |s|
  {
    IsPrefix(sub, s) || (|s| > 0 && Contains(s[1..], sub))
  }

  lemma ContainsConcat(a: string, sub: string, b: string)
    ensures Contains(a + sub + b, sub)
    decreases |a|
  {
    if a == [] {
      assert (a + sub + b)[..|sub|] == sub;
    } else {
      assert (a + sub + b)[1..] == a[1..] + sub + b;
      ContainsConcat(a[1..], sub, b);
    }
  }

  /** True when `c` occurs in `s`. */
  predicate HasChar(s: string, c: char)
  {
    c in s
  }

  /** Number of occurrences of `c` in `s`. */
  function CountChar(s: string, c: char): nat
  {
    if s == [] then 0 else (if s[0] == c then 1 else 0) + CountChar(s[1..], c)
  }

  /** `s` with every occurrence of `c` removed (Python `s.replace(c, "")`). */
  function RemoveChar(s: string, c: char): (r: string)
    ensures c !in r
    ensures |r| == |s| - CountChar(s, c)
  {
    if s == [] then [] else (if s[0] == c then [] else [s[0]]) + RemoveChar(s[1..], c)
  }

  predicate AllDigits(s: string)
  {
    forall i | 0 <= i < |s| :: IsDigit(s[i])
  }

  /** Value of a non-empty or empty run of decimal digits, most significant first. */
  function DigitsValue(s: string): nat
    requires AllDigits(s)
  {
    if s == [] then 0 else 10 * DigitsValue(s[..|s| - 1]) + DigitValue(s[|s| - 1])
  }

  function DigitChar(d: nat): (c: char)
    requires d < 10
    ensures IsDigit(c) && DigitValue(c) == d
  {
    ('0' as int + d) as char
  }

  /** Decimal spelling of a natural number (what `str(n)` / `n.toString()` print). */
  function NatToString(n: nat): (s: string)
    ensures AllDigits(s) && |s| > 0
  {
    if n < 10 then [DigitChar(n)] else NatToString(n / 10) + [DigitChar(n % 10)]
  }

  lemma {:induction false} NatToStringValue(n: nat)
    ensures DigitsValue(NatToString(n)) == n
  {
    if n >= 10 {
      var s := NatToString(n);
      assert s[..|s| - 1] == NatToString(n / 10);
      NatToStringValue(n / 10);
    }
  }

  /** Index of the first occurrence of `c`, or `|s|` when there is none. */
  function IndexOf(s: string, c: char): (k: nat)
    ensures k <= |s|
    ensures k < |s| ==> s[k] == c
    ensures c !in s[..k]
  {
    if s == [] then 0 else if s[0] == c then 0 else 1 + IndexOf(s[1..], c)
  }

  /** `s.split(sep)` in both languages: the maximal separator-free pieces, in order. */
  function Split(s: string, sep: char): (r: seq<string>)
    ensures |r| >= 1
    ensures forall i | 0 <= i < |r| :: sep !in r[i]
    decreases |s|
  {
    var k := IndexOf(s, sep);
    if k == |s| then [s] else [s[..k]] + Split(s[k + 1..], sep)
  }

  /** `parts.join(sep)`. */
  function Join(parts: seq<string>, sep: string): string
  {
    if parts == [] then []
    else if |parts| == 1 then parts[0]
    else parts[0] + sep + Join(parts[1..], sep)
  }

  /** Joining the pieces of a split with the same separator gives back the original text. */
  lemma {:induction false} JoinSplit(s: string, sep: char)
    ensures Join(Split(s, sep), [sep]) == s
    decreases |s|
  {
    var k := IndexOf(s, sep);
    if k < |s| {
      var rest := Split(s[k + 1..], sep);
      JoinSplit(s[k + 1..], sep);
      assert Split(s, sep) == [s[..k]] + rest;
      assert s == s[..k] + [sep] + s[k + 1..];
    }
  }

  /** The number of pieces is one more than the number of separators. */
  lemma {:induction false} SplitCount(s: string, sep: char)
    ensures |Split(s, sep)| == CountChar(s, sep) + 1
    decreases |s|
  {
    var k := IndexOf(s, sep);
    if k < |s| {
      SplitCount(s[k + 1..], sep);
      CountCharSplitAt(s, sep, k);
    } else {
      CountCharAbsent(s, sep);
    }
  }

  lemma {:induction false} CountCharAbsent(s: string, c: char)
    requires c !in s
    ensures CountChar(s, c) == 0
  {
    if s != [] {
      assert c !in s[1..];
      CountCharAbsent(s[1..], c);
    }
  }

  lemma {:induction false} CountCharAppend(a: string, b: string, c: char)
    ensures CountChar(a + b, c) == CountChar(a, c) + CountChar(b, c)
  {
    if a == [] {
      assert a + b == b;
    } else {
      assert (a + b)[1..] == a[1..] + b;
      CountCharAppend(a[1..], b, c);
    }
  }

  lemma CountCharSplitAt(s: string, c: char, k: nat)
    requires k < |s| && s[k] == c && c !in s[..k]
    ensures CountChar(s, c) == 1 + CountChar(s[k + 1..], c)
  {
    assert s == s[..k] + ([s[k]] + s[k + 1..]);
    CountCharAppend(s[..k], [s[k]] + s[k + 1..], c);
    CountCharAbsent(s[..k], c);
    assert ([s[k]] + s[k + 1..])[1..] == s[k + 1..];
  }

  /** Removes leading whitespace. */
  function TrimStart(s: string): (r: string)
    ensures |r| <= |s| && r == s[|s| - |r|..]
    ensures r == [] || !IsSpace(r[0])
  {
    if s != [] && IsSpace(s[0]) then TrimStart(s[1..]) else s
  }

  /** Removes trailing whitespace. */
  function TrimEnd(s: string): (r: string)
    ensures |r| <= |s| && r == s[..|r|]
    ensures r == [] || !IsSpace(r[|r| - 1])
  {
    if s != [] && IsSpace(s[|s| - 1]) then TrimEnd(s[..|s| - 1]) else s
  }

  /** Python `str.strip()` / JavaScript `String.prototype.trim`. */
  function Trim(s: string): string
  {
    TrimEnd(TrimStart(s))
  }

  // ---------------------------------------------------------------- number parsing

  /** Separates an optional leading sign: `(true, rest)` for `-`, `(false, rest)` for `+`
      or no sign. */
  function SplitSign(t: string): (r: (bool, string))
    ensures |r.1| <= |t|
  {
    if |t| > 0 && (t[0] == '-' || t[0] == '+') then (t[0] == '-', t[1..]) else (false, t)
  }

  function Signed(neg: bool, v: int): int { if neg then -v else v }

  /** Digits with at most one decimal point and at least one digit, unsigned. */
  function ParseUnsignedDecimal(body: string): Option<real>
  {
    var k := IndexOf(body, '.');
    var whole := body[..k];
    var frac := if k < |body| then body[k + 1..] else [];
    if |whole| + |frac| == 0 || !AllDigits(whole) || !AllDigits(frac) then None
    else Some(DigitsValue(whole) as real + FracValue(frac))
  }

  /** The value of the digits after a decimal point. */
  function FracValue(frac: string): (r: real)
    requires AllDigits(frac)
    ensures frac == [] ==> r == 0.0
  {
    DigitsValue(frac) as real / Pow10(|frac|) as real
  }

  /** Python `float(text)` restricted to plain decimal literals: surrounding whitespace,
      an optional sign, digits with at most one decimal point and at least one digit.
      `None` stands for the `ValueError` Python raises. */
  function ParseDecimal(text: string): Option<real>
  {
    var (neg, body) := SplitSign(Trim(text));
    match ParseUnsignedDecimal(body)
    case None => None
    case Some(v) => Some(if neg then -v else v)
  }

  lemma SplitSignDigits(s: string)
    requires AllDigits(s)
    ensures SplitSign(s) == (false, s)
  {
    if |s| > 0 {
      assert IsDigit(s[0]);
    }
  }

  /** A string of decimal digits parses to its value. */
  lemma DigitsParse(s: string)
    requires AllDigits(s) && |s| > 0
    ensures ParseDecimal(s) == Some(DigitsValue(s) as real)
  {
    TrimOfDigits(s);
    SplitSignDigits(s);
    UnsignedDigitsParse(s);
  }

  lemma UnsignedDigitsParse(s: string)
    requires AllDigits(s) && |s| > 0
    ensures ParseUnsignedDecimal(s) == Some(DigitsValue(s) as real)
  {
    NoDotInDigits(s);
    var k := IndexOf(s, '.');
    assert k == |s| && s[..k] == s;
  }

  lemma NoDotInDigits(s: string)
    requires AllDigits(s)
    ensures IndexOf(s, '.') == |s|
  {
  }

  lemma TrimOfDigits(s: string)
    requires AllDigits(s)
    ensures Trim(s) == s
  {
    DigitPrefixAll(s);
    if s != [] {
      assert !IsSpace(s[|s| - 1]) by { assert IsDigit(s[|s| - 1]); }
    }
  }

  /** Python `int(text)`: surrounding whitespace, optional sign, one or more digits and
      nothing else. `None` stands for `ValueError`. */
  function ParsePyInt(text: string): Option<int>
  {
    var (neg, body) := SplitSign(Trim(text));
    if |body| == 0 || !AllDigits(body) then None
    else Some(Signed(neg, DigitsValue(body)))
  }

  lemma ParsePyIntDigits(s: string)
    requires AllDigits(s) && |s| > 0
    ensures ParsePyInt(s) == Some(DigitsValue(s) as int)
  {
    TrimOfDigits(s);
    SplitSignDigits(s);
  }

  /** Longest prefix of `s` whose characters satisfy `IsDigit`. */
  function DigitPrefix(s: string): (r: string)
    ensures AllDigits(r) && IsPrefix(r, s)
    ensures |r| < |s| ==> !IsDigit(s[|r|])
  {
    if s != [] && IsDigit(s[0]) then [s[0]] + DigitPrefix(s[1..]) else []
  }

  /** Longest prefix of `s` made of hexadecimal digits. */
  function HexPrefix(s: string): (r: string)
    ensures forall i | 0 <= i < |r| :: IsHexDigit(r[i])
    ensures IsPrefix(r, s)
  {
    if s != [] && IsHexDigit(s[0]) then [s[0]] + HexPrefix(s[1..]) else []
  }

  function HexDigitsValue(s: string): nat
    requires forall i | 0 <= i < |s| :: IsHexDigit(s[i])
  {
    if s == [] then 0 else 16 * HexDigitsValue(s[..|s| - 1]) + HexValue(s[|s| - 1])
  }

  /** JavaScript `parseInt(text, 10)`: leading whitespace, optional sign, then the longest
      run of decimal digits; `None` is `NaN` (no digit at all). */
  function ParseIntRadix10(text: string): Option<int>
  {
    var (neg, body) := SplitSign(TrimStart(text));
    var d := DigitPrefix(body);
    if d == [] then None else Some(Signed(neg, DigitsValue(d)))
  }

  /** The `0x`/`0X` prefix that makes a radix-less `parseInt` read hexadecimal. */
  predicate HasHexPrefix(body: string)
  {
    |body| >= 2 && body[0] == '0' && (body[1] == 'x' || body[1] == 'X')
  }

  /** JavaScript `parseInt(text)` with no radix: as `ParseIntRadix10`, except that a
      `0x`/`0X` prefix switches to hexadecimal. */
  function ParseIntAuto(text: string): Option<int>
  {
    var (neg, body) := SplitSign(TrimStart(text));
    if HasHexPrefix(body) then
      var h := HexPrefix(body[2..]);
      if h == [] then None else Some(Signed(neg, HexDigitsValue(h)))
    else
      var d := DigitPrefix(body);
      if d == [] then None else Some(Signed(neg, DigitsValue(d)))
  }

  /** On a plain digit string both `parseInt` flavours read the whole number. */
  lemma ParseIntDigits(s: string)
    requires AllDigits(s) && |s| > 0
    ensures ParseIntRadix10(s) == Some(DigitsValue(s) as int)
    ensures ParseIntAuto(s) == Some(DigitsValue(s) as int)
  {
    DigitPrefixAll(s);
    SplitSignDigits(s);
    assert !HasHexPrefix(s) by {
      if |s| >= 2 { assert IsDigit(s[1]); }
    }
  }

  lemma {:induction false} DigitPrefixAll(s: string)
    requires AllDigits(s)
    ensures TrimStart(s) == s && DigitPrefix(s) == s
  {
    if s != [] {
      assert IsDigit(s[0]);
      assert AllDigits(s[1..]);
      DigitPrefixAll(s[1..]);
    }
  }
}

=== FILE: decision_store.dfy ===
/** The SQLite store behind the trading bot (`TradingDatabase`): a table of market
    snapshots, a table of model decisions, the pass that labels old pending decisions as
    right or wrong against the current price, and the read-side aggregates.

    Both tables are sequences in insertion order. Timestamps are whole seconds and every
    "now" is a parameter. Each `with sqlite3.connect(...)` block is one transaction: it
    either commits all its writes or, when the block raises, none of them. */
module DecisionStore {
  import opened Common
  import opened Seqs
  import Sorting

  /** Pending decisions younger than this are not labelled yet (`'-30 seconds'`). */
  const EvaluationDelay: int := 30
  const SecondsPerDay: int := 86400
  /** `cleanup_old_data` keeps seven days of history. */
  const RetentionSeconds: int := 7 * SecondsPerDay
  /** Default `LIMIT` of the recent-history queries. */
  const DefaultLimit: int := 100
  /** A HOLD is right when the move stays strictly inside this many percent. */
  const HoldBand: real := 0.5

  datatype GasLevels = GasLevels(low: int, standard: int, fast: int)

  datatype MarketRow = MarketRow(
    timestamp: int,
    ethPrice: real,
    volume: real,
    high: real,
    low: real,
    gas: Option<GasLevels>,
    fearGreedValue: string,
    fearGreedSentiment: string)

  /** One `ai_decisions` row. `wasCorrect`/`profitLoss` are `NULL` until labelled. */
  datatype DecisionRow = DecisionRow(
    id: nat,
    timestamp: int,
    model: string,
    decision: string,
    price: real,
    wasCorrect: Option<bool>,
    profitLoss: Option<real>)

  /** The database: both tables and the next `AUTOINCREMENT` id. */
  datatype Db = Db(market: seq<MarketRow>, decisions: seq<DecisionRow>, nextId: nat)

  datatype DbError =
    | ZeroDivision            // `price_change / price` with a stored price of 0
    | InvalidTimeframe        // `ValueError` of `get_performance_by_timeframe`
    | MissingKey(key: string) // `KeyError` while reading a caller's dict

  function EmptyDb(): Db { Db([], [], 1) }

  /** Row ids strictly increase in insertion order and stay below the next id, so an
      `UPDATE … WHERE id = ?` touches exactly one row. */
  predicate WellFormed(db: Db)
  {
    && (forall i, j | 0 <= i < j < |db.decisions| :: db.decisions[i].id < db.decisions[j].id)
    && (forall i | 0 <= i < |db.decisions| :: db.decisions[i].id < db.nextId)
  }

  // ------------------------------------------------------------------ writes

  /** `store_market_data`: the gas columns are filled only when the gas dict is truthy
      (non-empty), and then its three levels must be present; the two sentiment keys
      must always be present. A missing key raises before anything is written. */
  function StoreMarketData(db: Db, now: int, price: real, volume: real, high: real, low: real,
                           gasPrices: Option<map<string, int>>, sentiment: map<string, string>)
    : (r: Result<Db, DbError>)
    ensures r.Err? <==>
      || "fear_greed_value" !in sentiment || "fear_greed_sentiment" !in sentiment
      || (gasPrices.Some? && |gasPrices.value| > 0
          && ("low" !in gasPrices.value || "standard" !in gasPrices.value || "fast" !in gasPrices.value))
    ensures r.Ok? ==> r.value.decisions == db.decisions && r.value.nextId == db.nextId
    ensures r.Ok? ==> |r.value.market| == |db.market| + 1 && r.value.market[..|db.market|] == db.market
    ensures r.Ok? ==> var row := r.value.market[|db.market|];
      && row.timestamp == now && row.ethPrice == price
      && (row.gas.Some? <==> gasPrices.Some? && |gasPrices.value| > 0)
      && (row.gas.Some? ==> row.gas.value == GasLevels(gasPrices.value["low"], gasPrices.value["standard"],
                                                       gasPrices.value["fast"]))
      && row.volume == volume && row.high == high && row.low == low
      && row.fearGreedValue == sentiment["fear_greed_value"]
      && row.fearGreedSentiment == sentiment["fear_greed_sentiment"]
  {
    var truthy := gasPrices.Some? && |gasPrices.value| > 0;
    if truthy && !("low" in gasPrices.value && "standard" in gasPrices.value && "fast" in gasPrices.value) then
      Err(MissingKey(if "low" !in gasPrices.value then "low" else if "standard" !in gasPrices.value then "standard" else "fast"))
    else if "fear_greed_value" !in sentiment then Err(MissingKey("fear_greed_value"))
    else if "fear_greed_sentiment" !in sentiment then Err(MissingKey("fear_greed_sentiment"))
    else
      var gas := if truthy then
        Some(GasLevels(gasPrices.value["low"], gasPrices.value["standard"], gasPrices.value["fast"]))
      else None;
      var row := MarketRow(now, price, volume, high, low, gas,
                           sentiment["fear_greed_value"], sentiment["fear_greed_sentiment"]);
      Ok(db.(market := db.market + [row]))
  }

  /** `store_ai_decision`: appends exactly one pending row; every existing row and the
      market table are untouched. */
  function StoreAiDecision(db: Db, now: int, model: string, decision: string, price: real): (r: Db)
    ensures |r.decisions| == |db.decisions| + 1
    ensures r.decisions[..|db.decisions|] == db.decisions
    ensures var row := r.decisions[|db.decisions|];
      row.timestamp == now && row.model == model && row.decision == decision && row.price == price
      && row.wasCorrect.None? && row.profitLoss.None?
    ensures r.market == db.market
    ensures r.nextId > db.nextId
  {
    var row := DecisionRow(db.nextId, now, model, decision, price, None, None);
    Db(db.market, db.decisions + [row], db.nextId + 1)
  }

  lemma StoreAiDecisionWellFormed(db: Db, now: int, model: string, decision: string, price: real)
    requires WellFormed(db)
    ensures WellFormed(StoreAiDecision(db, now, model, decision, price))
  {
  }

  // ------------------------------------------------------------------ labelling

  /** The percentage move since the decision. */
  function PctChange(price: real, current: real): real
    requires price != 0.0
  {
    (current - price) / price * 100.0
  }

  /** The two columns a labelling `UPDATE` writes. */
  datatype Outcome = Outcome(wasCorrect: Option<bool>, profitLoss: Option<real>)

  /** The verdict of `update_decision_accuracy` for one decision. BUY is right when the
      price rose, SELL when it fell, HOLD when the move stays inside ±0.5 %. Any other
      action text gets `NULL` in both columns. */
  function Judge(decision: string, price: real, current: real): (o: Outcome)
    requires price != 0.0
    ensures o.wasCorrect.Some? <==> decision in {"BUY", "SELL", "HOLD"}
    ensures o.wasCorrect.Some? <==> o.profitLoss.Some?
    ensures decision == "BUY" ==> o.wasCorrect == Some(current > price)
    ensures decision == "SELL" ==> o.wasCorrect == Some(current < price)
    ensures decision == "HOLD" ==> o.profitLoss == Some(0.0)
    ensures decision in {"BUY", "SELL"} && price > 0.0 ==>
      o.profitLoss == Some(Abs(current - price) / price * 100.0)
  {
    var pct := PctChange(price, current);
    if decision == "BUY" then
      var correct := current - price > 0.0;
      Outcome(Some(correct), Some(if correct then pct else -pct))
    else if decision == "SELL" then
      var correct := current - price < 0.0;
      Outcome(Some(correct), Some(if correct then -pct else pct))
    else if decision == "HOLD" then
      Outcome(Some(Abs(pct) < HoldBand), Some(0.0))
    else
      Outcome(None, None)
  }

  /** A HOLD is right exactly when the price moved by less than 1/200 of the stored price. */
  lemma HoldVerdict(price: real, current: real)
    requires price != 0.0
    ensures Judge("HOLD", price, current).wasCorrect == Some(200.0 * Abs(current - price) < Abs(price))
  {
    var d := current - price;
    var pct := PctChange(price, current);
    assert Abs(pct) == Abs(d) * 100.0 / Abs(price);
    BelowHalf(Abs(d) * 100.0, Abs(price));
  }

  lemma BelowHalf(x: real, a: real)
    requires a > 0.0
    ensures x / a < 0.5 <==> 2.0 * x < a
  {
    assert x / a * a == x;
  }

  /** For a positive stored price every labelled profit/loss is non-negative: a wrong
      BUY or SELL stores the size of the move, not its sign. */
  lemma JudgeProfitNonNegative(decision: string, price: real, current: real)
    requires price > 0.0
    ensures var o := Judge(decision, price, current);
      o.profitLoss.Some? ==> o.profitLoss.value >= 0.0
  {
  }

  /** A BUY at 100 labelled at 90 is wrong, yet its profit/loss column holds +10. */
  lemma WrongBuyStoresGain()
    ensures Judge("BUY", 100.0, 90.0) == Outcome(Some(false), Some(10.0))
  {
  }

  /** Pending and older than the evaluation delay: selected by the labelling pass. */
  predicate Eligible(r: DecisionRow, now: int)
  {
    r.wasCorrect.None? && r.timestamp < now - EvaluationDelay
  }

  /** The row after its labelling `UPDATE`. */
  function Label(r: DecisionRow, current: real): (l: DecisionRow)
    requires r.price != 0.0
    ensures l.id == r.id && l.timestamp == r.timestamp && l.model == r.model
    ensures l.decision == r.decision && l.price == r.price
  {
    var o := Judge(r.decision, r.price, current);
    r.(wasCorrect := o.wasCorrect, profitLoss := o.profitLoss)
  }

  /** True when some row the pass would select has a stored price of 0. */
  predicate HasZeroPricedEligible(rows: seq<DecisionRow>, now: int)
  {
    exists i | 0 <= i < |rows| :: Eligible(rows[i], now) && rows[i].price == 0.0
  }

  function LabelRows(rows: seq<DecisionRow>, now: int, current: real): (r: Result<seq<DecisionRow>, DbError>)
    ensures r.Err? <==> HasZeroPricedEligible(rows, now)
    ensures r.Err? ==> r.error == ZeroDivision
    ensures r.Ok? ==> |r.value| == |rows|
    ensures r.Ok? ==> forall i | 0 <= i < |rows| ::
      if Eligible(rows[i], now) then rows[i].price != 0.0 && r.value[i] == Label(rows[i], current)
      else r.value[i] == rows[i]
  {
    if rows == [] then Ok([])
    else
      var head := rows[0];
      if Eligible(head, now) && head.price == 0.0 then Err(ZeroDivision)
      else
        match LabelRows(rows[1..], now, current)
        case Err(e) =>
          assert HasZeroPricedEligible(rows, now) by {
            var i :| 0 <= i < |rows[1..]| && Eligible(rows[1..][i], now) && rows[1..][i].price == 0.0;
            assert rows[i + 1] == rows[1..][i];
          }
          Err(e)
        case Ok(tail) =>
          assert !HasZeroPricedEligible(rows, now) by {
            forall i | 0 <= i < |rows|
              ensures !(Eligible(rows[i], now) && rows[i].price == 0.0)
            {
              if i > 0 {
                assert rows[i] == rows[1..][i - 1];
              }
            }
          }
          Ok([if Eligible(head, now) then Label(head, current) else head] + tail)
  }

  /** `update_decision_accuracy`: labels every pending row older than 30 seconds against
      the current price. A selected row with stored price 0 raises `ZeroDivisionError`;
      the connection context then rolls the whole pass back, which is the `Err` result.
      Rows that are not selected, the market table and the id counter are unchanged. */
  function UpdateDecisionAccuracy(db: Db, now: int, current: real): (r: Result<Db, DbError>)
    ensures r.Err? <==> HasZeroPricedEligible(db.decisions, now)
    ensures r.Ok? ==> r.value.market == db.market && r.value.nextId == db.nextId
    ensures r.Ok? ==> |r.value.decisions| == |db.decisions|
    ensures r.Ok? ==> forall i | 0 <= i < |db.decisions| ::
      var old_ := db.decisions[i];
      var new_ := r.value.decisions[i];
      && new_.id == old_.id && new_.timestamp == old_.timestamp && new_.model == old_.model
      && new_.decision == old_.decision && new_.price == old_.price
      && (!Eligible(old_, now) ==> new_ == old_)
      && (Eligible(old_, now) ==>
            && new_.wasCorrect == Judge(old_.decision, old_.price, current).wasCorrect
            && new_.profitLoss == Judge(old_.decision, old_.price, current).profitLoss)
  {
    match LabelRows(db.decisions, now, current)
    case Err(e) => Err(e)
    case Ok(rows) => Ok(db.(decisions := rows))
  }

  /** The database after the pass: on failure the transaction is rolled back. */
  function AfterUpdate(db: Db, now: int, current: real): (r: Db)
    ensures HasZeroPricedEligible(db.decisions, now) ==> r == db
    ensures r.market == db.market && |r.decisions| == |db.decisions|
  {
    match UpdateDecisionAccuracy(db, now, current)
    case Err(_) => db
    case Ok(db') => db'
  }

  /** Labelled rows are final: a later pass never changes a row that already has a
      verdict. */
  lemma {:induction false} LabelledRowsAreFinal(db: Db, now: int, current: real, i: int)
    requires 0 <= i < |db.decisions| && db.decisions[i].wasCorrect.Some?
    ensures AfterUpdate(db, now, current).decisions[i] == db.decisions[i]
  {
    match UpdateDecisionAccuracy(db, now, current)
    case Err(_) =>
    case Ok(_) =>
  }

  /** After a successful pass, a selected row with one of the three actions is no longer
      pending; a row with any other action text is still pending. */
  lemma {:induction false} PendingAfterUpdate(db: Db, now: int, current: real, i: int)
    requires 0 <= i < |db.decisions| && Eligible(db.decisions[i], now)
    requires UpdateDecisionAccuracy(db, now, current).Ok?
    ensures var after := UpdateDecisionAccuracy(db, now, current).value.decisions[i];
      after.wasCorrect.None? <==> db.decisions[i].decision !in {"BUY", "SELL", "HOLD"}
  {
  }

  /** Running the pass twice with the same clock and price is the same as running it once. */
  lemma {:induction false} UpdateIdempotent(db: Db, now: int, current: real)
    requires UpdateDecisionAccuracy(db, now, current).Ok?
    ensures UpdateDecisionAccuracy(UpdateDecisionAccuracy(db, now, current).value, now, current)
         == UpdateDecisionAccuracy(db, now, current)
  {
    var once := UpdateDecisionAccuracy(db, now, current).value;
    assert !HasZeroPricedEligible(once.decisions, now) by {
      forall i | 0 <= i < |once.decisions| && Eligible(once.decisions[i], now)
        ensures once.decisions[i].price != 0.0
      {
        assert once.decisions[i].price == db.decisions[i].price;
      }
    }
    var twice := UpdateDecisionAccuracy(once, now, current).value;
    assert twice.decisions == once.decisions by {
      forall i | 0 <= i < |once.decisions|
        ensures twice.decisions[i] == once.decisions[i]
      {
        var r := db.decisions[i];
        if Eligible(once.decisions[i], now) {
          assert Eligible(r, now);
          assert once.decisions[i] == Label(r, current);
          assert twice.decisions[i] == Label(once.decisions[i], current);
        }
      }
    }
  }

  lemma UpdateWellFormed(db: Db, now: int, current: real)
    requires WellFormed(db)
    ensures WellFormed(AfterUpdate(db, now, current))
  {
    match UpdateDecisionAccuracy(db, now, current)
    case Err(_) =>
    case Ok(db') =>
      assert forall i | 0 <= i < |db.decisions| :: db'.decisions[i].id == db.decisions[i].id;
  }

  /** Every labelled row of positive price carries a non-negative profit/loss. */
  predicate ProfitsNonNegative(db: Db)
  {
    forall i | 0 <= i < |db.decisions| ::
      db.decisions[i].price > 0.0 && db.decisions[i].profitLoss.Some? ==> db.decisions[i].profitLoss.value >= 0.0
  }

  /** Storing and labelling keep every stored profit/loss non-negative when prices are
      positive: the `max_loss` aggregate can never report a negative value. */
  lemma {:induction false} UpdateKeepsProfitsNonNegative(db: Db, now: int, current: real)
    requires ProfitsNonNegative(db)
    ensures ProfitsNonNegative(AfterUpdate(db, now, current))
  {
    match UpdateDecisionAccuracy(db, now, current)
    case Err(_) =>
    case Ok(db') =>
      forall i | 0 <= i < |db'.decisions| && db'.decisions[i].price > 0.0 && db'.decisions[i].profitLoss.Some?
        ensures db'.decisions[i].profitLoss.value >= 0.0
      {
        var r := db.decisions[i];
        if Eligible(r, now) {
          JudgeProfitNonNegative(r.decision, r.price, current);
        }
      }
  }

  lemma StoreKeepsProfitsNonNegative(db: Db, now: int, model: string, decision: string, price: real)
    requires ProfitsNonNegative(db)
    ensures ProfitsNonNegative(StoreAiDecision(db, now, model, decision, price))
  {
    var db' := StoreAiDecision(db, now, model, decision, price);
    forall i | 0 <= i < |db'.decisions| && db'.decisions[i].price > 0.0 && db'.decisions[i].profitLoss.Some?
      ensures db'.decisions[i].profitLoss.value >= 0.0
    {
      assert i < |db.decisions|;
      assert db'.decisions[i] == db.decisions[i];
    }
  }

  // ------------------------------------------------------------------ aggregates

  /** Rows the accuracy and timeframe queries count: labelled, and not HOLD. */
  predicate Scored(r: DecisionRow)
  {
    r.wasCorrect.Some? && r.decision != "HOLD"
  }

  predicate IsCorrect(r: DecisionRow) { r.wasCorrect == Some(true) }

  /** `CASE WHEN profit_loss IS NOT NULL THEN profit_loss ELSE 0 END`. */
  function ProfitOrZero(r: DecisionRow): real
  {
    if r.profitLoss.Some? then r.profitLoss.value else 0.0
  }

  function Profits(rows: seq<DecisionRow>): (ps: seq<real>)
    ensures |ps| == |rows|
  {
    MapSeq(rows, ProfitOrZero)
  }

  /** The models that own at least one row satisfying `p` (`GROUP BY model` keys). */
  function ModelsWhere(rows: seq<DecisionRow>, p: DecisionRow -> bool): set<string>
  {
    set i | 0 <= i < |rows| && p(rows[i]) :: rows[i].model
  }

  /** The test `p` narrowed to the rows of model `m`. */
  function OfModel(p: DecisionRow -> bool, m: string): DecisionRow -> bool
  {
    (r: DecisionRow) => p(r) && r.model == m
  }

  /** The rows of one model that satisfy `p`, in table order. */
  function GroupOf(rows: seq<DecisionRow>, p: DecisionRow -> bool, m: string): (g: seq<DecisionRow>)
    ensures m in ModelsWhere(rows, p) <==> |g| > 0
    ensures forall i | 0 <= i < |g| :: p(g[i]) && g[i].model == m && g[i] in rows
    ensures |g| == Count(rows, OfModel(p, m))
  {
    var g := Filter(rows, OfModel(p, m));
    assert m in ModelsWhere(rows, p) <==> |g| > 0 by {
      if m in ModelsWhere(rows, p) {
        var i :| 0 <= i < |rows| && p(rows[i]) && rows[i].model == m;
        assert rows[i] in g;
      }
      if |g| > 0 {
        var j :| 0 <= j < |rows| && rows[j] == g[0];
        assert p(rows[j]) && rows[j].model == m;
      }
    }
    g
  }

  datatype AccuracyEntry = AccuracyEntry(
    total: nat, correct: nat, accuracy: real, avgProfit: real, maxLoss: real, maxProfit: real)

  /** The accuracy figures of one model's scored rows `g`: the counts, the percentage
      correct, and the mean, smallest and largest profit (a missing profit counts as 0). */
  function AccuracyEntryOf(g: seq<DecisionRow>): (e: AccuracyEntry)
    requires |g| > 0
    ensures e.total == |g| && e.correct == Count(g, IsCorrect) && e.correct <= e.total
    ensures e.accuracy == e.correct as real / e.total as real * 100.0
    ensures 0.0 <= e.accuracy <= 100.0
    ensures e.accuracy == 100.0 <==> e.correct == e.total
    ensures e.avgProfit == Sum(Profits(g)) / e.total as real
    ensures e.maxLoss == MinOf(Profits(g)) && e.maxProfit == MaxOf(Profits(g))
    ensures e.maxLoss <= e.avgProfit <= e.maxProfit
  {
    var ps := Profits(g);
    MeanBetweenMinMax(ps);
    var correct := Count(g, IsCorrect);
    AccuracyEntry(|g|, correct, Percent(correct, |g|), Mean(ps), MinOf(ps), MaxOf(ps))
  }

  /** `get_accuracy_stats`: one entry per model that has a labelled non-HOLD row, counting
      exactly those rows. */
  function AccuracyStats(db: Db): (stats: map<string, AccuracyEntry>)
    ensures stats.Keys == ModelsWhere(db.decisions, Scored)
    ensures forall m | m in stats ::
      && stats[m] == AccuracyEntryOf(GroupOf(db.decisions, Scored, m))
      && stats[m].total == Count(db.decisions, OfModel(Scored, m))
      && 0 < stats[m].total
      && stats[m].correct <= stats[m].total
      && stats[m].accuracy == stats[m].correct as real / stats[m].total as real * 100.0
      && 0.0 <= stats[m].accuracy <= 100.0
      && stats[m].maxLoss <= stats[m].avgProfit <= stats[m].maxProfit
  {
    map m | m in ModelsWhere(db.decisions, Scored) :: AccuracyEntryOf(GroupOf(db.decisions, Scored, m))
  }

  /** HOLD rows and pending rows never contribute to the accuracy statistics. */
  lemma AccuracyIgnoresHoldAndPending(db: Db, r: DecisionRow)
    requires r.decision == "HOLD" || r.wasCorrect.None?
    ensures AccuracyStats(db.(decisions := db.decisions + [r])) == AccuracyStats(db)
  {
    var db2 := db.(decisions := db.decisions + [r]);
    ScoredModelsUnchanged(db.decisions, r);
    forall m | m in ModelsWhere(db.decisions, Scored)
      ensures GroupOf(db2.decisions, Scored, m) == GroupOf(db.decisions, Scored, m)
    {
      ScoredGroupUnchanged(db.decisions, r, m);
    }
    SameGroupsSameStats(db2, db);
  }

  lemma ScoredModelsUnchanged(rows0: seq<DecisionRow>, r: DecisionRow)
    requires !Scored(r)
    ensures ModelsWhere(rows0 + [r], Scored) == ModelsWhere(rows0, Scored)
  {
    var rows := rows0 + [r];
    forall m | m in ModelsWhere(rows, Scored)
      ensures m in ModelsWhere(rows0, Scored)
    {
      var i :| 0 <= i < |rows| && Scored(rows[i]) && rows[i].model == m;
      assert i < |rows0|;
      assert rows[i] == rows0[i];
    }
    forall m | m in ModelsWhere(rows0, Scored)
      ensures m in ModelsWhere(rows, Scored)
    {
      var i :| 0 <= i < |rows0| && Scored(rows0[i]) && rows0[i].model == m;
      assert rows[i] == rows0[i];
    }
  }

  lemma ScoredGroupUnchanged(rows0: seq<DecisionRow>, r: DecisionRow, m: string)
    requires !Scored(r)
    ensures GroupOf(rows0 + [r], Scored, m) == GroupOf(rows0, Scored, m)
  {
    FilterAppend(rows0, [r], OfModel(Scored, m));
    UnscoredLeftOut(r, m);
    assert Filter(rows0, OfModel(Scored, m)) + [] == Filter(rows0, OfModel(Scored, m));
  }

  /** Two tables with the same scored models and the same scored groups have the same
      accuracy statistics. */
  lemma SameGroupsSameStats(a: Db, b: Db)
    requires ModelsWhere(a.decisions, Scored) == ModelsWhere(b.decisions, Scored)
    requires forall m | m in ModelsWhere(b.decisions, Scored) ::
      GroupOf(a.decisions, Scored, m) == GroupOf(b.decisions, Scored, m)
    ensures AccuracyStats(a) == AccuracyStats(b)
  {
  }

  /** A row that is not scored is in no model's scored group. */
  lemma UnscoredLeftOut(r: DecisionRow, m: string)
    requires !Scored(r)
    ensures Filter([r], OfModel(Scored, m)) == []
  {
    var p := OfModel(Scored, m);
    assert !p(r);
    assert [r][1..] == [];
  }

  // ------------------------------------------------------------------ recent history

  function DecisionTime(r: DecisionRow): int { r.timestamp }
  function MarketTime(r: MarketRow): int { r.timestamp }

  /** `get_recent_decisions(limit)`: newest first, at most `limit` rows (all rows for a
      negative limit), drawn from the table. */
  function RecentDecisions(db: Db, limit: int): (r: seq<DecisionRow>)
    ensures Sorting.SortedDesc(r, DecisionTime)
    ensures |r| == if 0 <= limit < |db.decisions| then limit else |db.decisions|
    ensures multiset(r) <= multiset(db.decisions)
  {
    Sorting.TopByKey(db.decisions, DecisionTime, limit)
  }

  /** `get_recent_market_data(limit)`, with the same ordering and limit rules. */
  function RecentMarketData(db: Db, limit: int): (r: seq<MarketRow>)
    ensures Sorting.SortedDesc(r, MarketTime)
    ensures |r| == if 0 <= limit < |db.market| then limit else |db.market|
    ensures multiset(r) <= multiset(db.market)
  {
    Sorting.TopByKey(db.market, MarketTime, limit)
  }

  /** A decision left out of a limited listing is no newer than any decision shown. */
  lemma RecentDecisionsAreNewest(db: Db, limit: int, x: DecisionRow, y: DecisionRow)
    requires x in multiset(db.decisions) - multiset(RecentDecisions(db, limit))
    requires y in RecentDecisions(db, limit)
    ensures x.timestamp <= y.timestamp
  {
    Sorting.TopByKeyIsTop(db.decisions, DecisionTime, limit, x, y);
  }

  lemma RecentMarketDataAreNewest(db: Db, limit: int, x: MarketRow, y: MarketRow)
    requires x in multiset(db.market) - multiset(RecentMarketData(db, limit))
    requires y in RecentMarketData(db, limit)
    ensures x.timestamp <= y.timestamp
  {
    Sorting.TopByKeyIsTop(db.market, MarketTime, limit, x, y);
  }

  /** A snapshot stored later than every earlier one is what the newest-first listing
      of one market row reads back. */
  lemma StoredMarketRowReadsBack(db: Db, now: int, price: real, volume: real, high: real, low: real,
                                 gasPrices: Option<map<string, int>>, sentiment: map<string, string>)
    requires StoreMarketData(db, now, price, volume, high, low, gasPrices, sentiment).Ok?
    requires forall i | 0 <= i < |db.market| :: db.market[i].timestamp < now
    ensures var db2 := StoreMarketData(db, now, price, volume, high, low, gasPrices, sentiment).value;
      RecentMarketData(db2, 1) == [db2.market[|db.market|]]
  {
    var db2 := StoreMarketData(db, now, price, volume, high, low, gasPrices, sentiment).value;
    var row := db2.market[|db.market|];
    var listed := RecentMarketData(db2, 1);
    assert |listed| == 1;
    var y := listed[0];
    assert y in multiset(db2.market);
    if y != row {
      assert db2.market == db.market + [row];
      assert y in db.market;
      assert multiset(listed) == multiset{y};
      assert row in multiset(db2.market) - multiset(listed);
      RecentMarketDataAreNewest(db2, 1, row, y);
      assert false;
    }
    assert listed == [y];
  }

  // ------------------------------------------------------------------ timeframes

  datatype Timeframe = Hour | Day | Week | Month

  function TimeframeName(t: Timeframe): string
  {
    match t
    case Hour => "hour"
    case Day => "day"
    case Week => "week"
    case Month => "month"
  }

  /** The accepted `timeframe` arguments; anything else raises `ValueError`. */
  function ParseTimeframe(s: string): (r: Result<Timeframe, DbError>)
    ensures r.Ok? <==> s in {"hour", "day", "week", "month"}
    ensures r.Ok? ==> TimeframeName(r.value) == s
    ensures r.Err? ==> r.error == InvalidTimeframe
  {
    if s == "hour" then Ok(Hour)
    else if s == "day" then Ok(Day)
    else if s == "week" then Ok(Week)
    else if s == "month" then Ok(Month)
    else Err(InvalidTimeframe)
  }

  datatype PeriodEntry = PeriodEntry(
    period: int, decisions: nat, accuracy: real, avgProfit: real, totalProfit: real)

  /** One timeline row of the rows `g` of a period: how many there are, the percentage of
      them that were correct, the total of their profits (a missing profit counts as 0)
      and the mean profit. */
  function PeriodEntryOf(period: int, g: seq<DecisionRow>): (e: PeriodEntry)
    ensures e.period == period && e.decisions == |g|
    ensures 0.0 <= e.accuracy <= 100.0
    ensures e.totalProfit == Sum(Profits(g))
    ensures g == [] ==> e.accuracy == 0.0 && e.avgProfit == 0.0
    ensures |g| > 0 ==>
      && e.accuracy == Count(g, IsCorrect) as real / |g| as real * 100.0
      && e.avgProfit == e.totalProfit / |g| as real
      && MinOf(Profits(g)) <= e.avgProfit <= MaxOf(Profits(g))
  {
    if g == [] then PeriodEntry(period, 0, 0.0, 0.0, 0.0)
    else
      var ps := Profits(g);
      MeanBetweenMinMax(ps);
      PeriodEntry(period, |g|, Percent(Count(g, IsCorrect), |g|), Mean(ps), Sum(ps))
  }

  function PeriodKeys(g: seq<DecisionRow>, tf: Timeframe, periodOf: (Timeframe, int) -> int): seq<int>
  {
    MapSeq(g, (r: DecisionRow) => periodOf(tf, r.timestamp))
  }

  /** The rows whose timestamp falls in period `p`. */
  function AtPeriod(tf: Timeframe, periodOf: (Timeframe, int) -> int, p: int): DecisionRow -> bool
  {
    (r: DecisionRow) => periodOf(tf, r.timestamp) == p
  }

  /** One entry per period, each summarising exactly the rows of `g` in that period. */
  function EntriesFor(periods: seq<int>, g: seq<DecisionRow>, tf: Timeframe,
                      periodOf: (Timeframe, int) -> int): (es: seq<PeriodEntry>)
    ensures |es| == |periods|
    ensures forall i | 0 <= i < |es| ::
      && es[i] == PeriodEntryOf(periods[i], Filter(g, AtPeriod(tf, periodOf, periods[i])))
      && es[i].period == periods[i]
      && es[i].decisions == Count(g, AtPeriod(tf, periodOf, periods[i]))
      && 0.0 <= es[i].accuracy <= 100.0
  {
    if periods == [] then []
    else
      [PeriodEntryOf(periods[0], Filter(g, AtPeriod(tf, periodOf, periods[0])))]
        + EntriesFor(periods[1..], g, tf, periodOf)
  }

  /** One model's history: one entry per period it has scored rows in, newest period
      first. */
  function ModelTimeline(g: seq<DecisionRow>, tf: Timeframe, periodOf: (Timeframe, int) -> int)
    : (es: seq<PeriodEntry>)
    ensures forall i, j | 0 <= i < j < |es| :: es[i].period > es[j].period
    ensures forall i | 0 <= i < |es| :: es[i].decisions > 0 && 0.0 <= es[i].accuracy <= 100.0
    ensures |g| > 0 ==> |es| > 0
    ensures forall i | 0 <= i < |g| :: HasPeriod(es, periodOf(tf, g[i].timestamp))
    ensures forall i | 0 <= i < |es| ::
      es[i] == PeriodEntryOf(es[i].period, Filter(g, AtPeriod(tf, periodOf, es[i].period)))
  {
    var periods := Sorting.DistinctDesc(PeriodKeys(g, tf, periodOf));
    TimelineEntries(periods, g, tf, periodOf);
    EntriesFor(periods, g, tf, periodOf)
  }

  /** The entries for the distinct periods of the rows, newest first. */
  lemma TimelineEntries(periods: seq<int>, g: seq<DecisionRow>, tf: Timeframe, periodOf: (Timeframe, int) -> int)
    requires periods == Sorting.DistinctDesc(PeriodKeys(g, tf, periodOf))
    ensures var entries := EntriesFor(periods, g, tf, periodOf);
      && (forall i, j | 0 <= i < j < |entries| :: entries[i].period > entries[j].period)
      && (forall i | 0 <= i < |entries| :: entries[i].decisions > 0 && 0.0 <= entries[i].accuracy <= 100.0)
      && (|g| > 0 ==> |entries| > 0)
      && (forall i | 0 <= i < |g| :: HasPeriod(entries, periodOf(tf, g[i].timestamp)))
  {
    var keys := PeriodKeys(g, tf, periodOf);
    assert forall p | p in periods :: p in keys;
    assert forall p | p in keys :: p in periods;
    EntriesNonEmpty(periods, g, tf, periodOf);
    EntriesCover(periods, g, tf, periodOf);
    EntriesDesc(periods, g, tf, periodOf);
    var entries := EntriesFor(periods, g, tf, periodOf);
    assert |g| > 0 ==> HasPeriod(entries, periodOf(tf, g[0].timestamp));
  }

  /** Entries follow the order of their periods. */
  lemma EntriesDesc(periods: seq<int>, g: seq<DecisionRow>, tf: Timeframe, periodOf: (Timeframe, int) -> int)
    requires Sorting.StrictlyDesc(periods)
    ensures var es := EntriesFor(periods, g, tf, periodOf);
      forall i, j | 0 <= i < j < |es| :: es[i].period > es[j].period
  {
  }

  /** Every period drawn from the rows' own keys has at least one row. */
  lemma EntriesNonEmpty(periods: seq<int>, g: seq<DecisionRow>, tf: Timeframe, periodOf: (Timeframe, int) -> int)
    requires forall p | p in periods :: p in PeriodKeys(g, tf, periodOf)
    ensures var es := EntriesFor(periods, g, tf, periodOf);
      forall k | 0 <= k < |es| :: es[k].decisions > 0 && 0.0 <= es[k].accuracy <= 100.0
  {
    var es := EntriesFor(periods, g, tf, periodOf);
    forall k | 0 <= k < |es|
      ensures es[k].decisions > 0
    {
      PeriodHasRow(g, tf, periodOf, periods[k]);
    }
  }

  /** A period that is some row's key has that row. */
  lemma PeriodHasRow(g: seq<DecisionRow>, tf: Timeframe, periodOf: (Timeframe, int) -> int, p: int)
    requires p in PeriodKeys(g, tf, periodOf)
    ensures Count(g, AtPeriod(tf, periodOf, p)) > 0
  {
    var keys := PeriodKeys(g, tf, periodOf);
    var i :| 0 <= i < |keys| && keys[i] == p;
    assert g[i] in Filter(g, AtPeriod(tf, periodOf, p));
  }

  /** Some entry of `es` is for period `p`. */
  predicate HasPeriod(es: seq<PeriodEntry>, p: int)
  {
    exists k | 0 <= k < |es| :: es[k].period == p
  }

  /** Every row's period has an entry when the periods include all the rows' keys. */
  lemma EntriesCover(periods: seq<int>, g: seq<DecisionRow>, tf: Timeframe, periodOf: (Timeframe, int) -> int)
    requires forall p | p in PeriodKeys(g, tf, periodOf) :: p in periods
    ensures forall i | 0 <= i < |g| :: HasPeriod(EntriesFor(periods, g, tf, periodOf), periodOf(tf, g[i].timestamp))
  {
    var keys := PeriodKeys(g, tf, periodOf);
    var es := EntriesFor(periods, g, tf, periodOf);
    forall i | 0 <= i < |g|
      ensures HasPeriod(es, periodOf(tf, g[i].timestamp))
    {
      PeriodKeyAt(g, tf, periodOf, i);
      var p := keys[i];
      assert p in keys;
      assert p in periods;
      var k :| 0 <= k < |periods| && periods[k] == p;
      assert es[k].period == p;
    }
  }

  lemma PeriodKeyAt(g: seq<DecisionRow>, tf: Timeframe, periodOf: (Timeframe, int) -> int, i: nat)
    requires i < |g|
    ensures |PeriodKeys(g, tf, periodOf)| == |g|
    ensures PeriodKeys(g, tf, periodOf)[i] == periodOf(tf, g[i].timestamp)
  {
  }

  /** `get_performance_by_timeframe`: an unknown timeframe raises before any query runs;
      otherwise each model with scored rows gets its timeline. The period text produced by
      `strftime` is abstracted as the integer key `periodOf(timeframe, timestamp)`, which
      orders like the text does. */
  function PerformanceByTimeframe(db: Db, timeframe: string, periodOf: (Timeframe, int) -> int)
    : (r: Result<map<string, seq<PeriodEntry>>, DbError>)
    ensures r.Err? <==> timeframe !in {"hour", "day", "week", "month"}
    ensures r.Err? ==> r.error == InvalidTimeframe
    ensures r.Ok? ==> r.value.Keys == ModelsWhere(db.decisions, Scored)
    ensures r.Ok? ==> forall m | m in r.value ::
      var es := r.value[m];
      && |es| > 0
      && (forall i, j | 0 <= i < j < |es| :: es[i].period > es[j].period)
      && (forall i | 0 <= i < |es| :: es[i].decisions > 0 && 0.0 <= es[i].accuracy <= 100.0)
      && (forall i | 0 <= i < |es| ::
            es[i] == PeriodEntryOf(es[i].period,
                                   Filter(GroupOf(db.decisions, Scored, m),
                                          AtPeriod(ParseTimeframe(timeframe).value, periodOf, es[i].period))))
  {
    match ParseTimeframe(timeframe)
    case Err(e) => Err(e)
    case Ok(tf) =>
      Ok(map m | m in ModelsWhere(db.decisions, Scored) ::
           ModelTimeline(GroupOf(db.decisions, Scored, m), tf, periodOf))
  }

  /** The timeframe view and the accuracy view report the same set of models. */
  lemma SameModelsInBothViews(db: Db, timeframe: string, periodOf: (Timeframe, int) -> int)
    requires timeframe in {"hour", "day", "week", "month"}
    ensures PerformanceByTimeframe(db, timeframe, periodOf).value.Keys == AccuracyStats(db).Keys
  {
  }

  // ------------------------------------------------------------------ comparison

  datatype ComparisonEntry = ComparisonEntry(
    total: nat, correct: nat, accuracy: real,
    avgProfit: real, totalProfit: real, maxLoss: real, maxProfit: real,
    buy: nat, sell: nat, hold: nat)

  predicate IsBuy(r: DecisionRow) { r.decision == "BUY" }
  predicate IsSell(r: DecisionRow) { r.decision == "SELL" }
  predicate IsHold(r: DecisionRow) { r.decision == "HOLD" }

  /** The comparison figures of one model's rows `g`: the counts, the percentage correct,
      the total, mean, smallest and largest profit (a missing profit counts as 0) and the
      per-action counts. */
  function ComparisonEntryOf(g: seq<DecisionRow>): (e: ComparisonEntry)
    requires |g| > 0
    ensures e.total == |g| && e.correct == Count(g, IsCorrect) && e.correct <= e.total
    ensures e.accuracy == e.correct as real / e.total as real * 100.0
    ensures 0.0 <= e.accuracy <= 100.0
    ensures e.totalProfit == Sum(Profits(g)) && e.avgProfit == e.totalProfit / e.total as real
    ensures e.maxLoss == MinOf(Profits(g)) && e.maxProfit == MaxOf(Profits(g))
    ensures e.maxLoss <= e.avgProfit <= e.maxProfit
    ensures e.buy + e.sell + e.hold <= e.total
    ensures e.buy == Count(g, IsBuy) && e.sell == Count(g, IsSell) && e.hold == Count(g, IsHold)
  {
    var ps := Profits(g);
    MeanBetweenMinMax(ps);
    CountDisjoint3(g, IsBuy, IsSell, IsHold);
    var correct := Count(g, IsCorrect);
    ComparisonEntry(|g|, correct, Percent(correct, |g|), Mean(ps), Sum(ps), MinOf(ps), MaxOf(ps),
                    Count(g, IsBuy), Count(g, IsSell), Count(g, IsHold))
  }

  /** Rows newer than `days` days before `now`, labelled or not, any action. */
  function InWindow(now: int, days: nat): DecisionRow -> bool
  {
    (r: DecisionRow) => r.timestamp > now - days * SecondsPerDay
  }

  /** `get_model_comparison(days)`: every model with a decision in the window, pending
      rows and HOLD rows included. */
  function ModelComparison(db: Db, now: int, days: nat): (stats: map<string, ComparisonEntry>)
    ensures stats.Keys == ModelsWhere(db.decisions, InWindow(now, days))
    ensures forall m | m in stats ::
      && stats[m] == ComparisonEntryOf(GroupOf(db.decisions, InWindow(now, days), m))
      && stats[m].total == Count(db.decisions, OfModel(InWindow(now, days), m))
      && stats[m].accuracy == stats[m].correct as real / stats[m].total as real * 100.0
      && 0 < stats[m].total
      && stats[m].correct <= stats[m].total
      && stats[m].buy + stats[m].sell + stats[m].hold <= stats[m].total
      && 0.0 <= stats[m].accuracy <= 100.0
  {
    var w := InWindow(now, days);
    map m | m in ModelsWhere(db.decisions, w) :: ComparisonEntryOf(GroupOf(db.decisions, w, m))
  }

  predicate KnownAction(r: DecisionRow) { r.decision in {"BUY", "SELL", "HOLD"} }

  lemma AllKnownInGroup(rows: seq<DecisionRow>, p: DecisionRow -> bool, m: string)
    requires forall i | 0 <= i < |rows| :: KnownAction(rows[i])
    ensures var g := GroupOf(rows, p, m);
      forall i | 0 <= i < |g| :: (IsBuy(g[i]) && !IsSell(g[i]) && !IsHold(g[i]))
        || (!IsBuy(g[i]) && IsSell(g[i]) && !IsHold(g[i])) || (!IsBuy(g[i]) && !IsSell(g[i]) && IsHold(g[i]))
  {
    var g := GroupOf(rows, p, m);
    forall i | 0 <= i < |g|
      ensures KnownAction(g[i])
    {
      var j :| 0 <= j < |rows| && rows[j] == g[i];
    }
  }

  /** When every stored action is BUY, SELL or HOLD the three counts add up to the total. */
  lemma ComparisonDistributionComplete(db: Db, now: int, days: nat, m: string)
    requires forall i | 0 <= i < |db.decisions| :: KnownAction(db.decisions[i])
    requires m in ModelComparison(db, now, days)
    ensures var e := ModelComparison(db, now, days)[m]; e.buy + e.sell + e.hold == e.total
  {
    var g := GroupOf(db.decisions, InWindow(now, days), m);
    AllKnownInGroup(db.decisions, InWindow(now, days), m);
    CountPartition3(g, IsBuy, IsSell, IsHold);
    assert ModelComparison(db, now, days)[m] == ComparisonEntryOf(g);
  }

  // ------------------------------------------------------------------ retention

  function Kept(now: int): int { now - RetentionSeconds }

  /** `cleanup_old_data`: deletes exactly the rows of both tables older than seven days;
      kept rows stay in their original order. */
  function CleanupOldData(db: Db, now: int): (r: Db)
    ensures r.nextId == db.nextId
    ensures forall i | 0 <= i < |r.decisions| :: r.decisions[i].timestamp >= Kept(now) && r.decisions[i] in db.decisions
    ensures forall i | 0 <= i < |db.decisions| && db.decisions[i].timestamp >= Kept(now) :: db.decisions[i] in r.decisions
    ensures forall i | 0 <= i < |r.market| :: r.market[i].timestamp >= Kept(now) && r.market[i] in db.market
    ensures forall i | 0 <= i < |db.market| && db.market[i].timestamp >= Kept(now) :: db.market[i] in r.market
  {
    Db(Filter(db.market, (m: MarketRow) => m.timestamp >= Kept(now)),
       Filter(db.decisions, (d: DecisionRow) => d.timestamp >= Kept(now)),
       db.nextId)
  }

  /** Cleaning up twice at the same time removes nothing more. */
  lemma CleanupIdempotent(db: Db, now: int)
    ensures CleanupOldData(CleanupOldData(db, now), now) == CleanupOldData(db, now)
  {
    FilterIdempotent(db.market, (m: MarketRow) => m.timestamp >= Kept(now));
    FilterIdempotent(db.decisions, (d: DecisionRow) => d.timestamp >= Kept(now));
  }

  /** The cleanup keeps row order: cleaning up tables made of older rows followed by
      newer rows gives the kept older rows followed by the kept newer rows. */
  lemma CleanupKeepsOrder(older: Db, newer: Db, now: int)
    ensures CleanupOldData(Db(older.market + newer.market, older.decisions + newer.decisions, older.nextId), now)
         == Db(CleanupOldData(older, now).market + CleanupOldData(newer, now).market,
               CleanupOldData(older, now).decisions + CleanupOldData(newer, now).decisions,
               older.nextId)
  {
    FilterAppend(older.market, newer.market, (m: MarketRow) => m.timestamp >= Kept(now));
    FilterAppend(older.decisions, newer.decisions, (d: DecisionRow) => d.timestamp >= Kept(now));
  }

  /** Filtering with a weaker test first does not change a filter with a stronger one. */
  lemma {:induction false} FilterThenStronger<T>(s: seq<T>, weak: T -> bool, strong: T -> bool)
    requires forall x :: strong(x) ==> weak(x)
    ensures Filter(Filter(s, weak), strong) == Filter(s, strong)
  {
    if s != [] {
      FilterThenStronger(s[1..], weak, strong);
      var head := if weak(s[0]) then [s[0]] else [];
      FilterAppend(head, Filter(s[1..], weak), strong);
    }
  }

  /** Each model's windowed rows are the same before and after a cleanup that keeps
      every row of the window. */
  lemma CleanupKeepsWindowGroups(db: Db, now: int, days: nat, n: string)
    requires days <= 7
    ensures GroupOf(CleanupOldData(db, now).decisions, InWindow(now, days), n)
         == GroupOf(db.decisions, InWindow(now, days), n)
  {
    var keep := (d: DecisionRow) => d.timestamp >= Kept(now);
    FilterThenStronger(db.decisions, keep, OfModel(InWindow(now, days), n));
  }

  /** A comparison over at most seven days reports the same figures before and after the
      cleanup that runs at the same moment. */
  lemma CleanupPreservesComparison(db: Db, now: int, days: nat)
    requires days <= 7
    ensures ModelComparison(CleanupOldData(db, now), now, days) == ModelComparison(db, now, days)
  {
    var rows := CleanupOldData(db, now).decisions;
    var w := InWindow(now, days);
    forall n
      ensures GroupOf(rows, w, n) == GroupOf(db.decisions, w, n)
    {
      CleanupKeepsWindowGroups(db, now, days, n);
    }
    assert ModelsWhere(rows, w) == ModelsWhere(db.decisions, w);
  }
}

=== FILE: etherscan.dfy ===
/** The explorer client of the backend (`etherscan_api.py`): the cached ETH quote with its
    estimated daily high and low, and the tolerant gas-price reader with its cache. The
    HTTP replies and the clock are inputs. */
module Etherscan {
  import opened Common
  import opened Explorer

  // ---------------------------------------------------------------- ETH quote

  /** `(current_price, volume_24h, high_24h, low_24h)`. */
  datatype Quote = Quote(price: real, volume: real, high: real, low: real)

  const ZeroQuote := Quote(0.0, 0.0, 0.0, 0.0)

  /** `_price_cache`: when the cached quote was taken, and the quote (absent at start). */
  datatype PriceCache = PriceCache(timestamp: real, data: Option<Quote>)

  const EmptyPriceCache := PriceCache(0.0, None)

  /** The quote built from a price: the daily high and low are estimated as 5 % above
      and below it, and the volume is the `ethbtc_timestamp` field times the price. */
  function Estimate(price: real, volumeFactor: real): (q: Quote)
    ensures q.price == price
    ensures price >= 0.0 ==> q.low <= q.price <= q.high
    ensures price > 0.0 ==> q.low < q.price < q.high
    ensures q.high - q.price == q.price - q.low
  {
    Quote(price, volumeFactor * price, price * 1.05, price * 0.95)
  }

  /** The quote read from a valid result: the `ethusd` price and the
      `ethbtc_timestamp` factor (default "0"); `None` when either is missing or
      unreadable (an empty result has no `ethusd`). */
  function ReadQuote(result: map<string, string>): (q: Option<Quote>)
    ensures "ethusd" !in result ==> q.None?
    ensures q.Some? <==> Field(result, "ethusd").Some?
                         && ("ethbtc_timestamp" in result ==> Field(result, "ethbtc_timestamp").Some?)
    ensures q.Some? ==> q.value == Estimate(Field(result, "ethusd").value,
                                            if "ethbtc_timestamp" in result then Field(result, "ethbtc_timestamp").value else 0.0)
  {
    var price := Field(result, "ethusd");
    var factor := if "ethbtc_timestamp" in result then Field(result, "ethbtc_timestamp") else Some(0.0);
    if price.Some? && factor.Some? then Some(Estimate(price.value, factor.value)) else None
  }

  /** The cached quote is served while it is younger than `duration` seconds. */
  predicate Fresh(cache: PriceCache, now: real, duration: real)
  {
    now - cache.timestamp < duration && cache.data.Some?
  }

  /** `get_eth_price` at time `now` with cache duration `duration`: the cached quote while
      fresh; otherwise the reply's quote, which is then cached; after any failure the
      cached quote, or four zeros when there is none. */
  function GetEthPrice(cache: PriceCache, now: real, duration: real, reply: Reply): (r: (Quote, PriceCache))
    ensures Fresh(cache, now, duration) ==> r == (cache.data.value, cache)
    ensures !Fresh(cache, now, duration) ==>
      var q := if ValidResult(reply).Some? then ReadQuote(ValidResult(reply).value) else None;
      if q.Some? then r == (q.value, PriceCache(now, q))
      else r.1 == cache && r.0 == (if cache.data.Some? then cache.data.value else ZeroQuote)
  {
    if Fresh(cache, now, duration) then (cache.data.value, cache)
    else
      var result := ValidResult(reply);
      var q := if result.Some? then ReadQuote(result.value) else None;
      match q
      case Some(quote) => (quote, PriceCache(now, q))
      case None => (if cache.data.Some? then cache.data.value else ZeroQuote, cache)
  }

  /** A call within `duration` seconds after a successful one returns the same quote
      without using its reply. */
  lemma CachedWithinDuration(cache: PriceCache, t1: real, t2: real, duration: real, r1: Reply, r2: Reply)
    requires !Fresh(cache, t1, duration)
    requires ValidResult(r1).Some? && ReadQuote(ValidResult(r1).value).Some?
    requires t1 <= t2 < t1 + duration
    ensures var (q1, c1) := GetEthPrice(cache, t1, duration, r1);
      GetEthPrice(c1, t2, duration, r2) == (q1, c1)
  {
  }

  /** A failure never forgets a cached quote, and with none cached it yields zeros. */
  lemma FailureServesCacheOrZeros(cache: PriceCache, now: real, duration: real)
    requires !Fresh(cache, now, duration)
    ensures GetEthPrice(cache, now, duration, NoReply).1 == cache
    ensures cache.data.None? ==> GetEthPrice(cache, now, duration, NoReply).0 == ZeroQuote
  {
  }

  // ---------------------------------------------------------------- gas prices

  predicate IsNumericChar(c: char)
  {
    IsDigit(c) || c == '.'
  }

  /** `''.join(c for c in s if c.isdigit() or c == '.')`. */
  function KeepNumeric(s: string): (r: string)
    ensures |r| <= |s|
    ensures forall i | 0 <= i < |r| :: IsNumericChar(r[i])
    ensures AllDigits(s) ==> r == s
  {
    if s == [] then []
    else (if IsNumericChar(s[0]) then [s[0]] else []) + KeepNumeric(s[1..])
  }

  /** `float(text)`, with 0 for the `ValueError` the reader swallows. */
  function FloatOrZero(text: string): real
  {
    match ParseDecimal(text)
    case Some(v) => v
    case None => 0.0
  }

  /** `parse_gas_price`: a plain digit string is read as is. Any other text containing
      `<` is read with every `<` removed; otherwise only its digits and dots are kept.
      Whatever cannot be read gives 0. */
  function ParseGasPrice(s: string): (r: real)
    ensures |s| > 0 && AllDigits(s) ==> r == DigitsValue(s) as real
    ensures !(|s| > 0 && AllDigits(s)) && HasChar(s, '<') ==> r == FloatOrZero(RemoveChar(s, '<'))
    ensures !(|s| > 0 && AllDigits(s)) && !HasChar(s, '<') ==>
      r == (if KeepNumeric(s) == [] then 0.0 else FloatOrZero(KeepNumeric(s)))
  {
    if |s| > 0 && AllDigits(s) then
      DigitsParse(s);
      FloatOrZero(s)
    else if HasChar(s, '<') then FloatOrZero(RemoveChar(s, '<'))
    else
      var numeric := KeepNumeric(s);
      if numeric == [] then 0.0 else FloatOrZero(numeric)
  }

  /** What the explorer prints for sub-gwei prices, "<1", is read as 1. */
  lemma LessThanOneReadsAsOne()
    ensures ParseGasPrice("<1") == 1.0
  {
    var one := "1";
    assert !IsDigit("<1"[0]);
    assert !AllDigits("<1");
    assert HasChar("<1", '<');
    assert RemoveChar("<1", '<') == one;
    assert AllDigits(one) && DigitsValue(one) == 1;
    DigitsParse(one);
  }

  /** Text with no digit and no `<` reads as 0 instead of raising. */
  lemma NoDigitsReadsAsZero(s: string)
    requires |s| > 0 && !HasChar(s, '<') && forall i | 0 <= i < |s| :: !IsNumericChar(s[i])
    ensures ParseGasPrice(s) == 0.0
  {
    assert !IsDigit(s[0]);
    NothingNumeric(s);
  }

  lemma {:induction false} NothingNumeric(s: string)
    requires forall i | 0 <= i < |s| :: !IsNumericChar(s[i])
    ensures KeepNumeric(s) == []
  {
    if s != [] {
      NothingNumeric(s[1..]);
    }
  }

  /** Every price this reader ever printed as a whole number reads back unchanged. */
  lemma ParseGasPriceRoundTrip(n: nat)
    ensures ParseGasPrice(NatToString(n)) == n as real
  {
    NatToStringValue(n);
  }

  /** Without `<`, the reader never returns a negative price: no sign survives the
      filter. */
  lemma ParseGasPriceNonNegative(s: string)
    requires !HasChar(s, '<')
    ensures ParseGasPrice(s) >= 0.0
  {
    var numeric := KeepNumeric(s);
    if !(|s| > 0 && AllDigits(s)) && numeric != [] {
      FloatOfNumericNonNegative(numeric);
    }
  }

  /** Digits and dots alone never spell a negative number. */
  lemma FloatOfNumericNonNegative(t: string)
    requires forall i | 0 <= i < |t| :: IsNumericChar(t[i])
    ensures FloatOrZero(t) >= 0.0
  {
    assert TrimStart(t) == t by {
      if t != [] { assert IsNumericChar(t[0]); }
    }
    assert TrimEnd(t) == t by {
      if t != [] { assert IsNumericChar(t[|t| - 1]); }
    }
    if t != [] {
      assert t[0] != '-' && t[0] != '+' by { assert IsNumericChar(t[0]); }
    }
    assert SplitSign(Trim(t)) == (false, t);
  }

  /** `v` is a whole number of thousandths. */
  predicate Thousandths(v: real)
  {
    (v * 1000.0).Floor as real == v * 1000.0
  }

  /** Python's `round(x, 3)`: the nearest multiple of 0.001, a tie going to the even
      multiple (banker's rounding). */
  function Round3(x: real): (r: real)
    ensures Thousandths(r)
    ensures -0.0005 <= r - x <= 0.0005
    ensures Thousandths(x) ==> r == x
  {
    var scaled := x * 1000.0;
    var k := scaled.Floor;
    var frac := scaled - k as real;
    var n := if frac > 0.5 then k + 1
             else if frac < 0.5 then k
             else if k % 2 == 0 then k else k + 1;
    n as real / 1000.0
  }

  /** Rounding an already rounded level changes nothing. */
  lemma Round3Idempotent(x: real)
    ensures Round3(Round3(x)) == Round3(x)
  {
  }

  /** Rounding never reverses the order of two prices. */
  lemma Round3Monotone(x: real, y: real)
    requires x <= y
    ensures Round3(x) <= Round3(y)
  {
    var kx, ky := (x * 1000.0).Floor, (y * 1000.0).Floor;
    assert kx <= ky;
  }

  /** A sub-gwei reply keeps three decimals: "1.23456" reads as 1.235. */
  lemma SubGweiIsRounded()
    ensures Round3(1.23456) == 1.235
  {
    assert (1.23456 * 1000.0).Floor == 1234;
  }

  /** Exactly half way rounds to the even multiple: 0.0025 gives 0.002, 0.0035 gives 0.004. */
  lemma TiesGoToEven()
    ensures Round3(0.0025) == 0.002 && Round3(0.0035) == 0.004
  {
    assert (0.0025 * 1000.0).Floor == 2;
    assert (0.0035 * 1000.0).Floor == 3;
  }

  /** The three gas prices, as read and rounded. */
  datatype GasLevels = GasLevels(low: real, standard: real, fast: real)

  /** Reads one level leniently and rounds it to three decimals. */
  function ReadLevel(text: string): (v: real)
    ensures Thousandths(v)
    ensures -0.0005 <= v - ParseGasPrice(text) <= 0.0005
  {
    Round3(ParseGasPrice(text))
  }

  /** `get_gas_prices`: a valid result with all three keys is read leniently, rounded to
      three decimals and cached; any failure returns the cached prices, or `None`
      before the first success. */
  function GetGasPrices(cache: Option<GasLevels>, reply: Reply): (r: (Option<GasLevels>, Option<GasLevels>))
    ensures r.0 == r.1
    ensures ValidResult(reply).None? ==> r.1 == cache
    ensures ValidResult(reply).Some? ==>
      var res := ValidResult(reply).value;
      if "SafeGasPrice" in res && "ProposeGasPrice" in res && "FastGasPrice" in res then
        r.1 == Some(GasLevels(Round3(ParseGasPrice(res["SafeGasPrice"])), Round3(ParseGasPrice(res["ProposeGasPrice"])),
                              Round3(ParseGasPrice(res["FastGasPrice"]))))
      else r.1 == cache
  {
    match ValidResult(reply)
    case None => (cache, cache)
    case Some(res) =>
      if "SafeGasPrice" in res && "ProposeGasPrice" in res && "FastGasPrice" in res then
        var levels := GasLevels(ReadLevel(res["SafeGasPrice"]), ReadLevel(res["ProposeGasPrice"]),
                                ReadLevel(res["FastGasPrice"]));
        (Some(levels), Some(levels))
      else (cache, cache)
  }

  /** Each level is a whole number of thousandths. */
  predicate ThreeDecimals(g: GasLevels)
  {
    Thousandths(g.low) && Thousandths(g.standard) && Thousandths(g.fast)
  }

  /** Every level handed out, fresh or from the cache, has at most three decimals, as long
      as the cache only ever held levels this function produced. */
  lemma LevelsKeepThreeDecimals(cache: Option<GasLevels>, reply: Reply)
    requires cache.Some? ==> ThreeDecimals(cache.value)
    ensures var r := GetGasPrices(cache, reply).1; r.Some? ==> ThreeDecimals(r.value)
  {
    var r := GetGasPrices(cache, reply).1;
    if r != cache {
      var res := ValidResult(reply).value;
      var low, standard, fast := res["SafeGasPrice"], res["ProposeGasPrice"], res["FastGasPrice"];
      assert r == Some(GasLevels(ReadLevel(low), ReadLevel(standard), ReadLevel(fast)));
    }
  }

  /** A failed request after a success hands out the levels of that success. */
  lemma FailureAfterSuccessServesCache(cache: Option<GasLevels>, good: Reply, bad: Reply)
    requires GetGasPrices(cache, good).1 != cache
    requires ValidResult(bad).None?
    ensures GetGasPrices(GetGasPrices(cache, good).1, bad).1 == GetGasPrices(cache, good).1
    ensures GetGasPrices(GetGasPrices(cache, good).1, bad).1.Some?
  {
  }
}

=== FILE: explorer.dfy ===
/** The shape of the block explorer's JSON replies shared by both Python clients: a
    `status` string and a `result` object whose values are strings. */
module Explorer {
  import opened Common

  /** A decoded reply: its `status` and its `result` object, each possibly missing;
      `NoReply` is a transport error, an HTTP error status or undecodable JSON. */
  datatype Reply = NoReply | Reply(status: Option<string>, result: Option<map<string, string>>)

  /** The reply carries status "1" and a result; anything else raises. */
  function ValidResult(reply: Reply): (r: Option<map<string, string>>)
    ensures r.Some? <==> reply.Reply? && reply.status == Some("1") && reply.result.Some?
    ensures r.Some? ==> r == reply.result
  {
    if reply.Reply? && reply.status == Some("1") && reply.result.Some? then reply.result else None
  }

  /** `float(result[key])`; `None` for a missing key or text `float` rejects. */
  function Field(result: map<string, string>, key: string): (r: Option<real>)
    ensures key !in result ==> r.None?
    ensures key in result && AllDigits(result[key]) && |result[key]| > 0 ==>
      r == Some(DigitsValue(result[key]) as real)
  {
    if key in result then
      var text := result[key];
      (if AllDigits(text) && |text| > 0 then DigitsParse(text); ParseDecimal(text) else ParseDecimal(text))
    else None
  }
}

=== FILE: extract_addresses.dfy ===
/** The address-extraction script (`scripts/extract-addresses.js`): from what it finds in
    the deployment log it resolves the network and chain id and builds the command that
    runs the address-update script. Reading the log and the regular-expression search are
    left out: the captures are inputs. */
module ExtractAddresses {
  import opened Common
  import UA = UpdateAddresses

  /** `NETWORK_CHAIN_IDS`. */
  function NetworkChainId(network: string): (id: Option<string>)
    ensures network in {"linea", "lineamainnet"} ==> id == Some("59144")
    ensures network in {"lineatestnet", "goerli"} ==> id == Some("59140")
    ensures network in {"hardhat", "localhost"} ==> id == Some("31337")
    ensures network !in {"linea", "lineamainnet", "lineatestnet", "goerli", "hardhat", "localhost"} ==> id.None?
  {
    if network == "linea" || network == "lineamainnet" then Some("59144")
    else if network == "lineatestnet" || network == "goerli" then Some("59140")
    else if network == "hardhat" || network == "localhost" then Some("31337")
    else None
  }

  const Fallback := "59140"

  /** The captures of the first network pattern that matched the log: the network name and,
      for the two patterns that have it, the chain id. */
  datatype NetworkCapture = NetworkCapture(name: string, chainId: Option<string>)

  function OrFallback(id: Option<string>): string
  {
    if id.Some? then id.value else Fallback
  }

  /** The network and the chain id the script settles on: the captured chain id, else the
      mapped name, else the testnet; a testnet id is then replaced by the mapped name's
      whenever a network was captured. */
  function ResolveChain(capture: Option<NetworkCapture>): (r: (string, string))
    ensures capture.None? ==> r == ("unknown", Fallback)
    ensures capture.Some? ==> r.0 == Lower(capture.value.name)
    ensures capture.Some? && r.0 != "unknown" && NetworkChainId(r.0).Some? ==>
      r.1 == (if Truthy(capture.value.chainId) && capture.value.chainId.value != Fallback
              then capture.value.chainId.value else NetworkChainId(r.0).value)
    ensures capture.Some? && NetworkChainId(r.0).None? ==>
      r.1 == (if Truthy(capture.value.chainId) then capture.value.chainId.value else Fallback)
  {
    if capture.None? then ("unknown", Fallback)
    else
      var network := Lower(capture.value.name);
      var first := if Truthy(capture.value.chainId) then capture.value.chainId.value
                   else OrFallback(NetworkChainId(network));
      var chainId := if first == Fallback && network != "unknown" then OrFallback(NetworkChainId(network)) else first;
      (network, chainId)
  }

  /** A known network name always wins over a captured testnet id: a log reading
      "hardhat (chainId: 59140)" resolves to the local chain. */
  lemma KnownNameOverridesTestnetId(name: string)
    requires NetworkChainId(Lower(name)).Some?
    ensures ResolveChain(Some(NetworkCapture(name, Some(Fallback)))).1 == NetworkChainId(Lower(name)).value
  {
  }

  lemma HardhatWithTestnetId()
    ensures ResolveChain(Some(NetworkCapture("hardhat", Some("59140")))) == ("hardhat", "31337")
  {
    var h := "hardhat";
    assert Lower(h) == h;
  }

  /** Every chain id a network name maps to is one the update script names. */
  lemma MappedChainsAreNamed(network: string)
    requires NetworkChainId(network).Some?
    ensures UA.GetNetworkName(NetworkChainId(network).value) != "Unknown Network"
  {
  }

  /** Without a usable captured id, the chain the script settles on is always one the
      update script names: the testnet when nothing was captured, else the chain of a
      known network name. */
  lemma ResolvedChainIsNamed(capture: Option<NetworkCapture>)
    requires capture.Some? ==>
      && NetworkChainId(Lower(capture.value.name)).Some?
      && (!Truthy(capture.value.chainId) || capture.value.chainId.value == Fallback)
    ensures UA.GetNetworkName(ResolveChain(capture).1) != "Unknown Network"
  {
    if capture.Some? {
      MappedChainsAreNamed(Lower(capture.value.name));
    }
  }

  /** The resolved chain id is never empty. */
  lemma ResolvedChainNonEmpty(capture: Option<NetworkCapture>)
    ensures ResolveChain(capture).1 != ""
  {
  }

  const UpdateScript := ["node", "scripts/update-contract-addresses.js"]

  /** The arguments handed to the update script: the SimpleSwap address and the chain id,
      and the smart account only on the local chain when one was found. */
  function UpdateArgs(simpleSwap: string, chainId: string, smartAccount: string): (args: seq<string>)
    ensures |args| >= 2 && args[0] == simpleSwap && args[1] == chainId
    ensures |args| == 3 <==> chainId == "31337" && smartAccount != ""
    ensures |args| == 3 ==> args[2] == smartAccount
    ensures |args| <= 3
  {
    if chainId == "31337" && smartAccount != "" then [simpleSwap, chainId, smartAccount]
    else [simpleSwap, chainId]
  }

  /** The update command, or `None` when no SimpleSwap address was found and the script
      exits with an error. */
  function UpdateCommand(simpleSwap: string, chainId: string, smartAccount: string): (cmd: Option<string>)
    ensures cmd.None? <==> simpleSwap == ""
    ensures cmd.Some? ==> cmd.value == Join(UpdateScript + UpdateArgs(simpleSwap, chainId, smartAccount), " ")
  {
    if simpleSwap == "" then None
    else Some(Join(UpdateScript + UpdateArgs(simpleSwap, chainId, smartAccount), " "))
  }

  /** Splitting a space-joined list of space-free words gives the words back. */
  lemma {:induction false} SplitJoin(parts: seq<string>)
    requires |parts| >= 1
    requires forall i | 0 <= i < |parts| :: ' ' !in parts[i]
    ensures Split(Join(parts, " "), ' ') == parts
    decreases |parts|
  {
    if |parts| == 1 {
      IndexOfAbsent(parts[0], ' ');
    } else {
      var rest := Join(parts[1..], " ");
      var s := parts[0] + " " + rest;
      assert Join(parts, " ") == s;
      IndexOfAbsent(parts[0], ' ');
      IndexOfAfter(parts[0], ' ', rest);
      assert s[..|parts[0]|] == parts[0];
      assert s[|parts[0]| + 1..] == rest;
      SplitJoin(parts[1..]);
      assert parts == [parts[0]] + parts[1..];
    }
  }

  lemma {:induction false} IndexOfAbsent(s: string, c: char)
    requires c !in s
    ensures IndexOf(s, c) == |s|
  {
    if s != [] {
      assert c !in s[1..];
      IndexOfAbsent(s[1..], c);
    }
  }

  lemma {:induction false} IndexOfAfter(s: string, c: char, rest: string)
    requires c !in s
    ensures IndexOf(s + [c] + rest, c) == |s|
  {
    if s != [] {
      assert (s + [c] + rest)[1..] == s[1..] + [c] + rest;
      assert c !in s[1..];
      IndexOfAfter(s[1..], c, rest);
    }
  }

  /** What the script extracted is what the update script records: the shell's split of the
      command yields exactly the arguments, so the SimpleSwap address lands under the
      resolved chain id and the smart account only on the local chain. */
  lemma ExtractedAddressesReachUpdate(simpleSwap: string, chainId: string, smartAccount: string)
    requires simpleSwap != "" && chainId != ""
    requires ' ' !in simpleSwap && ' ' !in chainId && ' ' !in smartAccount
    ensures var cmd := UpdateCommand(simpleSwap, chainId, smartAccount);
      && cmd.Some?
      && Split(cmd.value, ' ') == UpdateScript + UpdateArgs(simpleSwap, chainId, smartAccount)
      && var r := UA.UpdateFromArgs(Split(cmd.value, ' ')[2..]);
      && r.Ok? && chainId in r.value.simpleSwap && r.value.simpleSwap[chainId] == simpleSwap
      && r.value.smartAccount == (if chainId == "31337" then smartAccount else "")
  {
    var args := UpdateArgs(simpleSwap, chainId, smartAccount);
    var words := UpdateScript + args;
    assert forall i | 0 <= i < |words| :: ' ' !in words[i];
    SplitJoin(words);
    assert words[2..] == args;
  }
}

=== FILE: fear_greed.dfy ===
/** The Fear & Greed index client (`fear_greed_api.py`): the index value with a two-way
    sentiment, a twelve-hour cache, and a neutral default when nothing is known. The HTTP
    reply and the clock are inputs. */
module FearGreed {
  import opened Common

  /** How long a fetched index is reused, in seconds. */
  const CacheDuration: real := 12.0 * 3600.0

  datatype Sentiment = Bullish | Bearish | Neutral

  function SentimentName(s: Sentiment): string
  {
    match s
    case Bullish => "bullish"
    case Bearish => "bearish"
    case Neutral => "neutral"
  }

  /** The `{"fear_greed_value", "fear_greed_sentiment"}` dictionary. */
  datatype Index = Index(value: string, sentiment: Sentiment)

  /** The neutral default used when nothing could be fetched or cached. */
  const DefaultIndex := Index("50", Neutral)

  /** The index as the dictionary the callers receive: always the same two keys. */
  function AsDict(i: Index): (d: map<string, string>)
    ensures d.Keys == {"fear_greed_value", "fear_greed_sentiment"}
    ensures d["fear_greed_value"] == i.value
    ensures d["fear_greed_sentiment"] == SentimentName(i.sentiment)
  {
    map["fear_greed_value" := i.value, "fear_greed_sentiment" := SentimentName(i.sentiment)]
  }

  /** One element of the reply's `data` list: `value` and `value_classification`, each
      possibly missing. */
  datatype Entry = Entry(value: Option<string>, classification: Option<string>)

  /** The decoded reply: its `data` list, possibly missing; `NoReply` is any transport,
      HTTP or decoding error. */
  datatype Reply = NoReply | Reply(data: Option<seq<Entry>>)

  /** `_cache`: when the index was fetched, and the index (absent at start). */
  datatype Cache = Cache(timestamp: real, data: Option<Index>)

  const EmptyCache := Cache(0.0, None)

  /** The index read from a reply: the first entry's value, bullish exactly when it is
      an integer above 50. `None` stands for every exception the client catches: no or
      an empty `data` list, a missing key, or a value `int` cannot read. The
      classification is read (so it must be present) but not used. */
  function ReadIndex(reply: Reply): (r: Option<Index>)
    ensures r.Some? <==> (
      && reply.Reply? && reply.data.Some? && |reply.data.value| > 0
      && reply.data.value[0].value.Some? && reply.data.value[0].classification.Some?
      && ParsePyInt(reply.data.value[0].value.value).Some?)
    ensures r.Some? ==>
      && r.value.value == reply.data.value[0].value.value
      && (r.value.sentiment == Bullish <==> ParsePyInt(r.value.value).value > 50)
      && r.value.sentiment != Neutral
  {
    if reply.NoReply? || reply.data.None? || |reply.data.value| == 0 then None
    else
      var first := reply.data.value[0];
      if first.value.None? || first.classification.None? then None
      else match ParsePyInt(first.value.value)
        case None => None
        case Some(n) => Some(Index(first.value.value, if n > 50 then Bullish else Bearish))
  }

  predicate Fresh(cache: Cache, now: real)
  {
    now - cache.timestamp < CacheDuration && cache.data.Some?
  }

  /** `get_fear_greed_index` at time `now`: the cached index while fresh; otherwise the
      reply's index, which is then cached; after any error the cached index, or the
      neutral default when there is none. */
  function GetFearGreedIndex(cache: Cache, now: real, reply: Reply): (r: (Index, Cache))
    ensures Fresh(cache, now) ==> r == (cache.data.value, cache)
    ensures !Fresh(cache, now) && ReadIndex(reply).Some? ==>
      r == (ReadIndex(reply).value, Cache(now, ReadIndex(reply)))
    ensures !Fresh(cache, now) && ReadIndex(reply).None? ==>
      r.1 == cache && r.0 == (if cache.data.Some? then cache.data.value else DefaultIndex)
  {
    if Fresh(cache, now) then (cache.data.value, cache)
    else
      match ReadIndex(reply)
      case Some(i) => (i, Cache(now, Some(i)))
      case None => (if cache.data.Some? then cache.data.value else DefaultIndex, cache)
  }

  /** The cache only ever holds fetched indices, whose sentiment is never neutral. */
  predicate CacheNeverNeutral(cache: Cache)
  {
    cache.data.Some? ==> cache.data.value.sentiment != Neutral
  }

  /** The cache stays free of neutral entries, and a neutral answer is exactly the
      default given when nothing was ever fetched. */
  lemma NeutralOnlyAsDefault(cache: Cache, now: real, reply: Reply)
    requires CacheNeverNeutral(cache)
    ensures CacheNeverNeutral(GetFearGreedIndex(cache, now, reply).1)
    ensures GetFearGreedIndex(cache, now, reply).0.sentiment == Neutral ==>
      GetFearGreedIndex(cache, now, reply).0 == DefaultIndex && cache.data.None?
  {
  }

  /** Within twelve hours of a successful fetch the same index is returned, whatever the
      next reply is. */
  lemma ReusedForTwelveHours(cache: Cache, t1: real, t2: real, r1: Reply, r2: Reply)
    requires !Fresh(cache, t1) && ReadIndex(r1).Some?
    requires t1 <= t2 < t1 + CacheDuration
    ensures var (i1, c1) := GetFearGreedIndex(cache, t1, r1);
      GetFearGreedIndex(c1, t2, r2) == (i1, c1)
  {
  }

  /** A reply whose `data` list is missing or empty takes the error path. */
  lemma EmptyDataIsAnError(cache: Cache, now: real, reply: Reply)
    requires !Fresh(cache, now)
    requires reply.Reply? && (reply.data.None? || reply.data.value == [])
    ensures GetFearGreedIndex(cache, now, reply).1 == cache
  {
  }

  /** A reply with one readable entry gives that entry's value and its sentiment. */
  lemma SingleEntry(v: string, c: string)
    requires ParsePyInt(v).Some?
    ensures ReadIndex(Reply(Some([Entry(Some(v), Some(c))])))
         == Some(Index(v, if ParsePyInt(v).value > 50 then Bullish else Bearish))
  {
  }

  /** A value of "51" is bullish and "50" bearish. */
  lemma BullishAboveFifty()
    ensures ReadIndex(Reply(Some([Entry(Some("51"), Some("Greed"))]))) == Some(Index("51", Bullish))
    ensures ReadIndex(Reply(Some([Entry(Some("50"), Some("Neutral"))]))) == Some(Index("50", Bearish))
  {
    var s51, s50 := "51", "50";
    assert AllDigits(s51) && DigitsValue(s51) == 51;
    assert AllDigits(s50) && DigitsValue(s50) == 50;
    ParsePyIntDigits(s51);
    ParsePyIntDigits(s50);
    SingleEntry(s51, "Greed");
    SingleEntry(s50, "Neutral");
  }
}

=== FILE: gas_price.dfy ===
/** The gas oracle client (`gas_price_api.py`): three price levels in gwei, their USD cost
    for a plain transfer, the high-gas flag, the network utilisation, the recommendation
    ladder, and the fallback to the last known prices when any step fails. The two HTTP
    replies are inputs. */
module GasPrice {
  import opened Common
  import opened Seqs
  import opened Explorer

  /** Gas units of a plain ETH transfer. */
  const TransferGas: real := 21000.0
  /** One gwei in ETH. */
  const GweiToEth: real := 0.000000001
  /** Standard prices above this many gwei count as high. */
  const HighGasGwei: real := 100.0

  /** The `low`/`standard`/`fast` dictionary (prices in gwei, or costs in USD). */
  datatype Levels = Levels(low: real, standard: real, fast: real)

  datatype Level = Low | Standard | Fast | Wait

  function LevelName(l: Level): string
  {
    match l
    case Low => "low"
    case Standard => "standard"
    case Fast => "fast"
    case Wait => "wait"
  }

  function ParseLevels(result: map<string, string>): (r: Option<Levels>)
    ensures r.Some? <==> Field(result, "SafeGasPrice").Some? && Field(result, "ProposeGasPrice").Some?
                          && Field(result, "FastGasPrice").Some?
    ensures r.Some? ==> r.value == Levels(Field(result, "SafeGasPrice").value,
                                          Field(result, "ProposeGasPrice").value,
                                          Field(result, "FastGasPrice").value)
  {
    match (Field(result, "SafeGasPrice"), Field(result, "ProposeGasPrice"), Field(result, "FastGasPrice"))
    case (Some(l), Some(s), Some(f)) => Some(Levels(l, s, f))
    case _ => None
  }

  predicate AllPositive(p: Levels)
  {
    p.low > 0.0 && p.standard > 0.0 && p.fast > 0.0
  }

  /** USD cost of a transfer at `gwei`: gwei × 1e-9 ETH × 21000 gas × USD per ETH. */
  function Cost(gwei: real, ethUsd: real): real
  {
    gwei * GweiToEth * TransferGas * ethUsd
  }

  /** At a non-negative ETH price, a dearer gas price never costs less. */
  lemma CostMonotone(g1: real, g2: real, ethUsd: real)
    requires g1 <= g2 && ethUsd >= 0.0
    ensures Cost(g1, ethUsd) <= Cost(g2, ethUsd)
  {
    assert (g2 - g1) * GweiToEth * TransferGas >= 0.0;
    assert Cost(g2, ethUsd) - Cost(g1, ethUsd) == (g2 - g1) * GweiToEth * TransferGas * ethUsd;
  }

  function Costs(p: Levels, ethUsd: real): (c: Levels)
    ensures ethUsd >= 0.0 && p.low <= p.standard <= p.fast ==> c.low <= c.standard <= c.fast
    ensures ethUsd > 0.0 && AllPositive(p) ==> AllPositive(c)
  {
    assert ethUsd >= 0.0 && p.low <= p.standard <= p.fast ==>
      Cost(p.low, ethUsd) <= Cost(p.standard, ethUsd) <= Cost(p.fast, ethUsd) by {
      if ethUsd >= 0.0 && p.low <= p.standard <= p.fast {
        CostMonotone(p.low, p.standard, ethUsd);
        CostMonotone(p.standard, p.fast, ethUsd);
      }
    }
    Levels(Cost(p.low, ethUsd), Cost(p.standard, ethUsd), Cost(p.fast, ethUsd))
  }

  /** `[parse(x) for x in pieces]`; `None` when any piece does not parse. */
  function ParseAll(pieces: seq<string>, parse: string -> Option<real>): (r: Option<seq<real>>)
    ensures r.Some? <==> forall i | 0 <= i < |pieces| :: parse(pieces[i]).Some?
    ensures r.Some? ==> (
      && |r.value| == |pieces|
      && forall i | 0 <= i < |pieces| :: r.value[i] == parse(pieces[i]).value)
  {
    if pieces == [] then Some([])
    else
      var head := parse(pieces[0]);
      var rest := ParseAll(pieces[1..], parse);
      assert forall i | 1 <= i < |pieces| :: pieces[i] == pieces[1..][i - 1];
      if head.Some? && rest.Some? then Some([head.value] + rest.value) else None
  }

  /** The network utilisation: the mean of the comma-separated `gasUsedRatio` values.
      Splitting never yields an empty list, so the mean is always defined. */
  function Utilisation(gasUsedRatio: string): (u: Option<real>)
    ensures u.Some? <==> ParseAll(Split(gasUsedRatio, ','), ParseDecimal).Some?
    ensures u.Some? ==>
      var xs := ParseAll(Split(gasUsedRatio, ','), ParseDecimal).value;
      && |xs| > 0
      && u.value == Sum(xs) / |xs| as real
      && MinOf(xs) <= u.value <= MaxOf(xs)
  {
    match ParseAll(Split(gasUsedRatio, ','), ParseDecimal)
    case None => None
    case Some(xs) =>
      MeanBetweenMinMax(xs);
      Some(Mean(xs))
  }

  /** A single block's ratio, without a comma, is the utilisation itself. */
  lemma UtilisationOfOneRatio(ratio: string)
    requires ',' !in ratio && ParseDecimal(ratio).Some?
    ensures Utilisation(ratio) == ParseDecimal(ratio)
  {
    var v := ParseDecimal(ratio).value;
    SplitWithoutSeparator(ratio, ',');
    ParseOne(ratio, ParseDecimal);
    MeanOfOne(v);
  }

  lemma SplitWithoutSeparator(s: string, sep: char)
    requires sep !in s
    ensures Split(s, sep) == [s]
  {
    assert IndexOf(s, sep) == |s|;
  }

  lemma ParseOne(piece: string, parse: string -> Option<real>)
    requires parse(piece).Some?
    ensures ParseAll([piece], parse) == Some([parse(piece).value])
  {
    var parsed := ParseAll([piece], parse);
    assert [piece][0] == piece;
    assert parsed.Some? && |parsed.value| == 1 && parsed.value[0] == parse(piece).value;
    assert parsed.value == [parse(piece).value];
  }

  lemma MeanOfOne(v: real)
    ensures Sum([v]) / |[v]| as real == v
  {
    assert [v][1..] == [];
  }

  /** The recommendation ladder: "low" on a quiet network with cheap safe gas, else
      "standard" on a moderately busy one with normal gas, else "fast" unless even fast
      gas is above 150 gwei, and then "wait". */
  function Recommend(utilisation: real, p: Levels): (l: Level)
    ensures l == Low ==> utilisation < 0.4 && p.low <= HighGasGwei * 0.5
    ensures l == Standard ==> utilisation < 0.7 && p.standard <= HighGasGwei
    ensures l == Fast ==> p.fast <= HighGasGwei * 1.5
    ensures l == Wait <==> (
      && p.fast > HighGasGwei * 1.5
      && !(utilisation < 0.4 && p.low <= HighGasGwei * 0.5)
      && !(utilisation < 0.7 && p.standard <= HighGasGwei))
  {
    if utilisation < 0.4 && p.low <= HighGasGwei * 0.5 then Low
    else if utilisation < 0.7 && p.standard <= HighGasGwei then Standard
    else if p.fast <= HighGasGwei * 1.5 then Fast
    else Wait
  }

  function LevelRank(l: Level): nat
  {
    match l
    case Low => 0
    case Standard => 1
    case Fast => 2
    case Wait => 3
  }

  /** A quieter network never gets a slower-to-confirm, dearer recommendation. */
  lemma RecommendMonotone(u1: real, u2: real, p: Levels)
    requires u1 <= u2
    ensures LevelRank(Recommend(u1, p)) <= LevelRank(Recommend(u2, p))
  {
  }

  /** What `get_gas_price` returns. */
  datatype GasInfo = GasInfo(
    prices: Option<Levels>, costs: Option<Levels>, isHigh: Option<bool>,
    recommended: Level, baseFee: Option<real>, utilisation: Option<real>)

  /** The client's memory of the last accepted prices and costs. */
  datatype Client = Client(lastPrices: Option<Levels>, lastCosts: Option<Levels>)

  /** Prices are only ever remembered when all three are positive. */
  predicate RemembersPositive(c: Client)
  {
    c.lastPrices.Some? ==> AllPositive(c.lastPrices.value)
  }

  /** The reply after any failure: with remembered prices, those prices, the remembered
      costs (possibly `None`) and the high flag recomputed from the prices; without them,
      no figures at all. Always "wait". */
  function Fallback(c: Client): (g: GasInfo)
    ensures g.recommended == Wait && g.baseFee.None? && g.utilisation.None?
    ensures g.prices == c.lastPrices
    ensures c.lastPrices.None? ==> g.isHigh.None? && g.costs.None?
    ensures c.lastPrices.Some? ==>
      g.isHigh == Some(c.lastPrices.value.standard > HighGasGwei) && g.costs == c.lastCosts
  {
    match c.lastPrices
    case None => GasInfo(None, None, None, Wait, None, None)
    case Some(p) => GasInfo(Some(p), c.lastCosts, Some(p.standard > HighGasGwei), Wait, None, None)
  }

  /** The `ethusd` field of a valid ETH-price reply. */
  function EthUsd(eth: Reply): (r: Option<real>)
    ensures r.Some? ==> ValidResult(eth).Some? && r == Field(ValidResult(eth).value, "ethusd")
  {
    match ValidResult(eth)
    case None => None
    case Some(res) => Field(res, "ethusd")
  }

  /** The steps after the prices were accepted and remembered: the ETH price, the costs
      (remembered too), the utilisation and the base fee. */
  function AfterPrices(c: Client, result: map<string, string>, p: Levels, eth: Reply): (r: (GasInfo, Client))
    requires c.lastPrices == Some(p)
    ensures EthUsd(eth).None? ==> r == (Fallback(c), c)
    ensures EthUsd(eth).Some? ==> r.1 == c.(lastCosts := Some(Costs(p, EthUsd(eth).value)))
    ensures r.0.baseFee.None? ==> r.0 == Fallback(r.1)
    ensures r.0.baseFee.Some? <==>
      && EthUsd(eth).Some?
      && "gasUsedRatio" in result && Utilisation(result["gasUsedRatio"]).Some?
      && Field(result, "suggestBaseFee").Some?
    ensures r.0.baseFee.Some? ==>
      && r.0.prices == Some(p)
      && r.0.costs == Some(Costs(p, EthUsd(eth).value))
      && r.0.isHigh == Some(p.standard > HighGasGwei)
      && r.0.utilisation == Utilisation(result["gasUsedRatio"])
      && r.0.baseFee == Field(result, "suggestBaseFee")
      && r.0.recommended == Recommend(r.0.utilisation.value, p)
  {
    var ethResult := ValidResult(eth);
    if ethResult.None? || Field(ethResult.value, "ethusd").None? then (Fallback(c), c)
    else
      var costs := Costs(p, Field(ethResult.value, "ethusd").value);
      var c2 := c.(lastCosts := Some(costs));
      var util := if "gasUsedRatio" in result then Utilisation(result["gasUsedRatio"]) else None;
      var baseFee := Field(result, "suggestBaseFee");
      if util.None? || baseFee.None? then (Fallback(c2), c2)
      else
        (GasInfo(Some(p), Some(costs), Some(p.standard > HighGasGwei),
                 Recommend(util.value, p), baseFee, util), c2)
  }

  /** `get_gas_price` with the oracle reply and the ETH-price reply. */
  function GetGasPrice(c: Client, oracle: Reply, eth: Reply): (r: (GasInfo, Client))
    ensures RemembersPositive(c) ==> RemembersPositive(r.1)
    ensures r.1.lastPrices != c.lastPrices ==> r.1.lastPrices.Some? && AllPositive(r.1.lastPrices.value)
    ensures r.0.baseFee.None? ==> r.0 == Fallback(r.1)
    ensures r.0.baseFee.Some? ==>
      && r.0.prices.Some? && AllPositive(r.0.prices.value)
      && r.0.prices == r.1.lastPrices && r.0.costs == r.1.lastCosts
      && r.0.isHigh == Some(r.0.prices.value.standard > HighGasGwei)
    ensures r.0.baseFee.Some? ==>
      && ValidResult(oracle).Some?
      && r.0.prices == ParseLevels(ValidResult(oracle).value)
      && EthUsd(eth).Some?
      && r.0.costs == Some(Costs(r.0.prices.value, EthUsd(eth).value))
    ensures ValidResult(oracle).None? ==> r == (Fallback(c), c)
    ensures ValidResult(oracle).Some? && ParseLevels(ValidResult(oracle).value).None? ==> r == (Fallback(c), c)
    ensures (ValidResult(oracle).Some? && ParseLevels(ValidResult(oracle).value).Some?
             && !AllPositive(ParseLevels(ValidResult(oracle).value).value)) ==> r == (Fallback(c), c)
    ensures (ValidResult(oracle).Some? && ParseLevels(ValidResult(oracle).value).Some?
             && AllPositive(ParseLevels(ValidResult(oracle).value).value)) ==>
      r == AfterPrices(c.(lastPrices := ParseLevels(ValidResult(oracle).value)), ValidResult(oracle).value,
                       ParseLevels(ValidResult(oracle).value).value, eth)
  {
    var result := ValidResult(oracle);
    if result.None? then (Fallback(c), c)
    else
      match ParseLevels(result.value)
      case None => (Fallback(c), c)
      case Some(p) =>
        if !AllPositive(p) then (Fallback(c), c)
        else AfterPrices(c.(lastPrices := Some(p)), result.value, p, eth)
  }

  /** When every reply reads, the call succeeds: the oracle's prices, their costs at the
      ETH price, the mean utilisation, the base fee and the ladder's level are reported. */
  lemma SuccessWhenEverythingReads(c: Client, oracle: Reply, eth: Reply)
    requires ValidResult(oracle).Some?
    requires var res := ValidResult(oracle).value;
      && ParseLevels(res).Some? && AllPositive(ParseLevels(res).value)
      && "gasUsedRatio" in res && Utilisation(res["gasUsedRatio"]).Some?
      && Field(res, "suggestBaseFee").Some?
    requires EthUsd(eth).Some?
    ensures var res := ValidResult(oracle).value;
      var p := ParseLevels(res).value;
      var g := GetGasPrice(c, oracle, eth).0;
      && g.prices == Some(p)
      && g.costs == Some(Costs(p, EthUsd(eth).value))
      && g.utilisation == Utilisation(res["gasUsedRatio"])
      && g.baseFee == Field(res, "suggestBaseFee")
      && g.recommended == Recommend(Utilisation(res["gasUsedRatio"]).value, p)
  {
    var res := ValidResult(oracle).value;
    var p := ParseLevels(res).value;
    assert GetGasPrice(c, oracle, eth) == AfterPrices(c.(lastPrices := Some(p)), res, p, eth);
  }

  /** A non-positive price is refused before anything is remembered. */
  lemma NonPositivePricesAreNotRemembered(c: Client, oracle: Reply, eth: Reply)
    requires ValidResult(oracle).Some?
    requires var p := ParseLevels(ValidResult(oracle).value); p.Some? && !AllPositive(p.value)
    ensures GetGasPrice(c, oracle, eth) == (Fallback(c), c)
  {
  }

  /** Without any earlier success, a failure returns no prices and no costs. */
  lemma FirstFailureHasNoPrices(oracle: Reply, eth: Reply)
    requires ValidResult(oracle).None?
    ensures var g := GetGasPrice(Client(None, None), oracle, eth).0;
      g.prices.None? && g.costs.None? && g.isHigh.None? && g.recommended == Wait
  {
  }

  /** When the oracle succeeds but the ETH price fails on the first call, the fallback
      already carries the new prices while the costs are still the (absent) old ones. */
  lemma FallbackPairsNewPricesWithOldCosts(result: map<string, string>)
    requires var p := ParseLevels(result); p.Some? && AllPositive(p.value)
    ensures var (g, c) := GetGasPrice(Client(None, None), Reply(Some("1"), Some(result)), NoReply);
      g.prices == ParseLevels(result) && g.costs.None? && g.recommended == Wait
  {
    var p := ParseLevels(result).value;
    var c1 := Client(Some(p), None);
    assert ValidResult(Reply(Some("1"), Some(result))) == Some(result);
    assert ValidResult(NoReply).None?;
    assert AfterPrices(c1, result, p, NoReply) == (Fallback(c1), c1);
  }
}

=== FILE: llm_decision.dfy ===
/** The part the three LLM clients (`groq_api.py`, `mistral_api.py`, `gemini_api.py`) share:
    the prompt, whose gas section appears only for a non-empty gas dictionary, and the
    keyword reading of the provider's reply. The request itself, and everything it can
    raise, is the `reply` input: `None` stands for any exception. The prompt wording is
    reduced to its market part and the gas section. */
module LlmDecision {
  import opened Common

  /** The title and the three line labels of a client's gas section. */
  datatype GasLabels = GasLabels(title: string, low: string, standard: string, fast: string)

  const GroqLabels := GasLabels("Network Conditions (Gas in Gwei)", "Low Priority", "Standard", "High Priority")
  const MistralLabels := GasLabels("Network Status (Gwei)", "Economy", "Regular", "Priority")
  const GeminiLabels := GasLabels("Gas Prices (Gwei)", "Low", "Standard", "Fast")

  /** The prompt: the market description, the optional gas section, and the guidelines. */
  datatype Prompt = Prompt(market: string, gas: Option<string>, guidelines: string)

  function Render(p: Prompt): (text: string)
  {
    p.market + (if p.gas.Some? then p.gas.value else "") + p.guidelines
  }

  /** One `- label: value` line. */
  function GasLine(name: string, value: string): string
  {
    "\n- " + name + ": " + value
  }

  /** The gas section of a dictionary holding the three levels, each printed with `str`. */
  function GasSection(labels: GasLabels, gas: map<string, string>): (s: string)
    requires "low" in gas && "standard" in gas && "fast" in gas
  {
    "\n" + labels.title + GasLine(labels.low, gas["low"]) + GasLine(labels.standard, gas["standard"])
      + GasLine(labels.fast, gas["fast"])
  }

  /** A gas dictionary is truthy when it is present and not empty. */
  predicate GasTruthy(gas: Option<map<string, string>>)
  {
    gas.Some? && |gas.value| > 0
  }

  predicate HasLevels(gas: map<string, string>)
  {
    "low" in gas && "standard" in gas && "fast" in gas
  }

  /** `_build_prompt`: the gas section is added exactly when the dictionary is truthy; a
      truthy dictionary without one of the three levels raises `KeyError` (`None`). */
  function BuildPrompt(labels: GasLabels, market: string, gas: Option<map<string, string>>, guidelines: string)
    : (r: Option<Prompt>)
    ensures r.None? <==> GasTruthy(gas) && !HasLevels(gas.value)
    ensures r.Some? ==> r.value.market == market && r.value.guidelines == guidelines
    ensures r.Some? ==> (r.value.gas.Some? <==> GasTruthy(gas))
    ensures r.Some? && r.value.gas.Some? ==> r.value.gas.value == GasSection(labels, gas.value)
  {
    if GasTruthy(gas) then
      if HasLevels(gas.value) then Some(Prompt(market, Some(GasSection(labels, gas.value)), guidelines))
      else None
    else Some(Prompt(market, None, guidelines))
  }

  /** A rendered prompt with a gas section shows each of the three levels, after its label;
      one without is just the market part followed by the guidelines. */
  lemma RenderedGasSection(labels: GasLabels, market: string, gas: Option<map<string, string>>, guidelines: string)
    requires BuildPrompt(labels, market, gas, guidelines).Some?
    ensures var text := Render(BuildPrompt(labels, market, gas, guidelines).value);
      && (GasTruthy(gas) ==>
            && Contains(text, GasLine(labels.low, gas.value["low"]))
            && Contains(text, GasLine(labels.standard, gas.value["standard"]))
            && Contains(text, GasLine(labels.fast, gas.value["fast"])))
      && (!GasTruthy(gas) ==> text == market + guidelines)
  {
    var p := BuildPrompt(labels, market, gas, guidelines).value;
    if GasTruthy(gas) {
      var g := gas.value;
      var low, standard, fast := GasLine(labels.low, g["low"]), GasLine(labels.standard, g["standard"]),
                                 GasLine(labels.fast, g["fast"]);
      var head := market + "\n" + labels.title;
      assert Render(p) == head + low + (standard + fast + guidelines);
      ContainsConcat(head, low, standard + fast + guidelines);
      assert Render(p) == (head + low) + standard + (fast + guidelines);
      ContainsConcat(head + low, standard, fast + guidelines);
      assert Render(p) == (head + low + standard) + fast + guidelines;
      ContainsConcat(head + low + standard, fast, guidelines);
    } else {
      assert Render(p) == market + "" + guidelines;
    }
  }

  /** The decision read from the reply text: upper-cased, "BUY" wins over "SELL", which
      wins over "HOLD"; text with none of them, and any exception, gives HOLD. */
  function ExtractDecision(reply: Option<string>): (a: Action)
    ensures reply.None? ==> a == Hold
    ensures a == Buy <==> reply.Some? && Contains(Upper(reply.value), "BUY")
    ensures a == Sell <==> (
      && reply.Some? && !Contains(Upper(reply.value), "BUY")
      && Contains(Upper(reply.value), "SELL"))
    ensures a == Hold <==> (
      || reply.None?
      || (!Contains(Upper(reply.value), "BUY") && !Contains(Upper(reply.value), "SELL")))
  {
    match reply
    case None => Hold
    case Some(t) =>
      var text := Upper(t);
      if Contains(text, "BUY") then Buy
      else if Contains(text, "SELL") then Sell
      else if Contains(text, "HOLD") then Hold
      else Hold
  }

  /** `get_trading_decision`: the prompt is built first, inside the same `try`, so a
      truthy gas dictionary missing a level gives HOLD whatever the provider would say. */
  function GetTradingDecision(labels: GasLabels, market: string, gas: Option<map<string, string>>,
                              guidelines: string, reply: Option<string>): (a: Action)
    ensures GasTruthy(gas) && !HasLevels(gas.value) ==> a == Hold
    ensures !(GasTruthy(gas) && !HasLevels(gas.value)) ==> a == ExtractDecision(reply)
  {
    match BuildPrompt(labels, market, gas, guidelines)
    case None => Hold
    case Some(_) => ExtractDecision(reply)
  }

  /** The three clients differ only in wording: given the same gas dictionary and reply,
      they reach the same decision. */
  lemma ClientsAgree(market: string, gas: Option<map<string, string>>, guidelines: string, reply: Option<string>)
    ensures GetTradingDecision(GroqLabels, market, gas, guidelines, reply)
         == GetTradingDecision(MistralLabels, market, gas, guidelines, reply)
         == GetTradingDecision(GeminiLabels, market, gas, guidelines, reply)
  {
  }

  /** Text without lower-case letters is its own upper-case form. */
  lemma UpperKeeps(s: string)
    requires forall i | 0 <= i < |s| :: !('a' <= s[i] <= 'z')
    ensures Upper(s) == s
  {
  }

  /** The keyword test is a substring test: a reply that rejects buying still reads as
      BUY. */
  lemma BuyWinsAnywhere()
    ensures ExtractDecision(Some("SELL, NOT BUY")) == Buy
  {
    var a, b := "SELL, NOT ", "BUY";
    var s := a + b + "";
    assert s == "SELL, NOT BUY";
    assert forall i | 0 <= i < |s| :: !('a' <= s[i] <= 'z');
    UpperKeeps(s);
    ContainsConcat(a, b, "");
    assert Contains(Upper(s), "BUY");
  }

  /** Lower-case keywords count too. */
  lemma LowerCaseCounts()
    ensures ExtractDecision(Some("sell")) == Sell
  {
    var u := "SELL";
    assert Upper("sell") == u;
    assert "" + u + "" == u;
    ContainsConcat("", u, "");
    assert !Contains(u, "BUY") by {
      assert u[..3] != "BUY";
      assert u[1..] == "ELL" && !IsPrefix("BUY", "ELL");
      assert "ELL"[1..] == "LL" && !IsPrefix("BUY", "LL");
      assert !Contains("LL", "BUY");
    }
  }
}

=== FILE: market_analysis.dfy ===
/** The second scoring file of the page (`marketAnalysis.js`). It exports the same
    global names as `modelPredictions.js` with different rules: a clamped threshold, a
    score that is zero unless the verdict is correct, a first-match consensus, and a price
    buffer sized in hours of one-minute samples. Which variant a page uses depends on the
    script load order, so both are modelled side by side. */
module MarketAnalysis {
  import opened Common
  import opened Seqs
  import MP = ModelPredictions

  // ---------------------------------------------------------------- volatility buffer

  /** `volatilityTracker`: the price buffer, the window in hours, and the current
      volatility in percent. */
  datatype Buffer = Buffer(data: seq<real>, window: int, current: real)

  /** Most prices the buffer keeps: sixty samples per hour of window. */
  function Capacity(b: Buffer): int
  {
    b.window * 60
  }

  /** `calculateVolatility` of `marketAnalysis.js`: appends the price, drops the oldest
      one when the buffer exceeds `window * 60`, and recomputes the volatility only once
      two prices are held; before that the previous value stays. The root-mean-square of
      returns is floating-point work and arrives as `spread`. */
  function CalculateVolatility(price: real, b: Buffer, spread: real): (r: Buffer)
    ensures r.window == b.window
    ensures |r.data| <= |b.data| + 1
    ensures |b.data| <= Capacity(b) ==> |r.data| <= Capacity(b)
    ensures |r.data| > 0 ==> r.data[|r.data| - 1] == price
    ensures r.data == (b.data + [price])[|b.data| + 1 - |r.data|..]
    ensures |r.data| <= 1 ==> r.current == b.current
    ensures |r.data| > 1 ==> r.current == spread
  {
    var pushed := b.data + [price];
    var kept := if |pushed| > Capacity(b) then pushed[1..] else pushed;
    Buffer(kept, b.window, if |kept| > 1 then spread else b.current)
  }

  /** Both volatility buffers keep the same prices once the window is counted in samples:
      the hour-based buffer of `marketAnalysis.js` with window `w` is the sample-based
      buffer of `modelPredictions.js` with window `w * 60`. */
  lemma SameBufferAsModelPredictions(price: real, b: Buffer, spread: real)
    ensures CalculateVolatility(price, b, spread).data
         == MP.Prices(MP.CalculateVolatility(price, MP.Tracker(Some(b.data), b.window * 60, b.current), spread))
  {
  }

  // ---------------------------------------------------------------- threshold and score

  /** `calculateDynamicThreshold` of `marketAnalysis.js`: a base of 1 % scaled by the
      volatility pulled into `[0.5, 2.0]`. */
  function DynamicThreshold(volatility: real): (t: real)
    ensures 0.5 <= t <= 2.0
    ensures 0.5 <= volatility <= 2.0 ==> t == volatility
    ensures volatility < 0.5 ==> t == 0.5
    ensures volatility > 2.0 ==> t == 2.0
  {
    var baseThreshold := 1.0;
    baseThreshold * Max(0.5, Min(2.0, volatility))
  }

  /** More volatility never lowers the threshold. */
  lemma ThresholdMonotone(v1: real, v2: real)
    requires v1 <= v2
    ensures DynamicThreshold(v1) <= DynamicThreshold(v2)
  {
  }

  /** `calculateTradeScore` of `marketAnalysis.js`: 0 for an incorrect verdict; a correct
      one earns 1 plus a bonus of the move beyond the threshold in units of twice the
      threshold, capped at 0.5. The bonus is negative for a correct HOLD, whose move lies
      inside the threshold. */
  function TradeScore(decision: string, pct: real, t: real): (score: real)
    requires t > 0.0
    ensures 0.0 <= score <= 1.5
    ensures !MP.IsCorrect(decision, pct, t) ==> score == 0.0
    ensures MP.IsCorrect(decision, pct, t) && decision in {"BUY", "SELL"} ==> 1.0 < score <= 1.5
    ensures MP.IsCorrect(decision, pct, t) && decision == "HOLD" ==> 0.5 <= score <= 1.0
  {
    var base := if MP.IsCorrect(decision, pct, t) then 1.0 else 0.0;
    if base > 0.0 then
      var magnitude := Abs(pct) - t;
      BonusBounds(magnitude, t);
      base + Min(0.5, magnitude / (t * 2.0))
    else base
  }

  lemma BonusBounds(magnitude: real, t: real)
    requires t > 0.0
    ensures magnitude > 0.0 ==> magnitude / (t * 2.0) > 0.0
    ensures -t <= magnitude <= 0.0 ==> -0.5 <= magnitude / (t * 2.0) <= 0.0
  {
    if -t <= magnitude <= 0.0 {
      assert magnitude / (t * 2.0) >= -t / (t * 2.0);
    }
  }

  /** The score is positive exactly when the verdict is correct. */
  lemma ScorePositiveIffCorrect(decision: string, pct: real, t: real)
    requires t > 0.0
    ensures TradeScore(decision, pct, t) > 0.0 <==> MP.IsCorrect(decision, pct, t)
  {
  }

  /** Both scorers reward the same verdicts: this one is positive exactly when the
      other reaches 1. */
  lemma ScorersAgreeOnVerdict(decision: string, pct: real, t: real)
    requires t > 0.0
    ensures TradeScore(decision, pct, t) > 0.0 <==> MP.TradeScore(decision, pct, t) >= 1.0
  {
    MP.ScoreMatchesVerdict(decision, pct, t);
  }

  // ---------------------------------------------------------------- consensus

  /** `checkLLMConsensus` of `marketAnalysis.js`: the first of BUY, SELL, HOLD with at
      least two votes, tested in that order; no other value is counted. */
  function CheckLLMConsensus(votes: seq<JsString>): (r: Option<Action>)
    ensures r.Some? <==>
      MP.VotesFor(votes, Buy) >= 2 || MP.VotesFor(votes, Sell) >= 2 || MP.VotesFor(votes, Hold) >= 2
    ensures r.Some? ==> MP.VotesFor(votes, r.value) >= 2
    ensures r == Some(Sell) ==> MP.VotesFor(votes, Buy) < 2
    ensures r == Some(Hold) ==> MP.VotesFor(votes, Buy) < 2 && MP.VotesFor(votes, Sell) < 2
  {
    var buyVotes := MP.VotesFor(votes, Buy);
    var sellVotes := MP.VotesFor(votes, Sell);
    var holdVotes := MP.VotesFor(votes, Hold);
    if buyVotes >= 2 then Some(Buy)
    else if sellVotes >= 2 then Some(Sell)
    else if holdVotes >= 2 then Some(Hold)
    else None
  }

  /** With the three page votes and no unrecognised text, both consensus rules give the
      same answer. */
  lemma {:induction false} ConsensusVariantsAgree(votes: seq<JsString>)
    requires |votes| <= 3 && !MP.HasUnrecognised(votes)
    ensures CheckLLMConsensus(votes) == MP.CheckLLMConsensus(votes)
  {
    MP.VoteCounts(votes);
    var r := CheckLLMConsensus(votes);
    if r.Some? {
      MP.ConsensusFound(votes, r.value);
    }
  }

  /** With four voters split two against two, the rules differ: this one takes BUY, the
      other lets the later key SELL win the tie. */
  lemma TieSplitsTheVariants()
    ensures var votes := [Some("BUY"), Some("BUY"), Some("SELL"), Some("SELL")];
      CheckLLMConsensus(votes) == Some(Buy) && MP.CheckLLMConsensus(votes) == Some(Sell)
  {
    var buy, sell: JsString := Some("BUY"), Some("SELL");
    var votes := [buy, buy, sell, sell];
    assert buy != sell;
    assert votes[1..] == [buy, sell, sell] && votes[2..] == [sell, sell] && votes[3..] == [sell];
    assert [buy, sell, sell][1..] == [sell, sell] && [sell, sell][1..] == [sell] && [sell][1..] == [];
    assert MP.IsVote(Buy)(buy) && !MP.IsVote(Buy)(sell);
    assert MP.IsVote(Sell)(sell) && !MP.IsVote(Sell)(buy);
    assert !MP.IsVote(Hold)(sell) && !MP.IsVote(Hold)(buy);
    assert Count([sell], MP.IsVote(Sell)) == 1 && Count([sell], MP.IsVote(Buy)) == 0;
    assert Count([sell, sell], MP.IsVote(Sell)) == 2 && Count([sell, sell], MP.IsVote(Buy)) == 0;
    assert Count([buy, sell, sell], MP.IsVote(Sell)) == 2 && Count([buy, sell, sell], MP.IsVote(Buy)) == 1;
    assert MP.VotesFor(votes, Buy) == 2;
    assert MP.VotesFor(votes, Sell) == 2;
    assert Count([sell], MP.IsVote(Hold)) == 0;
    assert Count([sell, sell], MP.IsVote(Hold)) == 0;
    assert Count([buy, sell, sell], MP.IsVote(Hold)) == 0;
    assert MP.VotesFor(votes, Hold) == 0;
    assert !MP.HasUnrecognised(votes) by {
      forall i | 0 <= i < |votes| ensures !MP.Unrecognised(votes[i]) {
        assert votes[i] == buy || votes[i] == sell;
      }
    }
  }

  /** Unrecognised text vetoes the other rule's consensus but not this one's. */
  lemma UnknownVoteSplitsTheVariants()
    ensures var votes := [Some("BUY"), Some("BUY"), Some("MAYBE")];
      CheckLLMConsensus(votes) == Some(Buy) && MP.CheckLLMConsensus(votes) == None
  {
    var votes := [Some("BUY"), Some("BUY"), Some("MAYBE")];
    assert MP.VotesFor(votes, Buy) == 2;
    assert MP.Unrecognised(votes[2]);
  }
}

=== FILE: model_predictions.dfy ===
/** Browser-side scoring of the three predictors (`modelPredictions.js`): who voted BUY or
    SELL, the consensus vote, the volatility-dependent threshold, the trade score, and the
    per-model raw accuracy counters and bounded trade history kept by `updateAccuracy`. */
module ModelPredictions {
  import opened Common
  import opened Seqs

  /** The three predictors, in the fixed order the page lists them. */
  datatype Model = Gemini | Groq | Mistral

  /** One value per predictor (the `{gemini, groq, mistral}` objects of the page). */
  datatype PerModel<T> = PerModel(gemini: T, groq: T, mistral: T)

  function Get<T>(p: PerModel<T>, m: Model): T
  {
    match m
    case Gemini => p.gemini
    case Groq => p.groq
    case Mistral => p.mistral
  }

  function Set<T>(p: PerModel<T>, m: Model, v: T): (r: PerModel<T>)
    ensures Get(r, m) == v
    ensures forall n: Model | n != m :: Get(r, n) == Get(p, n)
  {
    match m
    case Gemini => p.(gemini := v)
    case Groq => p.(groq := v)
    case Mistral => p.(mistral := v)
  }

  function DisplayName(m: Model): string
  {
    match m
    case Gemini => "Gemini"
    case Groq => "Groq"
    case Mistral => "Mistral"
  }

  /** Position of a display name in the fixed listing order (3 for any other text). */
  function NameRank(name: string): nat
  {
    if name == "Gemini" then 0 else if name == "Groq" then 1 else if name == "Mistral" then 2 else 3
  }

  type Decisions = PerModel<JsString>

  /** Display names of the models whose vote is exactly `action`, in listing order. */
  function VotersFor(d: Decisions, action: string): (names: seq<string>)
    ensures |names| <= 3
    ensures forall m: Model :: DisplayName(m) in names <==> Get(d, m) == Some(action)
    ensures forall i | 0 <= i < |names| :: NameRank(names[i]) < 3
    ensures forall i, j | 0 <= i < j < |names| :: NameRank(names[i]) < NameRank(names[j])
  {
    (if d.gemini == Some(action) then ["Gemini"] else [])
    + (if d.groq == Some(action) then ["Groq"] else [])
    + (if d.mistral == Some(action) then ["Mistral"] else [])
  }

  /** `getModelDecisions`: the models recommending BUY. */
  function GetModelDecisions(d: Decisions): (names: seq<string>)
    ensures |names| <= 3
    ensures forall m: Model :: DisplayName(m) in names <==> Get(d, m) == Some("BUY")
    ensures forall i, j | 0 <= i < j < |names| :: NameRank(names[i]) < NameRank(names[j])
  {
    VotersFor(d, "BUY")
  }

  /** `getModelSellDecisions`: the models recommending SELL. */
  function GetModelSellDecisions(d: Decisions): (names: seq<string>)
    ensures |names| <= 3
    ensures forall m: Model :: DisplayName(m) in names <==> Get(d, m) == Some("SELL")
    ensures forall i, j | 0 <= i < j < |names| :: NameRank(names[i]) < NameRank(names[j])
  {
    VotersFor(d, "SELL")
  }

  /** No model is listed both as a buyer and as a seller. */
  lemma BuyersAndSellersDisjoint(d: Decisions, name: string)
    requires name in GetModelDecisions(d)
    ensures name !in GetModelSellDecisions(d)
  {
  }

  // ---------------------------------------------------------------- consensus

  function IsVote(a: Action): JsString -> bool
  {
    (v: JsString) => v == Some(ActionName(a))
  }

  /** Number of votes for `a`. */
  function VotesFor(votes: seq<JsString>, a: Action): nat
  {
    Count(votes, IsVote(a))
  }

  /** A text JavaScript treats as an array index: the canonical decimal form of an
      integer below 2^32 − 1. `Object.keys` lists such keys before all others. */
  predicate IndexKey(s: string)
  {
    && |s| > 0 && AllDigits(s)
    && (s == "0" || s[0] != '0')
    && DigitsValue(s) <= 4294967294
  }

  /** A truthy vote that vetoes the consensus. Counting a text other than the three
      actions makes its counter `NaN`, and a comparison with `NaN` always picks the later
      key. An index key is listed first, so it loses its first comparison and drops out;
      `__proto__` creates no key at all; any other such key is listed last and wins the
      `reduce`, with a `NaN` count that is never at least 2. */
  predicate Unrecognised(v: JsString)
  {
    && Truthy(v)
    && v.value !in {"BUY", "SELL", "HOLD", "__proto__"}
    && !IndexKey(v.value)
  }

  predicate HasUnrecognised(votes: seq<JsString>)
  {
    exists i | 0 <= i < |votes| :: Unrecognised(votes[i])
  }

  /** `checkLLMConsensus` of `modelPredictions.js`. `votes` are the values of the
      decisions object. With fewer than two truthy votes there is no consensus. Otherwise
      the counters are reduced over the keys BUY, SELL, HOLD (ties go to the later key,
      and a `NaN` counter for an unrecognised text goes last and wins), and the winner is
      returned only with at least two votes. Every truthy vote counts towards the two
      needed to start. */
  function CheckLLMConsensus(votes: seq<JsString>): (r: Option<Action>)
    ensures Count(votes, Truthy) < 2 ==> r.None?
    ensures HasUnrecognised(votes) ==> r.None?
    ensures r.Some? ==> VotesFor(votes, r.value) >= 2
    ensures r.Some? ==>
      && VotesFor(votes, Buy) <= VotesFor(votes, r.value)
      && VotesFor(votes, Sell) <= VotesFor(votes, r.value)
      && VotesFor(votes, Hold) <= VotesFor(votes, r.value)
  {
    if Count(votes, Truthy) < 2 then None
    else if HasUnrecognised(votes) then None
    else
      var b, s, h := VotesFor(votes, Buy), VotesFor(votes, Sell), VotesFor(votes, Hold);
      var first := if b > s then Buy else Sell;
      var firstCount := if b > s then b else s;
      var best := if firstCount > h then first else Hold;
      var bestCount := if firstCount > h then firstCount else h;
      if bestCount >= 2 then Some(best) else None
  }

  /** The actions' vote counts and the truthy count: each vote counts for at most one
      action, and every action vote is truthy. */
  lemma {:induction false} VoteCounts(votes: seq<JsString>)
    ensures VotesFor(votes, Buy) + VotesFor(votes, Sell) + VotesFor(votes, Hold) <= Count(votes, Truthy)
  {
    if votes != [] {
      VoteCounts(votes[1..]);
    }
  }

  /** With at most three voters, some action that gets two votes is the consensus. */
  lemma ConsensusFound(votes: seq<JsString>, a: Action)
    requires |votes| <= 3 && !HasUnrecognised(votes)
    requires VotesFor(votes, a) >= 2
    ensures CheckLLMConsensus(votes) == Some(a)
  {
    VoteCounts(votes);
  }

  /** An index-like text is a truthy vote but does not veto: two BUY votes still win. */
  lemma IndexLikeVoteDoesNotVeto()
    ensures CheckLLMConsensus([Some("1"), Some("BUY"), Some("BUY")]) == Some(Buy)
  {
    var votes: seq<JsString> := [Some("1"), Some("BUY"), Some("BUY")];
    assert IndexKey("1") by { assert DigitsValue("1") == 10 * DigitsValue("") + DigitValue('1'); }
    assert !HasUnrecognised(votes);
    ConsensusFound(votes, Buy);
  }

  /** `__proto__` creates no counter, so it does not veto either. */
  lemma ProtoVoteDoesNotVeto()
    ensures CheckLLMConsensus([Some("__proto__"), Some("SELL"), Some("SELL")]) == Some(Sell)
  {
    var votes: seq<JsString> := [Some("__proto__"), Some("SELL"), Some("SELL")];
    assert !HasUnrecognised(votes);
    ConsensusFound(votes, Sell);
  }

  /** A text with a leading zero is not an index key, so it vetoes. */
  lemma PaddedNumberVetoes()
    ensures CheckLLMConsensus([Some("01"), Some("BUY"), Some("BUY")]).None?
  {
    var votes: seq<JsString> := [Some("01"), Some("BUY"), Some("BUY")];
    assert Unrecognised(votes[0]);
  }

  // ---------------------------------------------------------------- threshold and score

  /** `calculateDynamicThreshold`: a step function of the volatility (in percent). */
  function DynamicThreshold(volatility: real): (t: real)
    ensures 0.4 <= t <= 1.0
    ensures t in {0.4, 0.5, 0.75, 1.0}
  {
    var base := 0.5;
    if volatility < 1.0 then base * 0.8
    else if volatility < 3.0 then base
    else if volatility < 5.0 then base * 1.5
    else base * 2.0
  }

  /** More volatility never lowers the threshold. */
  lemma ThresholdMonotone(v1: real, v2: real)
    requires v1 <= v2
    ensures DynamicThreshold(v1) <= DynamicThreshold(v2)
  {
  }

  /** The raw verdict of `updateAccuracy`: a significant move in the predicted direction,
      or an insignificant move for HOLD. */
  predicate IsCorrect(decision: string, pct: real, t: real)
  {
    || (decision == "BUY" && pct > t)
    || (decision == "SELL" && pct < -t)
    || (decision == "HOLD" && Abs(pct) <= t)
  }

  /** `calculateTradeScore`: 1 plus a magnitude bonus of at most 0.5 for a significant move
      the right way, 0.5 for an insignificant move, 0 for the wrong way; HOLD scores 1 or
      0.3; any other text 0. */
  function TradeScore(decision: string, pct: real, t: real): (score: real)
    ensures 0.0 <= score <= 1.5
    ensures decision !in {"BUY", "SELL", "HOLD"} ==> score == 0.0
    ensures decision in {"BUY", "SELL"} ==> (score > 1.0 <==> IsCorrect(decision, pct, t))
    ensures decision == "HOLD" ==> (score == 1.0 <==> IsCorrect(decision, pct, t))
    ensures decision == "HOLD" && !IsCorrect(decision, pct, t) ==> score == 0.3
    ensures decision == "BUY" && -t < pct <= t ==> score == 0.5
    ensures decision == "SELL" && -t <= pct < t ==> score == 0.5
    ensures decision == "BUY" && pct <= t && pct <= -t ==> score == 0.0
    ensures decision == "SELL" && pct >= -t && pct >= t ==> score == 0.0
  {
    if decision == "BUY" then
      if pct > t then 1.0 + Min(0.5, (pct - t) / 10.0)
      else if pct > -t then 0.5
      else 0.0
    else if decision == "SELL" then
      if pct < -t then 1.0 + Min(0.5, (Abs(pct) - t) / 10.0)
      else if pct < t then 0.5
      else 0.0
    else if decision == "HOLD" then
      if Abs(pct) <= t then 1.0 else 0.3
    else 0.0
  }

  /** A score of at least 1 means exactly that the raw verdict is correct. */
  lemma ScoreMatchesVerdict(decision: string, pct: real, t: real)
    ensures TradeScore(decision, pct, t) >= 1.0 <==> IsCorrect(decision, pct, t)
  {
  }

  // ---------------------------------------------------------------- volatility buffer

  /** `window.marketVolatility`: the price buffer (absent until first use), its window
      size, and the current volatility in percent. */
  datatype Tracker = Tracker(data: Option<seq<real>>, window: int, current: real)

  function Prices(tr: Tracker): seq<real>
  {
    if tr.data.Some? then tr.data.value else []
  }

  /** `calculateVolatility` of `modelPredictions.js`: appends the price, drops the oldest
      when the buffer exceeds the window, and sets the volatility to 0 while fewer than
      two prices are held. The standard deviation of returns is floating-point work and
      arrives as `spread`. */
  function CalculateVolatility(price: real, tr: Tracker, spread: real): (r: Tracker)
    ensures r.window == tr.window && r.data.Some?
    ensures var before, after := Prices(tr), Prices(r);
      && |after| <= |before| + 1
      && (|before| <= tr.window ==> |after| <= tr.window)
      && (|after| > 0 ==> after[|after| - 1] == price)
      && after == (before + [price])[|before| + 1 - |after|..]
    ensures |Prices(r)| < 2 ==> r.current == 0.0
    ensures |Prices(r)| >= 2 ==> r.current == spread
  {
    var pushed := Prices(tr) + [price];
    var kept := if |pushed| > tr.window then pushed[1..] else pushed;
    Tracker(Some(kept), tr.window, if |kept| < 2 then 0.0 else spread)
  }

  // ---------------------------------------------------------------- accuracy counters

  /** Largest number of trades kept per model. */
  const HistoryCap: nat := 100

  /** One entry of `window.tradeHistory[model]` as `updateAccuracy` records it. */
  datatype Trade = Trade(
    timestamp: int, decision: string, priceChange: real, score: real,
    threshold: real, volatility: real, price: real, isCorrect: bool)

  /** `window.aiRawAccuracy[model]`. */
  datatype Raw = Raw(total: nat, correct: nat, accuracy: real)

  /** `window.lastDecisions`: the votes and the price of the previous update. */
  datatype LastDecisions = LastDecisions(votes: Decisions, price: Option<real>)

  /** The page state `updateAccuracy` reads and writes. */
  datatype Board = Board(
    last: LastDecisions, tracker: Tracker, raw: PerModel<Raw>, history: PerModel<seq<Trade>>)

  /** Appends and keeps the newest `HistoryCap` entries (`push` then one `shift`). */
  function PushCapped<T>(s: seq<T>, x: T): (r: seq<T>)
    ensures |s| <= HistoryCap ==> |r| <= HistoryCap
    ensures |r| <= |s| + 1
    ensures |r| > 0 && r[|r| - 1] == x
    ensures r == (s + [x])[|s| + 1 - |r|..]
  {
    var pushed := s + [x];
    if |pushed| > HistoryCap then pushed[1..] else pushed
  }

  /** The counters and history of one model after one scored update. */
  function Score(raw: Raw, hist: seq<Trade>, trade: Trade): (r: (Raw, seq<Trade>))
    ensures r.0.total == raw.total + 1
    ensures r.0.correct == raw.correct + (if trade.isCorrect then 1 else 0)
    ensures raw.correct <= raw.total ==>
      r.0.correct <= r.0.total && r.0.accuracy == Percent(r.0.correct, r.0.total)
    ensures r.1 == PushCapped(hist, trade)
  {
    var total := raw.total + 1;
    var correct := raw.correct + (if trade.isCorrect then 1 else 0);
    (Raw(total, correct, correct as real / total as real * 100.0), PushCapped(hist, trade))
  }

  /** The trade `updateAccuracy` records for vote `d`. */
  function TradeFor(d: string, pct: real, t: real, volatility: real, price: real, now: int): Trade
  {
    Trade(now, d, pct, TradeScore(d, pct, t), t, volatility, price, IsCorrect(d, pct, t))
  }

  /** Model `m`'s counters and history went from `b` to `r` the way one pass of the
      per-model loop moves them: scored once when its previous vote is truthy, untouched
      otherwise. */
  predicate Advanced(b: Board, r: Board, m: Model, pct: real, t: real, price: real, now: int)
  {
    var vote := Get(b.last.votes, m);
    if Truthy(vote) then
      (Get(r.raw, m), Get(r.history, m))
        == Score(Get(b.raw, m), Get(b.history, m), TradeFor(vote.value, pct, t, r.tracker.current, price, now))
    else Get(r.raw, m) == Get(b.raw, m) && Get(r.history, m) == Get(b.history, m)
  }

  /** The body of the per-model loop of `updateAccuracy`. */
  function ScoreModel(b: Board, m: Model, pct: real, t: real, price: real, now: int): (r: Board)
    ensures r.last == b.last && r.tracker == b.tracker
    ensures forall n: Model | n != m :: Get(r.raw, n) == Get(b.raw, n) && Get(r.history, n) == Get(b.history, n)
    ensures Advanced(b, r, m, pct, t, price, now)
  {
    var vote := Get(b.last.votes, m);
    if !Truthy(vote) then b
    else
      var (raw, hist) := Score(Get(b.raw, m), Get(b.history, m),
                               TradeFor(vote.value, pct, t, b.tracker.current, price, now));
      b.(raw := Set(b.raw, m, raw), history := Set(b.history, m, hist))
  }

  /** The percentage move `updateAccuracy` scores. */
  function MoveSince(last: real, current: real): real
    requires last != 0.0
  {
    (current - last) / last * 100.0
  }

  /** `updateAccuracy(currentPrice)`. Nothing happens while the previous price is `null`.
      Otherwise the volatility buffer takes the new price, the threshold follows the new
      volatility, and every model is advanced once with the move since the previous
      price. The previous votes are read, never written. */
  function UpdateAccuracy(b: Board, currentPrice: real, now: int, spread: real): (r: Board)
    requires b.last.price.Some? ==> b.last.price.value != 0.0
    ensures r.last == b.last
    ensures b.last.price.None? ==> r == b
    ensures b.last.price.Some? ==>
      && r.tracker == CalculateVolatility(currentPrice, b.tracker, spread)
      && forall m: Model ::
           Advanced(b, r, m, MoveSince(b.last.price.value, currentPrice),
                    DynamicThreshold(r.tracker.current), currentPrice, now)
  {
    match b.last.price
    case None => b
    case Some(last) =>
      var pct := MoveSince(last, currentPrice);
      var tracker := CalculateVolatility(currentPrice, b.tracker, spread);
      var t := DynamicThreshold(tracker.current);
      var b0 := b.(tracker := tracker);
      var b1 := ScoreModel(b0, Gemini, pct, t, currentPrice, now);
      var b2 := ScoreModel(b1, Groq, pct, t, currentPrice, now);
      var b3 := ScoreModel(b2, Mistral, pct, t, currentPrice, now);
      ComposeAdvanced(b, b0, b1, b2, b3, pct, t, currentPrice, now);
      b3
  }

  lemma ComposeAdvanced(b: Board, b0: Board, b1: Board, b2: Board, b3: Board,
                        pct: real, t: real, price: real, now: int)
    requires b0 == b.(tracker := b0.tracker)
    requires b1 == ScoreModel(b0, Gemini, pct, t, price, now)
    requires b2 == ScoreModel(b1, Groq, pct, t, price, now)
    requires b3 == ScoreModel(b2, Mistral, pct, t, price, now)
    ensures forall m: Model :: Advanced(b, b3, m, pct, t, price, now)
  {
    assert Advanced(b, b3, Gemini, pct, t, price, now) by {
      assert Get(b3.raw, Gemini) == Get(b1.raw, Gemini) && Get(b3.history, Gemini) == Get(b1.history, Gemini);
    }
    assert Advanced(b, b3, Groq, pct, t, price, now) by {
      assert Get(b1.raw, Groq) == Get(b.raw, Groq) && Get(b1.history, Groq) == Get(b.history, Groq);
      assert Get(b3.raw, Groq) == Get(b2.raw, Groq) && Get(b3.history, Groq) == Get(b2.history, Groq);
    }
    assert Advanced(b, b3, Mistral, pct, t, price, now) by {
      assert Get(b2.raw, Mistral) == Get(b.raw, Mistral) && Get(b2.history, Mistral) == Get(b.history, Mistral);
    }
    forall m: Model
      ensures Advanced(b, b3, m, pct, t, price, now)
    {
      match m
      case Gemini =>
      case Groq =>
      case Mistral =>
    }
  }

  /** What one scored update means for a model with a truthy vote: one more trade in the
      total, one more correct exactly when the raw verdict holds, and a newest history
      entry carrying that verdict and the trade score. */
  lemma AdvancedMeaning(b: Board, r: Board, m: Model, pct: real, t: real, price: real, now: int)
    requires Advanced(b, r, m, pct, t, price, now) && Truthy(Get(b.last.votes, m))
    ensures var d := Get(b.last.votes, m).value;
      && Get(r.raw, m).total == Get(b.raw, m).total + 1
      && Get(r.raw, m).correct == Get(b.raw, m).correct + (if IsCorrect(d, pct, t) then 1 else 0)
      && |Get(r.history, m)| > 0
      && Get(r.history, m)[|Get(r.history, m)| - 1].isCorrect == IsCorrect(d, pct, t)
      && Get(r.history, m)[|Get(r.history, m)| - 1].score == TradeScore(d, pct, t)
  {
  }

  /** The per-model bookkeeping `updateAccuracy` maintains: correct never exceeds total,
      the stored accuracy is their percentage, and at most 100 trades are kept. */
  predicate Consistent(b: Board)
  {
    forall m: Model ::
      && Get(b.raw, m).correct <= Get(b.raw, m).total
      && (Get(b.raw, m).total > 0 ==> Get(b.raw, m).accuracy == Percent(Get(b.raw, m).correct, Get(b.raw, m).total))
      && |Get(b.history, m)| <= HistoryCap
  }

  lemma ScoreModelConsistent(b: Board, m: Model, pct: real, t: real, price: real, now: int)
    requires Consistent(b)
    ensures Consistent(ScoreModel(b, m, pct, t, price, now))
  {
  }

  lemma UpdateAccuracyConsistent(b: Board, currentPrice: real, now: int, spread: real)
    requires b.last.price.Some? ==> b.last.price.value != 0.0
    requires Consistent(b)
    ensures Consistent(UpdateAccuracy(b, currentPrice, now, spread))
  {
    if b.last.price.Some? {
      var last := b.last.price.value;
      var pct := MoveSince(last, currentPrice);
      var tracker := CalculateVolatility(currentPrice, b.tracker, spread);
      var t := DynamicThreshold(tracker.current);
      var b0 := b.(tracker := tracker);
      assert Consistent(b0);
      ScoreModelConsistent(b0, Gemini, pct, t, currentPrice, now);
      var b1 := ScoreModel(b0, Gemini, pct, t, currentPrice, now);
      ScoreModelConsistent(b1, Groq, pct, t, currentPrice, now);
      var b2 := ScoreModel(b1, Groq, pct, t, currentPrice, now);
      ScoreModelConsistent(b2, Mistral, pct, t, currentPrice, now);
    }
  }

  /** `calculateAccuracy(model)`: the share of kept trades marked `profitable`, in
      percent. The trades `updateAccuracy` records carry `isCorrect` and no `profitable`
      field, which reads as `undefined`; `profitable` is therefore an input predicate. */
  function CalculateAccuracy(trades: seq<Trade>, profitable: Trade -> bool): (r: real)
    ensures 0.0 <= r <= 100.0
    ensures trades == [] ==> r == 0.0
    ensures trades != [] ==> r == Count(trades, profitable) as real / |trades| as real * 100.0
  {
    if trades == [] then 0.0 else Percent(Count(trades, profitable), |trades|)
  }
}

=== FILE: notification_manager.dfy ===
/** Wallet notifications of the browser (`notificationManager.js`): which signals lead to a
    wallet transaction, the suggested amounts, the fee fields of the transaction, and the
    allocation reported when the action is recorded. The backend fetch, the chain query
    and the wallet request are left out; their answers are inputs. Fee values are in
    gwei, before the conversion to wei. */
module NotificationManager {
  import opened Common

  const EthereumChain: int := 1
  const LineaChain: int := 59144

  /** The balances the page holds; `None` is a falsy value read as 0. */
  datatype Balances = Balances(eth: Option<real>, usdc: Option<real>, ethusd: Option<real>)

  function OrZero(x: Option<real>): real
  {
    if x.Some? then x.value else 0.0
  }

  // ---------------------------------------------------------------- amounts

  /** The smallest ETH transaction: 0.001 ETH, or a quarter of a smaller balance; 0 for an
      empty balance. */
  function MinEthTransaction(eth: real): (m: real)
    ensures eth > 0.0 ==> 0.0 < m <= 0.001 && m <= eth * 0.25
    ensures eth <= 0.0 ==> m == 0.0
  {
    if eth > 0.0 then Min(0.001, eth * 0.25) else 0.0
  }

  /** The smallest USDC transaction: 0.5 USDC, or a quarter of a smaller balance; 0 for an
      empty balance. */
  function MinUsdcTransaction(usdc: real): (m: real)
    ensures usdc > 0.0 ==> 0.0 < m <= 0.5 && m <= usdc * 0.25
    ensures usdc <= 0.0 ==> m == 0.0
  {
    if usdc > 0.0 then Min(0.5, usdc * 0.25) else 0.0
  }

  /** The USDC a BUY suggests spending: 5 % of the balance but at least the minimum above
      0.5 USDC, otherwise 90 % of it. */
  function UsdcToUse(usdc: real): (u: real)
    ensures usdc > 0.0 ==> 0.0 < u <= usdc
    ensures usdc > 0.5 ==> u >= MinUsdcTransaction(usdc) && u >= usdc * 0.05
  {
    if usdc > 0.5 then Max(usdc * 0.05, MinUsdcTransaction(usdc)) else usdc * 0.9
  }

  /** The ETH a SELL suggests selling: 5 % of the balance but at least the minimum above
      0.01 ETH, otherwise 90 % of it. */
  function EthToSell(eth: real): (e: real)
    ensures eth > 0.0 ==> 0.0 < e <= eth
    ensures eth > 0.01 ==> e >= MinEthTransaction(eth) && e >= eth * 0.05
  {
    if eth > 0.01 then Max(eth * 0.05, MinEthTransaction(eth)) else eth * 0.9
  }

  // ---------------------------------------------------------------- fees

  /** `gas_prices` of the backend reply: the standard price and the base fee (`None` when
      missing or zero). */
  datatype GasPricesJson = GasPricesJson(standard: Option<real>, baseFee: Option<real>)

  /** The fee values gathered before the transaction is built; `None` is left unset. */
  datatype Fees = Fees(gasPrice: Option<real>, maxFeePerGas: Option<real>, maxPriorityFeePerGas: Option<real>)

  /** The priority fee paid on top of the base fee. */
  const PriorityFeeGwei: real := 1.5

  /** The per-chain values used when the gas data cannot be read. */
  function FallbackFees(chainId: int): (f: Fees)
    ensures f.gasPrice.Some?
    ensures f.maxFeePerGas.Some? <==> chainId == EthereumChain || chainId == LineaChain
    ensures f.maxPriorityFeePerGas.Some? <==> chainId == EthereumChain || chainId == LineaChain
  {
    if chainId == EthereumChain then Fees(Some(50.0), Some(100.0), Some(1.5))
    else if chainId == LineaChain then Fees(Some(0.1), Some(0.2), Some(0.05))
    else Fees(Some(30.0), None, None)
  }

  /** The fees read from the backend: `reply` is `None` when the fetch or the decoding
      fails, and holds `None` when the reply has no `gas_prices`. A missing standard price
      raises and also takes the fallback. With a base fee, the priority fee is 1.5 gwei and
      the cap twice the base fee plus that. */
  function ReadFees(reply: Option<Option<GasPricesJson>>, chainId: int): (f: Fees)
    ensures reply.None? ==> f == FallbackFees(chainId)
    ensures reply == Some(None) ==> f == Fees(None, None, None)
    ensures reply.Some? && reply.value.Some? && reply.value.value.standard.None? ==> f == FallbackFees(chainId)
    ensures reply.Some? && reply.value.Some? && reply.value.value.standard.Some? ==>
      var g := reply.value.value;
      && f.gasPrice == g.standard
      && (g.baseFee.Some? ==> f.maxPriorityFeePerGas == Some(PriorityFeeGwei)
                              && f.maxFeePerGas == Some(2.0 * g.baseFee.value + PriorityFeeGwei))
      && (g.baseFee.None? ==> f.maxFeePerGas.None? && f.maxPriorityFeePerGas.None?)
  {
    match reply
    case None => FallbackFees(chainId)
    case Some(None) => Fees(None, None, None)
    case Some(Some(g)) =>
      if g.standard.None? then FallbackFees(chainId)
      else if g.baseFee.Some? then
        Fees(g.standard, Some(2.0 * g.baseFee.value + PriorityFeeGwei), Some(PriorityFeeGwei))
      else Fees(g.standard, None, None)
  }

  /** The fee fields a transaction carries. */
  datatype FeeFields = Eip1559(maxFeePerGas: real, maxPriorityFeePerGas: real) | Legacy(gasPrice: Option<real>)

  /** Ethereum and Linea use the two EIP-1559 fields when both are known; every other case
      sends the legacy gas price. */
  function TxFeeFields(f: Fees, chainId: int): (fields: FeeFields)
    ensures fields.Eip1559? <==> (
      && (chainId == EthereumChain || chainId == LineaChain)
      && f.maxFeePerGas.Some? && f.maxPriorityFeePerGas.Some?)
    ensures fields.Eip1559? ==> fields == Eip1559(f.maxFeePerGas.value, f.maxPriorityFeePerGas.value)
    ensures fields.Legacy? ==> fields.gasPrice == f.gasPrice
  {
    if (chainId == EthereumChain || chainId == LineaChain) && f.maxFeePerGas.Some? && f.maxPriorityFeePerGas.Some? then
      Eip1559(f.maxFeePerGas.value, f.maxPriorityFeePerGas.value)
    else Legacy(f.gasPrice)
  }

  /** With a positive base fee the fee cap leaves room for the base fee to double, and it
      always covers the priority fee. */
  lemma FeeCapCoversDoubledBase(standard: real, baseFee: real, chainId: int)
    requires baseFee > 0.0
    requires chainId == EthereumChain || chainId == LineaChain
    ensures var fields := TxFeeFields(ReadFees(Some(Some(GasPricesJson(Some(standard), Some(baseFee)))), chainId), chainId);
      && fields.Eip1559?
      && fields.maxFeePerGas - fields.maxPriorityFeePerGas == 2.0 * baseFee
      && fields.maxFeePerGas > fields.maxPriorityFeePerGas
  {
  }

  /** Other chains always fall back to the legacy field. */
  lemma OtherChainsAreLegacy(reply: Option<Option<GasPricesJson>>, chainId: int)
    requires chainId != EthereumChain && chainId != LineaChain
    ensures TxFeeFields(ReadFees(reply, chainId), chainId).Legacy?
  {
  }

  // ---------------------------------------------------------------- the notification

  /** What a signal leads to: nothing (no wallet, not a trade signal, no price), a
      conversion suggestion, or a plain notice transaction. */
  datatype Suggestion =
    | ConvertUsdc(usdcAmount: real, ethEquivalent: real)
    | SellEth(ethAmount: real, usdcEquivalent: real)
    | Notice

  datatype Outcome = NoWallet | Skipped | NoPrice | Transaction(suggestion: Suggestion, fees: FeeFields)

  /** `sendWalletNotification(signalType)` with the balances, the chain and the gas
      reply. */
  function SendWalletNotification(connected: bool, signalType: string, b: Balances, chainId: int,
                                  reply: Option<Option<GasPricesJson>>): (o: Outcome)
    ensures o.Transaction? <==> connected && (signalType == "BUY" || signalType == "SELL") && OrZero(b.ethusd) > 0.0
    ensures connected && signalType != "BUY" && signalType != "SELL" ==> o == Skipped
    ensures o.Transaction? ==> o.fees == TxFeeFields(ReadFees(reply, chainId), chainId)
    ensures o.Transaction? && o.suggestion.ConvertUsdc? ==>
      && signalType == "BUY" && OrZero(b.usdc) > 0.0
      && 0.0 < o.suggestion.usdcAmount <= OrZero(b.usdc)
      && o.suggestion.ethEquivalent * OrZero(b.ethusd) == o.suggestion.usdcAmount
    ensures o.Transaction? && o.suggestion.SellEth? ==>
      && signalType == "SELL" && OrZero(b.eth) > 0.0
      && 0.0 < o.suggestion.ethAmount <= OrZero(b.eth)
      && o.suggestion.usdcEquivalent == o.suggestion.ethAmount * OrZero(b.ethusd)
    ensures o.Transaction? && signalType == "BUY" && OrZero(b.usdc) > 0.0 ==>
      && o.suggestion.ConvertUsdc?
      && o.suggestion.usdcAmount == UsdcToUse(OrZero(b.usdc))
      && o.suggestion.ethEquivalent == o.suggestion.usdcAmount / OrZero(b.ethusd)
    ensures o.Transaction? && signalType == "SELL" && OrZero(b.eth) > 0.0 ==>
      && o.suggestion.SellEth?
      && o.suggestion.ethAmount == EthToSell(OrZero(b.eth))
    ensures o.Transaction? && o.suggestion.Notice? ==>
      (signalType == "BUY" && OrZero(b.usdc) <= 0.0) || (signalType == "SELL" && OrZero(b.eth) <= 0.0)
  {
    if !connected then NoWallet
    else if signalType != "BUY" && signalType != "SELL" then Skipped
    else
      var eth, usdc, price := OrZero(b.eth), OrZero(b.usdc), OrZero(b.ethusd);
      if price <= 0.0 then NoPrice
      else
        var fees := TxFeeFields(ReadFees(reply, chainId), chainId);
        if signalType == "BUY" && usdc > 0.0 then
          var u := UsdcToUse(usdc);
          Transaction(ConvertUsdc(u, u / price), fees)
        else if signalType == "SELL" && eth > 0.0 then
          var e := EthToSell(eth);
          Transaction(SellEth(e, e * price), fees)
        else Transaction(Notice, fees)
  }

  /** HOLD never produces a wallet transaction, whatever the balances. */
  lemma HoldNeverTransacts(connected: bool, b: Balances, chainId: int, reply: Option<Option<GasPricesJson>>)
    ensures !SendWalletNotification(connected, "HOLD", b, chainId, reply).Transaction?
  {
  }

  // ---------------------------------------------------------------- recording

  /** The body posted by `recordWalletAction`. */
  datatype WalletAction = WalletAction(action: string, ethBalance: real, usdcBalance: Option<real>,
                                       ethAllocation: real, network: string)

  /** The share of the portfolio held in ETH, in percent; 0 when the total is not
      positive. The total is read with `||`: without a recorded total, or with a
      recorded total of 0 (falsy), the ETH value itself is the total. */
  function EthAllocation(eth: real, ethusd: real, totalValueUsd: Option<real>): (pct: real)
    ensures var ethValue := eth * ethusd;
      && (totalValueUsd.Some? && totalValueUsd.value > 0.0 ==>
            pct * totalValueUsd.value == ethValue * 100.0)
      && (totalValueUsd.Some? && totalValueUsd.value < 0.0 ==> pct == 0.0)
      && ((totalValueUsd.None? || totalValueUsd.value == 0.0) ==>
            pct == if ethValue > 0.0 then 100.0 else 0.0)
      && (totalValueUsd.Some? && totalValueUsd.value > 0.0 && 0.0 <= ethValue <= totalValueUsd.value ==>
            0.0 <= pct <= 100.0)
  {
    var ethValue := eth * ethusd;
    var total := if totalValueUsd.Some? && totalValueUsd.value != 0.0 then totalValueUsd.value else ethValue;
    if total > 0.0 then
      assert total == ethValue ==> ethValue / total == 1.0;
      assert 0.0 <= ethValue <= total ==> 0.0 <= ethValue / total * 100.0 <= 100.0 by {
        if 0.0 <= ethValue <= total { ShareIsPercent(ethValue, total); }
      }
      ethValue / total * 100.0
    else 0.0
  }

  /** A part of a positive whole is between 0 and 100 percent of it. */
  lemma ShareIsPercent(part: real, whole: real)
    requires 0.0 < whole && 0.0 <= part <= whole
    ensures 0.0 <= part / whole * 100.0 <= 100.0
  {
    var q := part / whole;
    assert q * whole == part;
  }

  /** An all-ETH portfolio without a usable total (none recorded, or the 0 that
      `getWalletBalances` writes before the total is known) is reported as 100 % ETH. */
  lemma AllEthWithoutTotal(eth: real, ethusd: real, totalValueUsd: Option<real>)
    requires totalValueUsd == None || totalValueUsd == Some(0.0)
    requires eth * ethusd > 0.0
    ensures EthAllocation(eth, ethusd, totalValueUsd) == 100.0
  {
  }

  /** `recordWalletAction(action)`: nothing without a wallet or a positive price;
      `serverOk` is whether the server accepted the post. */
  function RecordWalletAction(connected: bool, action: string, eth: real, b: Balances,
                              totalValueUsd: Option<real>, chainId: int, serverOk: bool): (r: Option<WalletAction>)
    ensures r.Some? <==> connected && OrZero(b.ethusd) > 0.0 && serverOk
    ensures r.Some? ==>
      && r.value.action == action && r.value.ethBalance == eth && r.value.usdcBalance == b.usdc
      && r.value.ethAllocation == EthAllocation(eth, b.ethusd.value, totalValueUsd)
      && r.value.network == (if chainId == LineaChain then "linea" else "ethereum")
    ensures r.Some? && (totalValueUsd.None? || totalValueUsd == Some(0.0)) ==>
      r.value.ethAllocation == if eth > 0.0 then 100.0 else 0.0
  {
    if !connected || OrZero(b.ethusd) <= 0.0 || !serverOk then None
    else
      Some(WalletAction(action, eth, b.usdc, EthAllocation(eth, b.ethusd.value, totalValueUsd),
                        if chainId == LineaChain then "linea" else "ethereum"))
  }
}

=== FILE: seqs.dfy ===
/** Folds over sequences that the SQL aggregates (`COUNT`, `SUM`, `AVG`, `MIN`, `MAX`,
    `WHERE`) and the browser's `filter`/`reduce` calls reduce to. */
module Seqs {

  /** `WHERE p` / `Array.prototype.filter(p)`: the elements satisfying `p`, in order. */
  function Filter<T>(s: seq<T>, p: T -> bool): (r: seq<T>)
    ensures |r| <= |s|
    ensures forall i | 0 <= i < |r| :: p(r[i]) && r[i] in s
    ensures forall i | 0 <= i < |s| && p(s[i]) :: s[i] in r
  {
    if s == [] then []
    else (if p(s[0]) then [s[0]] else []) + Filter(s[1..], p)
  }

  lemma {:induction false} FilterAppend<T>(a: seq<T>, b: seq<T>, p: T -> bool)
    ensures Filter(a + b, p) == Filter(a, p) + Filter(b, p)
  {
    if a == [] {
      assert a + b == b;
    } else {
      assert (a + b)[1..] == a[1..] + b;
      FilterAppend(a[1..], b, p);
    }
  }

  /** Filtering twice with the same test changes nothing more. */
  lemma {:induction false} FilterIdempotent<T>(s: seq<T>, p: T -> bool)
    ensures Filter(Filter(s, p), p) == Filter(s, p)
  {
    if s != [] {
      FilterIdempotent(s[1..], p);
      var head := if p(s[0]) then [s[0]] else [];
      FilterAppend(head, Filter(s[1..], p), p);
    }
  }

  /** When every element passes, the filter is the identity. */
  lemma {:induction false} FilterAll<T>(s: seq<T>, p: T -> bool)
    requires forall i | 0 <= i < |s| :: p(s[i])
    ensures Filter(s, p) == s
  {
    if s != [] {
      FilterAll(s[1..], p);
    }
  }

  /** Number of elements satisfying `p` (`COUNT(CASE WHEN p THEN 1 END)`). */
  function Count<T>(s: seq<T>, p: T -> bool): (n: nat)
    ensures n <= |s|
    ensures n == |Filter(s, p)|
  {
    if s == [] then 0 else (if p(s[0]) then 1 else 0) + Count(s[1..], p)
  }

  /** Elements satisfying `p` and those failing it together make up the whole sequence. */
  lemma {:induction false} CountComplement<T>(s: seq<T>, p: T -> bool)
    ensures Count(s, p) + Count(s, x => !p(x)) == |s|
  {
    if s != [] {
      CountComplement(s[1..], p);
    }
  }

  /** Counting with a test implied by another gives no fewer elements. */
  lemma {:induction false} CountMonotone<T>(s: seq<T>, p: T -> bool, q: T -> bool)
    requires forall i | 0 <= i < |s| :: p(s[i]) ==> q(s[i])
    ensures Count(s, p) <= Count(s, q)
  {
    if s != [] {
      CountMonotone(s[1..], p, q);
    }
  }

  /** Three mutually exclusive tests that cover every element split the count. */
  lemma {:induction false} CountPartition3<T>(s: seq<T>, p: T -> bool, q: T -> bool, r: T -> bool)
    requires forall i | 0 <= i < |s| ::
      (p(s[i]) && !q(s[i]) && !r(s[i])) || (!p(s[i]) && q(s[i]) && !r(s[i])) || (!p(s[i]) && !q(s[i]) && r(s[i]))
    ensures Count(s, p) + Count(s, q) + Count(s, r) == |s|
  {
    if s != [] {
      CountPartition3(s[1..], p, q, r);
    }
  }

  /** Three mutually exclusive tests count at most the whole sequence. */
  lemma {:induction false} CountDisjoint3<T>(s: seq<T>, p: T -> bool, q: T -> bool, r: T -> bool)
    requires forall i | 0 <= i < |s| ::
      !(p(s[i]) && q(s[i])) && !(p(s[i]) && r(s[i])) && !(q(s[i]) && r(s[i]))
    ensures Count(s, p) + Count(s, q) + Count(s, r) <= |s|
  {
    if s != [] {
      CountDisjoint3(s[1..], p, q, r);
    }
  }

  function MapSeq<T, U>(s: seq<T>, f: T -> U): (r: seq<U>)
    ensures |r| == |s|
    ensures forall i | 0 <= i < |s| :: r[i] == f(s[i])
  {
    if s == [] then [] else [f(s[0])] + MapSeq(s[1..], f)
  }

  // ---------------------------------------------------------------- real aggregates

  /** `SUM(x)`. */
  function Sum(xs: seq<real>): real
  {
    if xs == [] then 0.0 else xs[0] + Sum(xs[1..])
  }

  /** `MIN(x)` over a non-empty group. */
  function MinOf(xs: seq<real>): (m: real)
    requires |xs| > 0
    ensures m in xs
    ensures forall i | 0 <= i < |xs| :: m <= xs[i]
  {
    if |xs| == 1 then xs[0]
    else
      var rest := MinOf(xs[1..]);
      if xs[0] <= rest then xs[0] else rest
  }

  /** `MAX(x)` over a non-empty group. */
  function MaxOf(xs: seq<real>): (m: real)
    requires |xs| > 0
    ensures m in xs
    ensures forall i | 0 <= i < |xs| :: xs[i] <= m
  {
    if |xs| == 1 then xs[0]
    else
      var rest := MaxOf(xs[1..]);
      if xs[0] >= rest then xs[0] else rest
  }

  /** `AVG(x)` over a non-empty group. */
  function Mean(xs: seq<real>): real
    requires |xs| > 0
  {
    Sum(xs) / |xs| as real
  }

  lemma {:induction false} SumBounds(xs: seq<real>, lo: real, hi: real)
    requires forall i | 0 <= i < |xs| :: lo <= xs[i] <= hi
    ensures |xs| as real * lo <= Sum(xs) <= |xs| as real * hi
  {
    if xs != [] {
      SumBounds(xs[1..], lo, hi);
    }
  }

  /** Bounds on every element bound the average. */
  lemma MeanBounds(xs: seq<real>, lo: real, hi: real)
    requires |xs| > 0
    requires forall i | 0 <= i < |xs| :: lo <= xs[i] <= hi
    ensures lo <= Mean(xs) <= hi
  {
    var n := |xs| as real;
    var total := Sum(xs);
    SumBounds(xs, lo, hi);
    assert n * lo <= total;
  }

  /** The average of a group lies between its smallest and largest element. */
  lemma MeanBetweenMinMax(xs: seq<real>)
    requires |xs| > 0
    ensures MinOf(xs) <= Mean(xs) <= MaxOf(xs)
  {
    MeanBounds(xs, MinOf(xs), MaxOf(xs));
  }

  /** A sum of non-negative values is non-negative. */
  lemma SumNonNegative(xs: seq<real>)
    requires forall i | 0 <= i < |xs| :: 0.0 <= xs[i]
    ensures 0.0 <= Sum(xs)
  {
    SumBounds(xs, 0.0, if xs == [] then 0.0 else MaxOf(xs));
  }

  /** Share of the elements, in percent: `correct / total * 100`. */
  function Percent(part: nat, whole: nat): (r: real)
    requires part <= whole && whole > 0
    ensures 0.0 <= r <= 100.0
    ensures part == whole <==> r == 100.0
    ensures part == 0 <==> r == 0.0
  {
    part as real / whole as real * 100.0
  }
}

=== FILE: smart_account.dfy ===
/** The smart-account helpers of the browser (`smartAccount.js`): the deployed-contract
    and token tables, the typed transaction record, the per-signer memo of smart-account
    addresses, and the checks and direction logic of a SimpleSwap swap. Signers,
    providers and contract calls are left out; their answers (the chain, the current
    allowance, the address of a fresh deployment) are inputs. */
module SmartAccount {
  import opened Common

  const UsdcEthereum := "0xA0b86991c6218b36c1d19D4a2e9Eb0cE3606eB48"
  const UsdcLinea := "0x176211869cA2b568f2A7D4EE941E073a821EE1ff"
  /** Linea testnet USDC, which is also the local MockUSDC. */
  const UsdcLineaTestnet := "0x0165878A594ca255338adfa4d48449f69242Eb8F"
  const NativeEth := "0x0000000000000000000000000000000000000000"

  /** `DEPLOYED_CONTRACTS.smartAccount`. */
  const DeployedSmartAccount := "0xC1a6875BDc2CA3FB47B36EdD56fE65034F1D7454"

  /** `DEPLOYED_CONTRACTS.simpleSwap`, keyed by the chain id as text; the testnet entry is
      empty. */
  const DeployedSimpleSwap: map<string, string> := map[
    "31337" := "0xB7f8BC63BbcaD18155201308C8f3540b07f84F5e",
    "59140" := "",
    "59144" := "0x067f5703e07511c25379F41B11a113aC9fBA958b"]

  /** A JavaScript value inside a transaction record. */
  datatype JsValue = JNull | JStr(s: string) | JNum(n: int) | JList(items: seq<JsValue>)

  predicate JsTruthy(v: JsValue)
  {
    match v
    case JNull => false
    case JStr(s) => s != ""
    case JNum(n) => n != 0
    case JList(_) => true
  }

  /** The transaction type `buildPectraTx` writes. The comment next to it names EIP-7702,
      whose transactions are type 4; the literal written is 3. */
  const PectraTxType: int := 3

  /** `buildPectraTx(txParams, gasToken, batch)`: every field of `txParams` is copied, `type`
      is forced to 3, `gasToken` is set when it is truthy and `batch` when it is a
      non-empty array. */
  function BuildPectraTx(txParams: map<string, JsValue>, gasToken: JsValue, batch: JsValue)
    : (tx: map<string, JsValue>)
    ensures "type" in tx && tx["type"] == JNum(PectraTxType)
    ensures forall k | k in txParams && k != "type" && k != "gasToken" && k != "batch" ::
      k in tx && tx[k] == txParams[k]
    ensures JsTruthy(gasToken) ==> "gasToken" in tx && tx["gasToken"] == gasToken
    ensures !JsTruthy(gasToken) ==> ("gasToken" in tx <==> "gasToken" in txParams)
    ensures batch.JList? && |batch.items| > 0 ==> "batch" in tx && tx["batch"] == batch
    ensures !(batch.JList? && |batch.items| > 0) ==> ("batch" in tx <==> "batch" in txParams)
    ensures tx.Keys == txParams.Keys + {"type"}
                       + (if JsTruthy(gasToken) then {"gasToken"} else {})
                       + (if batch.JList? && |batch.items| > 0 then {"batch"} else {})
  {
    var base := txParams["type" := JNum(PectraTxType)];
    var withGas := if JsTruthy(gasToken) then base["gasToken" := gasToken] else base;
    if batch.JList? && |batch.items| > 0 then withGas["batch" := batch] else withGas
  }

  /** Building twice with the same extras changes nothing more: the record is a fixed
      point. */
  lemma BuildPectraTxIdempotent(txParams: map<string, JsValue>, gasToken: JsValue, batch: JsValue)
    ensures BuildPectraTx(BuildPectraTx(txParams, gasToken, batch), gasToken, batch)
         == BuildPectraTx(txParams, gasToken, batch)
  {
    var once := BuildPectraTx(txParams, gasToken, batch);
    var twice := BuildPectraTx(once, gasToken, batch);
    assert twice.Keys == once.Keys;
    forall k | k in once
      ensures twice[k] == once[k]
    {
    }
  }

  // ---------------------------------------------------------------- smart accounts

  /** The smart-account bookkeeping: the memo by signer address and the current
      `DEPLOYED_CONTRACTS.smartAccount`. */
  datatype Accounts = Accounts(memo: map<string, string>, deployed: string)

  const InitialAccounts := Accounts(map[], DeployedSmartAccount)

  predicate Memoised(a: Accounts, signer: string)
  {
    signer in a.memo && a.memo[signer] != ""
  }

  /** `createSmartAccount` for `signer`: a truthy memo entry is returned as is; otherwise
      the configured address is used, or `freshAddress` (the address of a new deployment) when
      none is configured, and it is remembered for the signer. The flag tells whether a
      deployment happened. */
  function CreateSmartAccount(a: Accounts, signer: string, freshAddress: string): (r: (string, Accounts, bool))
    ensures Memoised(a, signer) ==> r == (a.memo[signer], a, false)
    ensures !Memoised(a, signer) ==>
      && r.2 == (a.deployed == "")
      && r.0 == (if a.deployed != "" then a.deployed else freshAddress)
      && r.1 == Accounts(a.memo[signer := r.0], r.0)
  {
    if Memoised(a, signer) then (a.memo[signer], a, false)
    else if a.deployed != "" then (a.deployed, a.(memo := a.memo[signer := a.deployed]), false)
    else (freshAddress, Accounts(a.memo[signer := freshAddress], freshAddress), true)
  }

  /** A second call for the same signer returns the same address and deploys nothing;
      other signers' entries are untouched by the first. */
  lemma SecondCallIsMemoised(a: Accounts, signer: string, f1: string, f2: string, other: string)
    requires a.deployed != "" || f1 != ""
    ensures var (addr1, a1, _) := CreateSmartAccount(a, signer, f1);
      && CreateSmartAccount(a1, signer, f2) == (addr1, a1, false)
      && (other != signer && other in a.memo ==> other in a1.memo && a1.memo[other] == a.memo[other])
  {
  }

  /** From the configured start, no signer ever causes a deployment and each gets the
      configured address. */
  lemma NoDeploymentWhileConfigured(a: Accounts, signer: string, f: string)
    requires a.deployed == DeployedSmartAccount
    requires forall s | s in a.memo :: a.memo[s] == DeployedSmartAccount
    ensures var (addr, a1, deployed) := CreateSmartAccount(a, signer, f);
      && addr == DeployedSmartAccount && !deployed && a1.deployed == DeployedSmartAccount
  {
  }

  // ---------------------------------------------------------------- swaps

  /** The USDC token `executeSwap` uses for a chain id (as text). */
  function UsdcFor(chainId: string): (u: Option<string>)
    ensures u.Some? <==> chainId in {"1", "59144", "59140", "31337"}
    ensures chainId == "1" ==> u == Some(UsdcEthereum)
    ensures chainId == "59144" ==> u == Some(UsdcLinea)
    ensures chainId == "59140" || chainId == "31337" ==> u == Some(UsdcLineaTestnet)
  {
    if chainId == "59144" then Some(UsdcLinea)
    else if chainId == "59140" then Some(UsdcLineaTestnet)
    else if chainId == "1" then Some(UsdcEthereum)
    else if chainId == "31337" then Some(UsdcLineaTestnet)
    else None
  }

  datatype SwapError = NoSimpleSwap(chain: string) | UnsupportedUsdc(chain: string)

  /** The contract calls of a swap: ETH in is sent as the call's value; USDC in is first
      approved when the allowance is short, then swapped. */
  datatype SwapCall =
    | SwapEthToUsdc(simpleSwap: string, value: nat)
    | SwapUsdcToEth(simpleSwap: string, usdc: string, approve: bool, amount: nat)

  /** `executeSwap` on chain `chainId` (as text), from `fromToken`, for `amount` smallest
      units, with the signer's current USDC `allowance` for the SimpleSwap contract. */
  function ExecuteSwap(chainId: string, fromToken: string, amount: nat, allowance: nat)
    : (r: Result<SwapCall, SwapError>)
    ensures r.Ok? <==> (
      && chainId in DeployedSimpleSwap && DeployedSimpleSwap[chainId] != ""
      && UsdcFor(chainId).Some?)
    ensures (chainId !in DeployedSimpleSwap || DeployedSimpleSwap[chainId] == "") ==>
      r == Err(NoSimpleSwap(chainId))
    ensures r.Ok? && fromToken == NativeEth ==>
      r.value == SwapEthToUsdc(DeployedSimpleSwap[chainId], amount)
    ensures r.Ok? && fromToken != NativeEth ==>
      r.value == SwapUsdcToEth(DeployedSimpleSwap[chainId], UsdcFor(chainId).value, allowance < amount, amount)
  {
    var simpleSwap := if chainId in DeployedSimpleSwap then DeployedSimpleSwap[chainId] else "";
    if simpleSwap == "" then Err(NoSimpleSwap(chainId))
    else match UsdcFor(chainId)
      case None => Err(UnsupportedUsdc(chainId))
      case Some(usdc) =>
        if fromToken == NativeEth then Ok(SwapEthToUsdc(simpleSwap, amount))
        else Ok(SwapUsdcToEth(simpleSwap, usdc, allowance < amount, amount))
  }

  /** Only the local and the Linea mainnet chains can swap: the testnet entry is empty and
      mainnet Ethereum has none, although both have a USDC address. */
  lemma OnlyLocalAndLineaSwap(chainId: string, fromToken: string, amount: nat, allowance: nat)
    ensures ExecuteSwap(chainId, fromToken, amount, allowance).Ok? <==> chainId in {"31337", "59144"}
    ensures ExecuteSwap("59140", fromToken, amount, allowance) == Err(NoSimpleSwap("59140"))
    ensures ExecuteSwap("1", fromToken, amount, allowance) == Err(NoSimpleSwap("1"))
  {
  }

  /** The approval is skipped exactly when the allowance already covers the amount, and
      the native path never approves. */
  lemma ApproveOnlyWhenShort(chainId: string, fromToken: string, amount: nat, allowance: nat)
    requires ExecuteSwap(chainId, fromToken, amount, allowance).Ok?
    ensures var c := ExecuteSwap(chainId, fromToken, amount, allowance).value;
      && (c.SwapUsdcToEth? <==> fromToken != NativeEth)
      && (c.SwapUsdcToEth? ==> (c.approve <==> allowance < amount))
  {
  }

  /** The gas token of a batch: USDC on Ethereum when asked for, otherwise none. */
  function BatchGasToken(useGasToken: bool): (g: JsValue)
    ensures JsTruthy(g) <==> useGasToken
    ensures useGasToken ==> g == JStr(UsdcEthereum)
  {
    if useGasToken then JStr(UsdcEthereum) else JNull
  }

  /** The record `executeBatchTransactions` sends: to the smart account, empty calldata,
      no value, type 3, the gas token when asked for and the batch when non-empty. */
  function BatchTx(smartAccount: string, useGasToken: bool, transactions: JsValue): (tx: map<string, JsValue>)
    ensures "to" in tx && tx["to"] == JStr(smartAccount)
    ensures "type" in tx && tx["type"] == JNum(PectraTxType)
    ensures "gasToken" in tx <==> useGasToken
    ensures useGasToken ==> tx["gasToken"] == JStr(UsdcEthereum)
    ensures "batch" in tx <==> transactions.JList? && |transactions.items| > 0
  {
    BuildPectraTx(map["to" := JStr(smartAccount), "data" := JStr("0x"), "value" := JStr("0")],
                  BatchGasToken(useGasToken), transactions)
  }
}

=== FILE: sorting.dfy ===
/** Ordering by a numeric key, newest (largest) first: the `ORDER BY … DESC LIMIT n` shape
    of the database's recent-history queries. SQLite leaves the order of equal keys
    unspecified, so only the key order is promised. */
module Sorting {

  predicate SortedDesc<T>(s: seq<T>, key: T -> int)
  {
    forall i, j | 0 <= i < j < |s| :: key(s[i]) >= key(s[j])
  }

  /** Every element of `s` has a key no larger than `bound`. */
  predicate AllAtMost<T>(s: seq<T>, key: T -> int, bound: int)
  {
    forall i | 0 <= i < |s| :: key(s[i]) <= bound
  }

  lemma AllAtMostMultiset<T>(s: seq<T>, t: seq<T>, key: T -> int, bound: int)
    requires multiset(s) == multiset(t) && AllAtMost(t, key, bound)
    ensures AllAtMost(s, key, bound)
  {
    forall i | 0 <= i < |s|
      ensures key(s[i]) <= bound
    {
      assert s[i] in multiset(s);
      assert s[i] in multiset(t);
      var j :| 0 <= j < |t| && t[j] == s[i];
    }
  }

  /** Places `x` in front of the first element whose key it is at least. */
  function Insert<T>(x: T, s: seq<T>, key: T -> int): (r: seq<T>)
    requires SortedDesc(s, key)
    ensures SortedDesc(r, key)
    ensures multiset(r) == multiset(s) + multiset{x}
  {
    if s == [] then [x]
    else if key(x) >= key(s[0]) then [x] + s
    else
      var rest := Insert(x, s[1..], key);
      assert s == [s[0]] + s[1..];
      assert AllAtMost(s[1..] + [x], key, key(s[0]));
      assert multiset(rest) == multiset(s[1..] + [x]);
      AllAtMostMultiset(rest, s[1..] + [x], key, key(s[0]));
      [s[0]] + rest
  }

  /** Insertion sort, largest key first. */
  function SortDesc<T>(s: seq<T>, key: T -> int): (r: seq<T>)
    ensures SortedDesc(r, key)
    ensures multiset(r) == multiset(s)
    ensures |r| == |s|
  {
    if s == [] then []
    else
      assert s == [s[0]] + s[1..];
      Insert(s[0], SortDesc(s[1..], key), key)
  }

  /** SQL `LIMIT limit`: a negative limit means no limit in SQLite. */
  function Limit<T>(s: seq<T>, limit: int): (r: seq<T>)
    ensures limit < 0 || limit >= |s| ==> r == s
    ensures 0 <= limit < |s| ==> r == s[..limit]
  {
    if limit < 0 || limit >= |s| then s else s[..limit]
  }

  /** `ORDER BY key DESC LIMIT limit`. */
  function TopByKey<T>(s: seq<T>, key: T -> int, limit: int): (r: seq<T>)
    ensures SortedDesc(r, key)
    ensures |r| == if limit < 0 || limit >= |s| then |s| else limit
    ensures multiset(r) <= multiset(s)
  {
    var sorted := SortDesc(s, key);
    var r := Limit(sorted, limit);
    assert sorted == r + sorted[|r|..];
    r
  }

  /** The rows a limited query leaves out are never newer than the rows it returns. */
  lemma {:induction false} TopByKeyIsTop<T>(s: seq<T>, key: T -> int, limit: int, x: T, y: T)
    requires x in multiset(s) - multiset(TopByKey(s, key, limit))
    requires y in TopByKey(s, key, limit)
    ensures key(x) <= key(y)
  {
    var sorted := SortDesc(s, key);
    var r := Limit(sorted, limit);
    assert sorted == r + sorted[|r|..];
    assert multiset(sorted) == multiset(r) + multiset(sorted[|r|..]);
    var tail := sorted[|r|..];
    assert x in multiset(tail);
    assert x in tail;
    var t :| 0 <= t < |tail| && tail[t] == x;
    var j :| 0 <= j < |r| && r[j] == y;
    assert sorted[|r| + t] == x && sorted[j] == y;
    assert j < |r| + t;
  }

  function Id(x: int): int { x }

  predicate StrictlyDesc(s: seq<int>)
  {
    forall i, j | 0 <= i < j < |s| :: s[i] > s[j]
  }

  /** Drops adjacent repeats from a non-increasing sequence. */
  function DedupSorted(s: seq<int>): (r: seq<int>)
    requires SortedDesc(s, Id)
    ensures StrictlyDesc(r)
    ensures forall x :: x in r <==> x in s
    ensures |s| > 0 ==> |r| > 0 && r[0] == s[0]
  {
    if |s| <= 1 then s
    else if s[0] == s[1] then DedupSorted(s[1..])
    else
      var rest := DedupSorted(s[1..]);
      assert forall x | x in rest :: x <= s[1];
      [s[0]] + rest
  }

  /** The distinct values of `xs`, largest first (`GROUP BY k ORDER BY k DESC`). */
  function DistinctDesc(xs: seq<int>): (r: seq<int>)
    ensures StrictlyDesc(r)
    ensures forall x :: x in r <==> x in xs
  {
    var sorted := SortDesc(xs, Id);
    assert forall x :: x in sorted <==> x in multiset(sorted);
    DedupSorted(sorted)
  }
}

=== FILE: stats_manager.dfy ===
/** Statistics shown next to each predictor (`statsManager.js`): the per-model trade
    summary, the wallet-scoped statistics with their defaults and colour bands, the 24-hour
    trade window, the once-per-day reset marker and the fresh-session rule. */
module StatsManager {
  import opened Common
  import opened Seqs
  import MP = ModelPredictions

  // ---------------------------------------------------------------- trade summary

  /** The numbers `updateModelStats` renders for one model. */
  datatype Summary = Summary(
    total: nat, correct: nat, incorrect: nat, buy: nat, sell: nat, hold: nat, avgChange: real)

  function PriceChange(t: MP.Trade): real { t.priceChange }

  function HasDecision(d: string): MP.Trade -> bool
  {
    (t: MP.Trade) => t.decision == d
  }

  /** The price moves of the trades that pass `profitable`, in order. */
  function ProfitableChanges(trades: seq<MP.Trade>, profitable: MP.Trade -> bool): (xs: seq<real>)
    ensures |xs| == Count(trades, profitable)
  {
    MapSeq(Filter(trades, profitable), PriceChange)
  }

  /** The summary of one model's kept trades. `profitable` is the test the page applies
      to each trade to call it correct. The average move of the correct trades is 0
      when there are none. */
  function SummaryOf(trades: seq<MP.Trade>, profitable: MP.Trade -> bool): (r: Summary)
    ensures r.total == |trades|
    ensures r.correct == Count(trades, profitable) && r.correct <= r.total
    ensures r.incorrect == r.total - r.correct
    ensures r.buy == Count(trades, HasDecision("BUY"))
    ensures r.sell == Count(trades, HasDecision("SELL"))
    ensures r.hold == Count(trades, HasDecision("HOLD"))
    ensures r.buy + r.sell + r.hold <= r.total
    ensures r.correct == 0 ==> r.avgChange == 0.0
    ensures r.correct > 0 ==>
      var xs := ProfitableChanges(trades, profitable);
      && r.avgChange == Sum(xs) / r.correct as real
      && MinOf(xs) <= r.avgChange <= MaxOf(xs)
  {
    var total := |trades|;
    var correct := Count(trades, profitable);
    CountDisjoint3(trades, HasDecision("BUY"), HasDecision("SELL"), HasDecision("HOLD"));
    var avg := if correct > 0 then
      var xs := ProfitableChanges(trades, profitable);
      MeanBetweenMinMax(xs);
      Mean(xs)
    else 0.0;
    Summary(total, correct, total - correct,
            Count(trades, HasDecision("BUY")), Count(trades, HasDecision("SELL")),
            Count(trades, HasDecision("HOLD")), avg)
  }

  /** When every kept decision is BUY, SELL or HOLD, the three counts add up to the
      total. */
  lemma DistributionPartitions(trades: seq<MP.Trade>, profitable: MP.Trade -> bool)
    requires forall i | 0 <= i < |trades| :: trades[i].decision in {"BUY", "SELL", "HOLD"}
    ensures var r := SummaryOf(trades, profitable); r.buy + r.sell + r.hold == r.total
  {
    CountPartition3(trades, HasDecision("BUY"), HasDecision("SELL"), HasDecision("HOLD"));
  }

  /** The test the page applies: the `profitable` field of a trade. The trades
      `updateAccuracy` records have no such field, so it reads as `undefined`. */
  function ProfitableField(t: MP.Trade): bool { false }

  /** The evidently intended test: the verdict `updateAccuracy` stores with the trade. */
  function IsCorrectTrade(t: MP.Trade): bool { t.isCorrect }

  /** `updateModelStats` as written counts no trade as correct, however many verdicts
      were correct, and the accuracy of `calculateAccuracy` is 0 with it. */
  lemma AsWrittenCountsNothing(trades: seq<MP.Trade>)
    ensures var r := SummaryOf(trades, ProfitableField);
      r.correct == 0 && r.incorrect == r.total && r.avgChange == 0.0
    ensures MP.CalculateAccuracy(trades, ProfitableField) == 0.0
  {
    NoTradeHasTheField(trades);
  }

  lemma {:induction false} NoTradeHasTheField(trades: seq<MP.Trade>)
    ensures Count(trades, ProfitableField) == 0
  {
    if trades != [] {
      NoTradeHasTheField(trades[1..]);
    }
  }

  /** A concrete history: one correct BUY recorded by `updateAccuracy`, summarised as no
      correct trade at all. */
  lemma AsWrittenMissesCorrectBuy()
    ensures var t := MP.TradeFor("BUY", 2.0, 0.5, 1.0, 2000.0, 0);
      && t.isCorrect
      && SummaryOf([t], ProfitableField).correct == 0
      && SummaryOf([t], IsCorrectTrade).correct == 1
  {
    var t := MP.TradeFor("BUY", 2.0, 0.5, 1.0, 2000.0, 0);
    assert [t][1..] == [];
  }

  /** `updateModelStats` as written: nothing is shown without a connected wallet;
      otherwise each model's kept trades are summarised with the page's test, so every
      trade is counted incorrect and the average change is 0. */
  function UpdateModelStats(userAccount: JsString, history: MP.PerModel<seq<MP.Trade>>): (r: Option<MP.PerModel<Summary>>)
    ensures !Truthy(userAccount) <==> r.None?
    ensures r.Some? ==> forall m: MP.Model ::
      && MP.Get(r.value, m) == SummaryOf(MP.Get(history, m), ProfitableField)
      && MP.Get(r.value, m).correct == 0
      && MP.Get(r.value, m).incorrect == |MP.Get(history, m)|
      && MP.Get(r.value, m).avgChange == 0.0
  {
    NoTradeHasTheField(history.gemini);
    NoTradeHasTheField(history.groq);
    NoTradeHasTheField(history.mistral);
    if !Truthy(userAccount) then None
    else Some(MP.PerModel(SummaryOf(history.gemini, ProfitableField),
                          SummaryOf(history.groq, ProfitableField),
                          SummaryOf(history.mistral, ProfitableField)))
  }

  /** `updateModelStats` as evidently intended: the trades whose stored verdict is correct
      are counted correct. */
  function UpdateModelStatsCorrected(userAccount: JsString, history: MP.PerModel<seq<MP.Trade>>): (r: Option<MP.PerModel<Summary>>)
    ensures !Truthy(userAccount) <==> r.None?
    ensures r.Some? ==> forall m: MP.Model ::
      && MP.Get(r.value, m) == SummaryOf(MP.Get(history, m), IsCorrectTrade)
      && MP.Get(r.value, m).correct == Count(MP.Get(history, m), IsCorrectTrade)
  {
    if !Truthy(userAccount) then None
    else Some(MP.PerModel(SummaryOf(history.gemini, IsCorrectTrade),
                          SummaryOf(history.groq, IsCorrectTrade),
                          SummaryOf(history.mistral, IsCorrectTrade)))
  }

  // ------------------------------------------- the corrected count against the raw counter

  function CountCorrect(hist: seq<MP.Trade>): nat
  {
    Count(hist, IsCorrectTrade)
  }

  /** How a model's kept history relates to its raw counters: the history holds at most
      `total` trades, and the correct verdicts outside it (dropped by the cap) are at most
      the trades dropped. */
  predicate HistoryMatchesRaw(raw: MP.Raw, hist: seq<MP.Trade>)
  {
    && |hist| <= raw.total
    && CountCorrect(hist) <= raw.correct
    && raw.correct - CountCorrect(hist) <= raw.total - |hist|
  }

  lemma CountCorrectAppend(a: seq<MP.Trade>, b: seq<MP.Trade>)
    ensures CountCorrect(a + b) == CountCorrect(a) + CountCorrect(b)
  {
    FilterAppend(a, b, IsCorrectTrade);
  }

  /** One scored trade keeps the history and the raw counters matched. */
  lemma ScoreKeepsMatch(raw: MP.Raw, hist: seq<MP.Trade>, trade: MP.Trade)
    requires HistoryMatchesRaw(raw, hist)
    ensures var (raw', hist') := MP.Score(raw, hist, trade); HistoryMatchesRaw(raw', hist')
  {
    var (raw', hist') := MP.Score(raw, hist, trade);
    var pushed := hist + [trade];
    CountCorrectAppend(hist, [trade]);
    if |pushed| > MP.HistoryCap {
      assert hist' == pushed[1..];
      assert pushed == [pushed[0]] + pushed[1..];
      CountCorrectAppend([pushed[0]], pushed[1..]);
    } else {
      assert hist' == pushed;
    }
  }

  predicate BoardMatches(b: MP.Board)
  {
    forall m: MP.Model :: HistoryMatchesRaw(MP.Get(b.raw, m), MP.Get(b.history, m))
  }

  lemma AdvancedKeepsMatch(b: MP.Board, r: MP.Board, m: MP.Model, pct: real, t: real, price: real, now: int)
    requires MP.Advanced(b, r, m, pct, t, price, now)
    requires HistoryMatchesRaw(MP.Get(b.raw, m), MP.Get(b.history, m))
    ensures HistoryMatchesRaw(MP.Get(r.raw, m), MP.Get(r.history, m))
  {
    var vote := MP.Get(b.last.votes, m);
    if Truthy(vote) {
      ScoreKeepsMatch(MP.Get(b.raw, m), MP.Get(b.history, m),
                      MP.TradeFor(vote.value, pct, t, r.tracker.current, price, now));
    }
  }

  /** Every accuracy update keeps each model's history matched with its raw counters. */
  lemma UpdateAccuracyKeepsMatch(b: MP.Board, currentPrice: real, now: int, spread: real)
    requires b.last.price.Some? ==> b.last.price.value != 0.0
    requires BoardMatches(b)
    ensures BoardMatches(MP.UpdateAccuracy(b, currentPrice, now, spread))
  {
    var r := MP.UpdateAccuracy(b, currentPrice, now, spread);
    if b.last.price.Some? {
      var pct := MP.MoveSince(b.last.price.value, currentPrice);
      var t := MP.DynamicThreshold(r.tracker.current);
      forall m: MP.Model
        ensures HistoryMatchesRaw(MP.Get(r.raw, m), MP.Get(r.history, m))
      {
        AdvancedKeepsMatch(b, r, m, pct, t, currentPrice, now);
      }
    }
  }

  /** While the cap has dropped nothing, counting stored verdicts gives exactly the raw
      correct counter: the corrected summary agrees with the raw accuracy. */
  lemma CorrectedMatchesRawCounter(raw: MP.Raw, hist: seq<MP.Trade>)
    requires HistoryMatchesRaw(raw, hist) && |hist| == raw.total
    ensures SummaryOf(hist, IsCorrectTrade).correct == raw.correct
    ensures SummaryOf(hist, IsCorrectTrade).total == raw.total
  {
  }

  /** On a board whose histories match the raw counters and have dropped nothing, the
      corrected statistics show each model's raw correct and total counts. */
  lemma CorrectedStatsMatchBoard(b: MP.Board, userAccount: JsString)
    requires Truthy(userAccount) && BoardMatches(b)
    requires forall m: MP.Model :: |MP.Get(b.history, m)| == MP.Get(b.raw, m).total
    ensures var r := UpdateModelStatsCorrected(userAccount, b.history);
      r.Some? && forall m: MP.Model ::
        MP.Get(r.value, m).correct == MP.Get(b.raw, m).correct
        && MP.Get(r.value, m).total == MP.Get(b.raw, m).total
  {
    var r := UpdateModelStatsCorrected(userAccount, b.history);
    forall m: MP.Model
      ensures MP.Get(r.value, m).correct == MP.Get(b.raw, m).correct
      ensures MP.Get(r.value, m).total == MP.Get(b.raw, m).total
    {
      CorrectedMatchesRawCounter(MP.Get(b.raw, m), MP.Get(b.history, m));
    }
  }

  // ---------------------------------------------------------------- wallet statistics

  /** One entry of `model_stats` in the wallet data. */
  datatype ModelStat = ModelStat(
    totalDecisions: int, correctDecisions: int, accuracy: real, rawAccuracy: real,
    buyCount: int, sellCount: int, holdCount: int)

  /** The record used for a model missing from `model_stats`. */
  const DefaultStat := ModelStat(0, 0, 0.0, 0.0, 0, 0, 0)

  /** `modelStats[model] || {…}`: a present entry is an object and therefore truthy. */
  function StatFor(modelStats: map<string, ModelStat>, model: string): (s: ModelStat)
    ensures model in modelStats ==> s == modelStats[model]
    ensures model !in modelStats ==>
      s.totalDecisions == 0 && s.correctDecisions == 0 && s.accuracy == 0.0
      && s.rawAccuracy == 0.0 && s.buyCount == 0 && s.sellCount == 0 && s.holdCount == 0
  {
    if model in modelStats then modelStats[model] else DefaultStat
  }

  datatype Band = Green | Yellow | Red

  /** The colour class of an accuracy: green from 65, yellow from 45, red below. */
  function BandOf(accuracy: real): (b: Band)
    ensures b == Green <==> accuracy >= 65.0
    ensures b == Yellow <==> 45.0 <= accuracy < 65.0
    ensures b == Red <==> accuracy < 45.0
  {
    if accuracy >= 65.0 then Green else if accuracy >= 45.0 then Yellow else Red
  }

  function BandRank(b: Band): nat
  {
    match b
    case Red => 0
    case Yellow => 1
    case Green => 2
  }

  /** A higher accuracy never gets a worse colour. */
  lemma BandMonotone(a1: real, a2: real)
    requires a1 <= a2
    ensures BandRank(BandOf(a1)) <= BandRank(BandOf(a2))
  {
  }

  /** What the stats container shows for one model. */
  datatype View =
    | NoActivity
    | Activity(total: int, correct: int, incorrect: int, rawBand: Band)

  /** The container and the two accuracy labels `updateWalletModelStats` fills for
      `model`. */
  function WalletModelView(modelStats: map<string, ModelStat>, model: string): (r: (View, Band, Band))
    ensures var s := StatFor(modelStats, model);
      && (r.0.Activity? <==> s.totalDecisions > 0)
      && (r.0.Activity? ==> r.0.incorrect + r.0.correct == r.0.total && r.0.rawBand == BandOf(s.rawAccuracy))
      && r.1 == BandOf(s.accuracy) && r.2 == BandOf(s.rawAccuracy)
    ensures model !in modelStats ==> r == (NoActivity, Red, Red)
  {
    var s := StatFor(modelStats, model);
    var view := if s.totalDecisions > 0 then
      Activity(s.totalDecisions, s.correctDecisions, s.totalDecisions - s.correctDecisions, BandOf(s.rawAccuracy))
    else NoActivity;
    (view, BandOf(s.accuracy), BandOf(s.rawAccuracy))
  }

  // ---------------------------------------------------------------- time windows

  /** One day in milliseconds. */
  const DayMs: int := 24 * 60 * 60 * 1000

  function NewerThan(cutoff: int): MP.Trade -> bool
  {
    (t: MP.Trade) => t.timestamp > cutoff
  }

  /** `getRecentTrades`: the trades stamped strictly after 24 hours before `nowMs`, in their
      original order. */
  function GetRecentTrades(trades: seq<MP.Trade>, nowMs: int): (r: seq<MP.Trade>)
    ensures forall i | 0 <= i < |r| :: r[i].timestamp > nowMs - DayMs && r[i] in trades
    ensures forall i | 0 <= i < |trades| && trades[i].timestamp > nowMs - DayMs :: trades[i] in r
  {
    Filter(trades, NewerThan(nowMs - DayMs))
  }

  predicate Chronological(trades: seq<MP.Trade>)
  {
    forall i, j | 0 <= i < j < |trades| :: trades[i].timestamp <= trades[j].timestamp
  }

  /** Filtering keeps the relative order, so a chronological history stays
      chronological. */
  lemma {:induction false} RecentTradesKeepOrder(trades: seq<MP.Trade>, nowMs: int)
    requires Chronological(trades)
    ensures Chronological(GetRecentTrades(trades, nowMs))
  {
    if trades != [] {
      RecentTradesKeepOrder(trades[1..], nowMs);
      var rest := GetRecentTrades(trades[1..], nowMs);
      forall i | 0 <= i < |rest|
        ensures trades[0].timestamp <= rest[i].timestamp
      {
        var k :| 0 <= k < |trades[1..]| && trades[1..][k] == rest[i];
      }
    }
  }

  /** Filtering with the same `nowMs` twice keeps the same trades. */
  lemma RecentTradesIdempotent(trades: seq<MP.Trade>, nowMs: int)
    ensures GetRecentTrades(GetRecentTrades(trades, nowMs), nowMs) == GetRecentTrades(trades, nowMs)
  {
    FilterIdempotent(trades, NewerThan(nowMs - DayMs));
  }

  /** The recent trades of a concatenation are those of each part, in the same order:
      together with `RecentTradeOfOne` this fixes the result for every history, order and
      repetitions included. */
  lemma RecentTradesSplit(a: seq<MP.Trade>, b: seq<MP.Trade>, nowMs: int)
    ensures GetRecentTrades(a + b, nowMs) == GetRecentTrades(a, nowMs) + GetRecentTrades(b, nowMs)
  {
    FilterAppend(a, b, NewerThan(nowMs - DayMs));
  }

  /** A single trade is kept exactly when it is newer than a day before `nowMs`. */
  lemma RecentTradeOfOne(t: MP.Trade, nowMs: int)
    ensures GetRecentTrades([t], nowMs) == if t.timestamp > nowMs - DayMs then [t] else []
  {
    assert [t][1..] == [];
  }

  /** `checkDailyReset`: resets (returns true) and records `today` unless the stored marker
      already is `today`. Returns the result and the new marker. */
  function CheckDailyReset(lastReset: Option<string>, today: string): (r: (bool, Option<string>))
    ensures r.0 <==> lastReset != Some(today)
    ensures r.1 == Some(today)
  {
    if lastReset != Some(today) then (true, Some(today)) else (false, lastReset)
  }

  /** The first call of a day resets, and every later call that day does not. */
  lemma DailyResetOncePerDay(lastReset: Option<string>, today: string)
    requires lastReset != Some(today)
    ensures CheckDailyReset(lastReset, today).0
    ensures !CheckDailyReset(CheckDailyReset(lastReset, today).1, today).0
  {
  }

  /** `checkFreshSession` at time `nowMs` with the stored last visit: whether the
      storage is cleared, and the visit stamp written back (`now.toString()`). A stored
      text that `parseInt` cannot read gives `NaN`, and `NaN` is never greater than a
      day, so such a stamp never clears. */
  function CheckFreshSession(lastVisit: JsString, nowMs: nat): (r: (bool, string))
    ensures r.1 == NatToString(nowMs)
    ensures !Truthy(lastVisit) ==> r.0
    ensures Truthy(lastVisit) ==>
      (r.0 <==> ParseIntAuto(lastVisit.value).Some? && nowMs - ParseIntAuto(lastVisit.value).value > DayMs)
  {
    var isFresh := if !Truthy(lastVisit) then true
      else match ParseIntAuto(lastVisit.value)
        case None => false
        case Some(v) => nowMs - v > DayMs;
    (isFresh, NatToString(nowMs))
  }

  /** A visit within a day of the previous one, whose stamp this function wrote, does not
      clear; one more than a day later does. */
  lemma FreshSessionAfterADay(firstMs: nat, laterMs: nat)
    ensures var stamp := CheckFreshSession(Some("x"), firstMs).1;
      CheckFreshSession(Some(stamp), laterMs).0 <==> laterMs - firstMs > DayMs
  {
    var stamp := NatToString(firstMs);
    NatToStringValue(firstMs);
    ParseIntDigits(stamp);
  }

  /** What a fresh session resets: empty histories and zeroed raw counters. */
  function FreshCounters(): (r: (MP.PerModel<seq<MP.Trade>>, MP.PerModel<MP.Raw>))
    ensures forall m: MP.Model :: MP.Get(r.0, m) == [] && MP.Get(r.1, m) == MP.Raw(0, 0, 0.0)
  {
    (MP.PerModel([], [], []), MP.PerModel(MP.Raw(0, 0, 0.0), MP.Raw(0, 0, 0.0), MP.Raw(0, 0, 0.0)))
  }

  /** The reset state satisfies both bookkeeping invariants. */
  lemma FreshCountersConsistent(last: MP.LastDecisions, tracker: MP.Tracker)
    ensures var (hist, raw) := FreshCounters();
      MP.Consistent(MP.Board(last, tracker, raw, hist)) && BoardMatches(MP.Board(last, tracker, raw, hist))
  {
  }
}

=== FILE: swap_manager.dfy ===
/** The swap manager of the browser (`swapManager.js`): sizing an AI-recommended swap,
    the checks and routing of the two swap directions, the list of recent swaps, and the
    KyberSwap amount guards and reply decoding. Providers, signers, the confirmation
    dialog, the HTTP call and the transactions are left out; their answers are inputs. */
module SwapManager {
  import opened Common
  import SmartAccount

  /** ETH kept back for gas on an ETH sale: 0.0002 ETH in wei. */
  const GasBufferWei: nat := 200_000_000_000_000
  /** KyberSwap's marker address for native ETH. */
  const KyberEthAddress := "0xEeeeeEeeeEeEeeEeEeEeeEEEeeeeEeeeeeeeEEeE"
  /** The same marker in lower case. */
  const KyberEthLower := "0xeeeeeeeeeeeeeeeeeeeeeeeeeeeeeeeeeeeeeeee"
  /** Smallest native input KyberSwap is asked to route: 0.001 ETH in wei. */
  const KyberMinEthWei: nat := 1_000_000_000_000_000
  /** Smallest token input KyberSwap is asked to route: 1 USDC in six-decimal units. */
  const KyberMinUsdc: nat := 1_000_000
  /** The only chain routed through KyberSwap (Linea). */
  const KyberChain: int := 59144
  /** How many swaps the recent list keeps. */
  const RecentCap: nat := 10

  // ---------------------------------------------------------------- chains

  /** The USDC token of a supported chain; the local chain uses the testnet token. */
  function ChainUsdc(chainId: int): (u: Option<string>)
    ensures u.Some? <==> chainId in {1, 59144, 59140, 31337}
    ensures chainId == 1 ==> u == Some(SmartAccount.UsdcEthereum)
    ensures chainId == 59144 ==> u == Some(SmartAccount.UsdcLinea)
    ensures chainId == 59140 || chainId == 31337 ==> u == Some(SmartAccount.UsdcLineaTestnet)
  {
    if chainId == 1 then Some(SmartAccount.UsdcEthereum)
    else if chainId == 59144 then Some(SmartAccount.UsdcLinea)
    else if chainId == 59140 then Some(SmartAccount.UsdcLineaTestnet)
    else if chainId == 31337 then Some(SmartAccount.UsdcLineaTestnet)
    else None
  }

  /** The swap manager's table and the one `executeSwap` consults (keyed by the chain id
      as text) give the same token on every supported chain. */
  lemma ChainTablesAgree()
    ensures SmartAccount.UsdcFor("1") == ChainUsdc(1)
    ensures SmartAccount.UsdcFor("59144") == ChainUsdc(59144)
    ensures SmartAccount.UsdcFor("59140") == ChainUsdc(59140)
    ensures SmartAccount.UsdcFor("31337") == ChainUsdc(31337)
  {
  }

  // ---------------------------------------------------------------- sizing

  /** A balance as read with `|| 0`: `None` is any falsy value (missing, zero or NaN). */
  function OrZero(x: Option<real>): real
  {
    if x.Some? then x.value else 0.0
  }

  /** The confidence-scaled share of the balance: up to 30 % of it. */
  function Scaled(balance: real, confidence: real): real
  {
    balance * (confidence * 0.3)
  }

  /** The swap size for a balance: 30 % of it scaled by the confidence, raised to at least
      the smaller of `floor` and 10 % of the balance, then cut to at most 90 % of it. */
  function SwapAmount(balance: real, confidence: real, floor: real): (amount: real)
    ensures amount <= balance * 0.9
    ensures balance >= 0.0 ==> Min(floor, balance * 0.1) <= amount
    ensures Min(floor, balance * 0.1) <= Scaled(balance, confidence) <= balance * 0.9 ==>
      amount == Scaled(balance, confidence)
  {
    var raised := Max(Scaled(balance, confidence), Min(floor, balance * 0.1));
    Min(raised, balance * 0.9)
  }

  /** For a non-negative balance the size stays within its bounds whatever the confidence,
      and a confident model never swaps less than a doubtful one. */
  lemma SwapAmountBounds(balance: real, c1: real, c2: real, floor: real)
    requires balance >= 0.0 && c1 <= c2
    ensures Min(floor, balance * 0.1) <= SwapAmount(balance, c1, floor) <= balance * 0.9
    ensures SwapAmount(balance, c1, floor) <= SwapAmount(balance, c2, floor)
  {
    var d := (c2 - c1) * 0.3;
    assert balance * d >= 0.0 by { NonNegativeProduct(balance, d); }
    assert Scaled(balance, c2) == Scaled(balance, c1) + balance * d;
  }

  lemma NonNegativeProduct(a: real, b: real)
    requires a >= 0.0 && b >= 0.0
    ensures a * b >= 0.0
  {
  }

  datatype Balances = Balances(eth: Option<real>, usdc: Option<real>, ethusd: Option<real>)

  /** The swap an AI recommendation asks for: USDC spent on a BUY, ETH sold on a SELL. */
  datatype SwapRequest = UsdcToEth(usdcAmount: real) | EthToUsdc(ethAmount: real)

  datatype AiSwapError = NoWallet | NoBalances | InvalidAction | InvalidEthPrice

  /** The USDC floor of a BUY and the ETH floor of a SELL. */
  const BuyFloor: real := 10.0
  const SellFloor: real := 0.01

  /** The checks and sizing of `executeAIRecommendedSwap`, in the order the code makes
      them. */
  function ExecuteAIRecommendedSwap(userAccount: JsString, balances: Option<Balances>, action: string,
                                    confidence: real): (r: Result<SwapRequest, AiSwapError>)
    ensures !Truthy(userAccount) ==> r == Err(NoWallet)
    ensures r.Ok? <==> (
      && Truthy(userAccount) && balances.Some?
      && (action == "BUY" || action == "SELL")
      && OrZero(balances.value.ethusd) > 0.0)
    ensures r.Ok? && action == "BUY" ==> r.value == UsdcToEth(SwapAmount(OrZero(balances.value.usdc), confidence, BuyFloor))
    ensures r.Ok? && action == "SELL" ==> r.value == EthToUsdc(SwapAmount(OrZero(balances.value.eth), confidence, SellFloor))
  {
    if !Truthy(userAccount) then Err(NoWallet)
    else if balances.None? then Err(NoBalances)
    else if action != "BUY" && action != "SELL" then Err(InvalidAction)
    else
      var b := balances.value;
      if OrZero(b.ethusd) <= 0.0 then Err(InvalidEthPrice)
      else if action == "BUY" then Ok(UsdcToEth(SwapAmount(OrZero(b.usdc), confidence, BuyFloor)))
      else Ok(EthToUsdc(SwapAmount(OrZero(b.eth), confidence, SellFloor)))
  }

  /** Whatever the confidence, a recommended swap never spends more than 90 % of the
      balance it draws on, and never a negative amount when that balance is not
      negative. */
  lemma RecommendedSwapWithinBalance(userAccount: JsString, balances: Balances, action: string, confidence: real)
    requires ExecuteAIRecommendedSwap(userAccount, Some(balances), action, confidence).Ok?
    ensures var req := ExecuteAIRecommendedSwap(userAccount, Some(balances), action, confidence).value;
      && (req.UsdcToEth? ==> req.usdcAmount <= OrZero(balances.usdc) * 0.9
                             && (OrZero(balances.usdc) >= 0.0 ==> req.usdcAmount >= 0.0))
      && (req.EthToUsdc? ==> req.ethAmount <= OrZero(balances.eth) * 0.9
                             && (OrZero(balances.eth) >= 0.0 ==> req.ethAmount >= 0.0))
  {
    var usdc, eth := OrZero(balances.usdc), OrZero(balances.eth);
    if action == "BUY" {
      var a := SwapAmount(usdc, confidence, BuyFloor);
      assert ExecuteAIRecommendedSwap(userAccount, Some(balances), action, confidence).value == UsdcToEth(a);
      if usdc >= 0.0 {
        assert Min(BuyFloor, usdc * 0.1) >= 0.0;
      }
    } else {
      var a := SwapAmount(eth, confidence, SellFloor);
      assert ExecuteAIRecommendedSwap(userAccount, Some(balances), action, confidence).value == EthToUsdc(a);
      if eth >= 0.0 {
        assert Min(SellFloor, eth * 0.1) >= 0.0;
      }
    }
  }

  // ---------------------------------------------------------------- the two directions

  /** How a confirmed swap is carried out: through KyberSwap on Linea, through the
      SimpleSwap contract elsewhere. */
  datatype Route =
    | Kyber(tokenIn: string, tokenOut: string, amount: nat)
    | Simple(fromToken: string, toToken: string, amount: nat, useGasToken: bool)

  datatype Refusal = NoProvider | NotConnected | NotEnoughEth | UnsupportedNetwork(chainId: int)

  datatype Outcome = Refused(reason: Refusal) | Cancelled | Routed(route: Route)

  /** The route for a chain whose USDC token is `usdc`. */
  function RouteFor(chainId: int, tokenIn: string, tokenOut: string, amount: nat, useGasToken: bool): Route
  {
    if chainId == KyberChain then Kyber(tokenIn, tokenOut, amount)
    else Simple(tokenIn, tokenOut, amount, useGasToken)
  }

  /** `swapEthToUsdc` for `ethWei` with an ETH balance of `balanceWei`: the gas reserve is
      checked before the chain, and the user's confirmation last. */
  function SwapEthToUsdc(provider: bool, userAccount: JsString, ethWei: nat, balanceWei: nat,
                         chainId: int, confirmed: bool, useGasToken: bool): (o: Outcome)
    ensures provider && Truthy(userAccount) && ethWei + GasBufferWei > balanceWei ==> o == Refused(NotEnoughEth)
    ensures o.Routed? <==> (
      && provider && Truthy(userAccount) && ethWei + GasBufferWei <= balanceWei
      && ChainUsdc(chainId).Some? && confirmed)
    ensures o.Routed? && chainId == KyberChain ==>
      o.route == Kyber(KyberEthAddress, SmartAccount.UsdcLinea, ethWei)
    ensures o.Routed? && chainId != KyberChain ==>
      o.route == Simple(SmartAccount.NativeEth, ChainUsdc(chainId).value, ethWei, useGasToken)
  {
    if !provider then Refused(NoProvider)
    else if !Truthy(userAccount) then Refused(NotConnected)
    else if ethWei + GasBufferWei > balanceWei then Refused(NotEnoughEth)
    else match ChainUsdc(chainId)
      case None => Refused(UnsupportedNetwork(chainId))
      case Some(usdc) =>
        if !confirmed then Cancelled
        else if chainId == KyberChain then Routed(Kyber(KyberEthAddress, usdc, ethWei))
        else Routed(Simple(SmartAccount.NativeEth, usdc, ethWei, useGasToken))
  }

  /** `swapUsdcToEth` for `usdcUnits` six-decimal units: no reserve check. */
  function SwapUsdcToEth(provider: bool, userAccount: JsString, usdcUnits: nat,
                         chainId: int, confirmed: bool, useGasToken: bool): (o: Outcome)
    ensures o.Routed? <==> provider && Truthy(userAccount) && ChainUsdc(chainId).Some? && confirmed
    ensures o.Routed? && chainId == KyberChain ==>
      o.route == Kyber(SmartAccount.UsdcLinea, KyberEthAddress, usdcUnits)
    ensures o.Routed? && chainId != KyberChain ==>
      o.route == Simple(ChainUsdc(chainId).value, SmartAccount.NativeEth, usdcUnits, useGasToken)
  {
    if !provider then Refused(NoProvider)
    else if !Truthy(userAccount) then Refused(NotConnected)
    else match ChainUsdc(chainId)
      case None => Refused(UnsupportedNetwork(chainId))
      case Some(usdc) =>
        if !confirmed then Cancelled
        else if chainId == KyberChain then Routed(Kyber(usdc, KyberEthAddress, usdcUnits))
        else Routed(Simple(usdc, SmartAccount.NativeEth, usdcUnits, useGasToken))
  }

  /** An ETH sale that would eat into the gas reserve is refused even on an unsupported
      chain: the reserve is checked first. */
  lemma ReserveCheckedBeforeChain(userAccount: JsString, ethWei: nat, balanceWei: nat, confirmed: bool, useGasToken: bool)
    requires Truthy(userAccount) && ethWei + GasBufferWei > balanceWei
    ensures SwapEthToUsdc(true, userAccount, ethWei, balanceWei, 5, confirmed, useGasToken) == Refused(NotEnoughEth)
    ensures SwapUsdcToEth(true, userAccount, ethWei, 5, confirmed, useGasToken) == Refused(UnsupportedNetwork(5))
  {
  }

  /** A SimpleSwap route of an ETH sale is exactly the native path of `executeSwap`, and
      that of a USDC spend its token path; on the testnet the contract is missing. */
  lemma SimpleRoutesMeetExecuteSwap(chainId: int, ethWei: nat, balanceWei: nat, allowance: nat)
    requires chainId == 31337
    requires ethWei + GasBufferWei <= balanceWei
    ensures var o := SwapEthToUsdc(true, Some("0xa"), ethWei, balanceWei, chainId, true, false);
      o.Routed? && SmartAccount.ExecuteSwap("31337", o.route.fromToken, o.route.amount, allowance)
        == Ok(SmartAccount.SwapEthToUsdc(SmartAccount.DeployedSimpleSwap["31337"], ethWei))
    ensures var o := SwapUsdcToEth(true, Some("0xa"), ethWei, chainId, true, false);
      o.Routed? && SmartAccount.ExecuteSwap("31337", o.route.fromToken, o.route.amount, allowance)
        == Ok(SmartAccount.SwapUsdcToEth(SmartAccount.DeployedSimpleSwap["31337"], SmartAccount.UsdcLineaTestnet,
                                         allowance < ethWei, ethWei))
  {
    assert SmartAccount.UsdcLineaTestnet != SmartAccount.NativeEth by {
      assert SmartAccount.UsdcLineaTestnet[3] != SmartAccount.NativeEth[3];
    }
  }

  // ---------------------------------------------------------------- recent swaps

  datatype SwapStatus = Pending | Successful | Failed

  datatype SwapRecord = SwapRecord(
    timestamp: int, chainId: int, txHash: string, fromToken: string, toToken: string,
    fromAmount: real, estimatedToAmount: real, status: SwapStatus)

  /** The record of a finished ETH sale: the USDC estimate is the amount at the ETH price. */
  function EthSaleRecord(now: int, chainId: int, txHash: string, ethAmount: real, ethusd: real): (r: SwapRecord)
    ensures r.fromToken == "ETH" && r.toToken == "USDC" && r.status == Successful
    ensures r.estimatedToAmount == ethAmount * ethusd
  {
    SwapRecord(now, chainId, txHash, "ETH", "USDC", ethAmount, ethAmount * ethusd, Successful)
  }

  /** The record of a finished USDC spend: the ETH estimate is the amount over the ETH
      price, or 0 without a price. */
  function UsdcSpendRecord(now: int, chainId: int, txHash: string, usdcAmount: real, ethusd: real): (r: SwapRecord)
    ensures r.fromToken == "USDC" && r.toToken == "ETH" && r.status == Successful
    ensures ethusd > 0.0 ==> r.estimatedToAmount * ethusd == usdcAmount
    ensures ethusd <= 0.0 ==> r.estimatedToAmount == 0.0
  {
    SwapRecord(now, chainId, txHash, "USDC", "ETH", usdcAmount, if ethusd > 0.0 then usdcAmount / ethusd else 0.0, Successful)
  }

  /** `unshift` the record, then `pop` once when more than ten are held. */
  function RecordSwap(recent: seq<SwapRecord>, r: SwapRecord): (res: seq<SwapRecord>)
    ensures |res| > 0 && res[0] == r
    ensures |recent| < RecentCap ==> res == [r] + recent
    ensures |recent| >= RecentCap ==> |res| == |recent| && res[1..] == recent[..|recent| - 1]
    ensures |recent| <= RecentCap ==> |res| <= RecentCap
  {
    var pushed := [r] + recent;
    if |pushed| > RecentCap then pushed[..|pushed| - 1] else pushed
  }

  /** The list after recording `rs` in order. */
  function RecordAll(recent: seq<SwapRecord>, rs: seq<SwapRecord>): seq<SwapRecord>
    decreases |rs|
  {
    if rs == [] then recent else RecordAll(RecordSwap(recent, rs[0]), rs[1..])
  }

  /** Starting empty, the list holds the last (at most) ten swaps, newest first. */
  lemma {:induction false} RecentSwapsNewestFirst(rs: seq<SwapRecord>)
    ensures var res := RecordAll([], rs);
      && |res| == (if |rs| < RecentCap then |rs| else RecentCap)
      && forall i | 0 <= i < |res| :: res[i] == rs[|rs| - 1 - i]
  {
    RecordAllFrom([], rs);
    ReverseIndex(rs);
    assert Reverse(rs) + [] == Reverse(rs);
  }

  /** Recording `rs` onto `recent` gives the reversed `rs` in front of `recent`, cut to ten. */
  lemma {:induction false} RecordAllFrom(recent: seq<SwapRecord>, rs: seq<SwapRecord>)
    requires |recent| <= RecentCap
    ensures var all := Reverse(rs) + recent;
      RecordAll(recent, rs) == all[..if |all| < RecentCap then |all| else RecentCap]
    decreases |rs|
  {
    if rs != [] {
      var r0, rest := rs[0], rs[1..];
      var next := RecordSwap(recent, r0);
      assert RecordAll(recent, rs) == RecordAll(next, rest);
      RecordAllFrom(next, rest);
      var pushed := [r0] + recent;
      ReverseThenRecent(rs, recent);
      if |recent| < RecentCap {
        assert next == pushed;
      } else {
        assert next == pushed[..RecentCap];
        PrefixOfPrefix(Reverse(rest), pushed, RecentCap);
      }
    }
  }

  lemma ReverseThenRecent<T>(rs: seq<T>, recent: seq<T>)
    requires rs != []
    ensures Reverse(rs) + recent == Reverse(rs[1..]) + ([rs[0]] + recent)
  {
    var a, b := Reverse(rs[1..]), [rs[0]];
    assert Reverse(rs) == a + b;
    AppendAssoc(a, b, recent);
  }

  lemma AppendAssoc<T>(a: seq<T>, b: seq<T>, c: seq<T>)
    ensures (a + b) + c == a + (b + c)
  {
  }

  /** Once ten entries are kept, dropping the tail of the older part changes nothing. */
  lemma PrefixOfPrefix<T>(a: seq<T>, b: seq<T>, k: nat)
    requires RecentCap <= k <= |b|
    ensures (a + b[..k])[..RecentCap] == (a + b)[..RecentCap]
  {
    assert a + b[..k] == (a + b)[..|a| + k];
  }

  function Reverse<T>(s: seq<T>): (r: seq<T>)
    ensures |r| == |s|
  {
    if s == [] then [] else Reverse(s[1..]) + [s[0]]
  }

  lemma {:induction false} ReverseIndex<T>(s: seq<T>)
    ensures forall i | 0 <= i < |s| :: Reverse(s)[i] == s[|s| - 1 - i]
  {
    if s != [] {
      ReverseIndex(s[1..]);
      assert Reverse(s) == Reverse(s[1..]) + [s[0]];
    }
  }

  // ---------------------------------------------------------------- KyberSwap

  /** KyberSwap's native-ETH marker is recognised whatever the letter case. */
  predicate IsKyberNative(token: string)
  {
    Lower(token) == KyberEthLower
  }

  datatype KyberError =
    | TooLittleEth | TooLittleUsdc
    | ApiMessage(message: string) | NoRoute | ApiCode(code: Option<int>) | UnexpectedReply

  /** The amount guard of `executeKyberSwap`, in wei or six-decimal token units. */
  function KyberGuard(tokenIn: string, amount: nat): (r: Option<KyberError>)
    ensures r.None? <==> (if IsKyberNative(tokenIn) then amount >= KyberMinEthWei else amount >= KyberMinUsdc)
    ensures r.Some? ==> r.value == (if IsKyberNative(tokenIn) then TooLittleEth else TooLittleUsdc)
  {
    if IsKyberNative(tokenIn) && amount < KyberMinEthWei then Some(TooLittleEth)
    else if !IsKyberNative(tokenIn) && amount < KyberMinUsdc then Some(TooLittleUsdc)
    else None
  }

  lemma LowerOfUpper(s: string)
    ensures Lower(Upper(s)) == Lower(s)
  {
    assert forall i | 0 <= i < |s| :: LowerChar(UpperChar(s[i])) == LowerChar(s[i]);
  }

  /** Changing the letter case of the input token never changes the guard's verdict. */
  lemma KyberGuardIgnoresCase(token: string, amount: nat)
    ensures KyberGuard(Upper(token), amount) == KyberGuard(token, amount)
    ensures KyberGuard(Lower(token), amount) == KyberGuard(token, amount)
  {
    LowerOfUpper(token);
    LowerIdempotent(token);
  }


  /** What the route/encode call returns: calldata, router and the optional value. */
  datatype SwapInfo = SwapInfo(encodedSwapData: JsString, routerAddress: JsString, transactionValue: Option<nat>)

  /** `code` of a legacy reply: absent, `null`, or a number. */
  datatype Code = NoCode | NullCode | CodeValue(n: int)

  /** The decoded JSON reply: the top-level swap fields, and the legacy `code`, `data`
      (`None` for a falsy value) and `message`. */
  datatype KyberReply = KyberReply(top: SwapInfo, code: Code, data: Option<SwapInfo>, message: JsString)

  /** `kyberGetEncodedSwap`'s decoding: top-level calldata wins; a legacy reply with code
      0 and data gives the data; any other legacy reply fails with its message, or the
      no-route text for 4008, or its code (`None` for a `null` code, which the error text
      shows as "null"); anything else is unexpected. */
  function DecodeKyberReply(reply: KyberReply): (r: Result<SwapInfo, KyberError>)
    ensures Truthy(reply.top.encodedSwapData) ==> r == Ok(reply.top)
    ensures !Truthy(reply.top.encodedSwapData) && reply.code.NoCode? ==> r == Err(UnexpectedReply)
    ensures !Truthy(reply.top.encodedSwapData) && !reply.code.NoCode? ==> (
      && (r.Ok? <==> reply.code == CodeValue(0) && reply.data.Some?)
      && (r.Ok? ==> r.value == reply.data.value)
      && (r.Err? && Truthy(reply.message) ==> r.error == ApiMessage(reply.message.value))
      && (r.Err? && !Truthy(reply.message) && reply.code == CodeValue(4008) ==> r.error == NoRoute)
      && (r.Err? && !Truthy(reply.message) && reply.code.CodeValue? && reply.code.n != 4008 ==>
            r.error == ApiCode(Some(reply.code.n)))
      && (r.Err? && !Truthy(reply.message) && reply.code.NullCode? ==> r.error == ApiCode(None)))
  {
    if Truthy(reply.top.encodedSwapData) then Ok(reply.top)
    else if reply.code.NoCode? then Err(UnexpectedReply)
    else if reply.code == CodeValue(0) && reply.data.Some? then Ok(reply.data.value)
    else if Truthy(reply.message) then Err(ApiMessage(reply.message.value))
    else if reply.code == CodeValue(4008) then Err(NoRoute)
    else if reply.code.CodeValue? then Err(ApiCode(Some(reply.code.n)))
    else Err(ApiCode(None))
  }

  /** Both reply formats carry a quote the same way: the quote as top-level fields, or
      under `data` with code 0, decodes to that quote. */
  lemma KyberFormatsAgree(info: SwapInfo, legacyTop: SwapInfo, message: JsString)
    requires Truthy(info.encodedSwapData) && !Truthy(legacyTop.encodedSwapData)
    ensures DecodeKyberReply(KyberReply(info, NoCode, None, message)) == Ok(info)
    ensures DecodeKyberReply(KyberReply(legacyTop, CodeValue(0), Some(info), message)) == Ok(info)
  {
  }

  /** A legacy reply whose code is not 0, or whose data is missing, never reaches the
      router, whatever the amount and allowance. */
  lemma KyberErrorReplySendsNothing(tokenIn: string, amount: nat, reply: KyberReply, allowance: nat)
    requires !Truthy(reply.top.encodedSwapData) && !reply.code.NoCode?
    requires reply.code != CodeValue(0) || reply.data.None?
    ensures ExecuteKyberSwap(tokenIn, amount, reply, allowance).Err?
  {
  }

  /** The router transaction of a Kyber swap, after the approval when there is one. */
  datatype KyberTx = KyberTx(approve: bool, to: JsString, data: JsString, value: nat)

  /** The router transaction for a decoded quote: an ERC-20 input is approved when the
      allowance is short; the quoted value is sent, or else the amount for native input
      and nothing otherwise. */
  function KyberTxFor(tokenIn: string, amount: nat, info: SwapInfo, allowance: nat): (tx: KyberTx)
    ensures tx.to == info.routerAddress && tx.data == info.encodedSwapData
    ensures tx.approve <==> !IsKyberNative(tokenIn) && allowance < amount
    ensures info.transactionValue.Some? ==> tx.value == info.transactionValue.value
    ensures info.transactionValue.None? && IsKyberNative(tokenIn) ==> tx.value == amount
    ensures info.transactionValue.None? && !IsKyberNative(tokenIn) ==> tx.value == 0
  {
    var value := if info.transactionValue.Some? then info.transactionValue.value
                 else if IsKyberNative(tokenIn) then amount else 0;
    KyberTx(!IsKyberNative(tokenIn) && allowance < amount, info.routerAddress, info.encodedSwapData, value)
  }

  /** `executeKyberSwap` with the signer's `allowance` for the router: guard, decode,
      approve an ERC-20 input when the allowance is short, then send with the quoted value,
      or else the amount for native input and nothing otherwise. */
  function ExecuteKyberSwap(tokenIn: string, amount: nat, reply: KyberReply, allowance: nat)
    : (r: Result<KyberTx, KyberError>)
    ensures KyberGuard(tokenIn, amount).Some? ==> r == Err(KyberGuard(tokenIn, amount).value)
    ensures r.Ok? <==> KyberGuard(tokenIn, amount).None? && DecodeKyberReply(reply).Ok?
    ensures r.Ok? ==> r.value == KyberTxFor(tokenIn, amount, DecodeKyberReply(reply).value, allowance)
  {
    var guard := KyberGuard(tokenIn, amount);
    if guard.Some? then Err(guard.value)
    else
      var decoded := DecodeKyberReply(reply);
      if decoded.Err? then Err(decoded.error)
      else Ok(KyberTxFor(tokenIn, amount, decoded.value, allowance))
  }

  /** Native input never needs an approval, and without a quoted value it carries exactly
      the amount swapped. */
  lemma NativeInputCarriesItsValue(tokenIn: string, amount: nat, reply: KyberReply, allowance: nat)
    requires IsKyberNative(tokenIn)
    requires ExecuteKyberSwap(tokenIn, amount, reply, allowance).Ok?
    requires DecodeKyberReply(reply).value.transactionValue.None?
    ensures var tx := ExecuteKyberSwap(tokenIn, amount, reply, allowance).value;
      !tx.approve && tx.value == amount && amount >= KyberMinEthWei
  {
  }
}

=== FILE: update_addresses.dfy ===
/** The address-update script (`scripts/update-contract-addresses.js`): from its command
    line it fills in the deployed-contract table that the browser's smart-account code
    reads. Reading and rewriting the file are left out; the table is the result. */
module UpdateAddresses {
  import opened Common

  /** `CONTRACT_ADDRESSES`: the smart account and the SimpleSwap address per chain id. */
  datatype ContractAddresses = ContractAddresses(smartAccount: string, simpleSwap: map<string, string>)

  /** The table the script starts from: every entry empty. */
  const Blank := ContractAddresses("", map["59144" := "", "59140" := "", "31337" := ""])

  /** The chain the script assumes when none is given. */
  const DefaultChain := "59140"

  /** `getNetworkName`. */
  function GetNetworkName(chainId: string): (name: string)
    ensures chainId == "59144" ==> name == "Linea Mainnet"
    ensures chainId == "59140" ==> name == "Linea Testnet"
    ensures chainId == "31337" ==> name == "Local Hardhat Network"
    ensures chainId !in {"59144", "59140", "31337"} ==> name == "Unknown Network"
  {
    if chainId == "59144" then "Linea Mainnet"
    else if chainId == "59140" then "Linea Testnet"
    else if chainId == "31337" then "Local Hardhat Network"
    else "Unknown Network"
  }

  datatype UsageError = NoContractAddress

  /** The script's `main` on its arguments: the first is the SimpleSwap address, the second
      the chain id (the testnet by default), and a third the smart account, kept only for
      the local chain. No argument is a usage error. */
  function UpdateFromArgs(args: seq<string>): (r: Result<ContractAddresses, UsageError>)
    ensures r.Err? <==> args == []
    ensures r.Ok? ==>
      var chainId := if |args| >= 2 then args[1] else DefaultChain;
      && r.value.simpleSwap == Blank.simpleSwap[chainId := args[0]]
      && r.value.smartAccount == (if chainId == "31337" && |args| >= 3 then args[2] else "")
  {
    if args == [] then Err(NoContractAddress)
    else
      var chainId := if |args| >= 2 then args[1] else DefaultChain;
      var withSwap := Blank.(simpleSwap := Blank.simpleSwap[chainId := args[0]]);
      Ok(if chainId == "31337" && |args| >= 3 then withSwap.(smartAccount := args[2]) else withSwap)
  }

  /** Only the named chain's entry is written; the other known chains keep an empty
      address, and a smart account given for any other chain is ignored. */
  lemma OnlyNamedChainWritten(args: seq<string>, other: string)
    requires |args| >= 2 && other in Blank.simpleSwap && other != args[1]
    ensures var r := UpdateFromArgs(args);
      && r.Ok? && r.value.simpleSwap[args[1]] == args[0] && r.value.simpleSwap[other] == ""
      && (args[1] != "31337" ==> r.value.smartAccount == "")
  {
  }

  /** A lone address goes to the testnet entry. */
  lemma LoneAddressGoesToTestnet(address: string)
    ensures UpdateFromArgs([address]) == Ok(ContractAddresses("", map["59144" := "", "59140" := address, "31337" := ""]))
  {
    var expected := map["59144" := "", "59140" := address, "31337" := ""];
    assert Blank.simpleSwap[DefaultChain := address].Keys == expected.Keys;
    assert Blank.simpleSwap[DefaultChain := address] == expected;
  }
}

=== FILE: utils.dfy ===
/** The page utilities (`utils.js`): how a notification message is laid out, and where a
    log line goes. The DOM, timers and the log post itself are left out. */
module Utils {
  import opened Common

  /** One line of a notification, as `<div>line</div>`. */
  function WrapLine(line: string): string
  {
    "<div>" + line + "</div>"
  }

  function WrapAll(lines: seq<string>): (r: seq<string>)
    ensures |r| == |lines|
    ensures forall i | 0 <= i < |lines| :: r[i] == WrapLine(lines[i])
  {
    if lines == [] then [] else [WrapLine(lines[0])] + WrapAll(lines[1..])
  }

  function Concat(parts: seq<string>): string
  {
    if parts == [] then "" else parts[0] + Concat(parts[1..])
  }

  /** The formatted message of `showNotification`: the message split at line breaks, each
      line wrapped in a `div`, all joined without separator. */
  function FormatMessage(message: string): (r: string)
    ensures '\n' !in r
    ensures r == Concat(WrapAll(Split(message, '\n')))
  {
    var lines := Split(message, '\n');
    NoNewlineInWrapped(lines);
    Concat(WrapAll(lines))
  }

  lemma {:induction false} NoNewlineInWrapped(lines: seq<string>)
    requires forall i | 0 <= i < |lines| :: '\n' !in lines[i]
    ensures '\n' !in Concat(WrapAll(lines))
    decreases |lines|
  {
    if lines != [] {
      assert WrapAll(lines)[1..] == WrapAll(lines[1..]);
      NoNewlineInWrapped(lines[1..]);
      assert '\n' !in WrapLine(lines[0]);
    }
  }

  /** There is one wrapper per line, that is one more than the message has line breaks,
      and the wrapped lines joined by line breaks give back the message. */
  lemma FormatMessageLines(message: string)
    ensures var lines := Split(message, '\n');
      && |WrapAll(lines)| == CountChar(message, '\n') + 1
      && Join(lines, "\n") == message
      && (forall i | 0 <= i < |lines| :: WrapAll(lines)[i] == "<div>" + lines[i] + "</div>")
  {
    SplitCount(message, '\n');
    JoinSplit(message, '\n');
  }

  /** A message without line breaks is a single wrapper. */
  lemma SingleLineMessage(message: string)
    requires '\n' !in message
    ensures FormatMessage(message) == "<div>" + message + "</div>"
  {
    assert IndexOf(message, '\n') == |message|;
    assert Split(message, '\n') == [message];
    assert WrapAll([message]) == [WrapLine(message)];
    assert Concat([WrapLine(message)]) == WrapLine(message) + "";
  }

  /** The notification element: its class (the type, "info" by default) and the formatted
      message. */
  datatype Notification = Notification(className: string, body: string)

  function ShowNotification(message: string, kind: Option<string>): (n: Notification)
    ensures n.className == "notification " + (if kind.Some? then kind.value else "info")
    ensures n.body == FormatMessage(message)
  {
    Notification("notification " + (if kind.Some? then kind.value else "info"), FormatMessage(message))
  }

  // ---------------------------------------------------------------- logging

  datatype Console = ConsoleError | ConsoleWarn | ConsoleLog

  /** The body posted to the server. */
  datatype LogPost = LogPost(level: string, message: string)

  /** `logToServer(level, message)`: the console method chosen by the level, and the post
      sent for errors and warnings only. */
  function LogToServer(level: string, message: string): (r: (Console, Option<LogPost>))
    ensures r.0 == ConsoleError <==> level == "error"
    ensures r.0 == ConsoleWarn <==> level == "warn"
    ensures r.0 == ConsoleLog <==> level != "error" && level != "warn"
    ensures r.1.Some? <==> level == "error" || level == "warn"
    ensures r.1.Some? ==> r.1.value == LogPost(level, message)
  {
    var console := if level == "error" then ConsoleError else if level == "warn" then ConsoleWarn else ConsoleLog;
    var post := if level == "error" || level == "warn" then Some(LogPost(level, message)) else None;
    (console, post)
  }

  /** The name of a console method, as the level text that selects it. */
  function ConsoleMethodName(c: Console): string
  {
    match c
    case ConsoleError => "error"
    case ConsoleWarn => "warn"
    case ConsoleLog => "log"
  }

  /** The server sees exactly the lines that do not go to `console.log`, under the name
      of the console method that printed them and with the same message. */
  lemma PostMirrorsConsole(level: string, message: string)
    ensures var (c, post) := LogToServer(level, message);
      && (post.Some? <==> c != ConsoleLog)
      && (post.Some? ==> post.value == LogPost(ConsoleMethodName(c), message))
  {
  }
}

=== FILE: wallet_core.dfy ===
/** The non-visual wallet logic of the browser (`walletCore.js`): address abbreviation, the
    list of accounts the user disconnected, the connect/disconnect toggle, the reaction to
    an account change, and the once-only installation of the wallet event listeners.
    MetaMask, providers and the balance fetch are left out; what they return is an input. */
module WalletCore {
  import opened Common

  // ---------------------------------------------------------------- addresses

  /** `/^0x[a-fA-F0-9]{40}$/`. */
  predicate IsAddress(a: string)
  {
    |a| == 42 && a[0] == '0' && a[1] == 'x' && forall i | 2 <= i < 42 :: IsHexDigit(a[i])
  }

  /** `slice(0, 6) + "..." + slice(-4)` of a text longer than ten characters. */
  function Abbreviate(a: string): (r: string)
    requires |a| > 10
    ensures |r| == 13
    ensures r[..6] == a[..6] && r[6..9] == "..." && r[9..] == a[|a| - 4..]
  {
    a[..6] + "..." + a[|a| - 4..]
  }

  /** `formatWalletAddress`: empty stays empty, texts of at most ten characters that are not
      addresses are kept, everything else is abbreviated. */
  function FormatWalletAddress(a: string): (r: string)
    ensures a == "" ==> r == ""
    ensures IsAddress(a) ==> |r| == 13 && IsPrefix(a[..6], r) && r[6..9] == "..." && r[9..] == a[38..]
    ensures !IsAddress(a) && |a| <= 10 ==> r == a
    ensures |a| > 10 ==> r == Abbreviate(a)
    ensures |r| <= 13
  {
    if a == "" then ""
    else if !IsAddress(a) && |a| <= 10 then a
    else Abbreviate(a)
  }

  /** Two addresses with the same first six and last four characters cannot be told apart
      once formatted, and every formatted address starts with "0x". */
  lemma FormattedAddressKeepsEnds(a: string, b: string)
    requires IsAddress(a) && IsAddress(b)
    ensures FormatWalletAddress(a)[..2] == "0x"
    ensures FormatWalletAddress(a) == FormatWalletAddress(b) <==> a[..6] == b[..6] && a[38..] == b[38..]
  {
    var ra, rb := FormatWalletAddress(a), FormatWalletAddress(b);
    if ra == rb {
      assert a[..6] == ra[..6] == rb[..6] == b[..6];
      assert a[38..] == ra[9..] == rb[9..] == b[38..];
    }
  }

  // ---------------------------------------------------------------- disconnected accounts

  predicate NoDuplicates(l: seq<string>)
  {
    forall i, j | 0 <= i < j < |l| :: l[i] != l[j]
  }

  /** Remembering `account` as disconnected: its lower-case form is appended unless already
      present. */
  function RememberDisconnected(l: seq<string>, account: string): (r: seq<string>)
    ensures Lower(account) in r
    ensures Lower(account) in l ==> r == l
    ensures Lower(account) !in l ==> r == l + [Lower(account)]
    ensures NoDuplicates(l) ==> NoDuplicates(r)
  {
    if Lower(account) in l then l else l + [Lower(account)]
  }

  /** Index of the first occurrence, or `|l|` (JavaScript's -1). */
  function Find(l: seq<string>, x: string): (k: nat)
    ensures k <= |l|
    ensures k < |l| ==> l[k] == x
    ensures x !in l[..k]
  {
    if l == [] then 0 else if l[0] == x then 0 else 1 + Find(l[1..], x)
  }

  /** `indexOf` followed by `splice(idx, 1)`: the first occurrence of the lower-case
      account is removed. */
  function ForgetDisconnected(l: seq<string>, account: string): (r: seq<string>)
    ensures Lower(account) !in l ==> r == l
    ensures Lower(account) in l ==> |r| == |l| - 1
    ensures forall x | x in r :: x in l
    ensures NoDuplicates(l) ==> NoDuplicates(r) && Lower(account) !in r
  {
    var k := Find(l, Lower(account));
    if k == |l| then l
    else
      var r := l[..k] + l[k + 1..];
      assert forall i | 0 <= i < |r| :: r[i] == if i < k then l[i] else l[i + 1];
      r
  }

  /** Forgetting an account just remembered as disconnected gives the list back. */
  lemma ForgetUndoesRemember(l: seq<string>, account: string)
    requires Lower(account) !in l
    ensures ForgetDisconnected(RememberDisconnected(l, account), account) == l
  {
    var r := l + [Lower(account)];
    assert Find(r, Lower(account)) == |l| by {
      FindAppend(l, Lower(account));
    }
  }

  lemma {:induction false} FindAppend(l: seq<string>, x: string)
    requires x !in l
    ensures Find(l + [x], x) == |l|
  {
    if l != [] {
      assert (l + [x])[1..] == l[1..] + [x];
      FindAppend(l[1..], x);
    }
  }

  // ---------------------------------------------------------------- wallet state

  /** `window.walletBalances`. */
  datatype WalletBalances = WalletBalances(eth: real, usdc: real, ethusd: real, totalValueUsd: real)

  /** `resetWalletBalances`. */
  const ZeroBalances := WalletBalances(0.0, 0.0, 0.0, 0.0)

  /** What the requests of `getWalletBalances` return: the chain id, the ETH balance, the
      USDC balance the token contract reports, and the truthy `eth_price` of
      `/api/trading-data`, if any. */
  datatype Fetched = Fetched(chainId: int, eth: real, usdc: real, apiPrice: Option<real>)

  /** `getWalletBalances`. `connected` says whether an account and a provider are present;
      `fetched` holds the results of its requests, or `None` when the first request failed
      or has not settled, which leaves the balances zeroed before it. The known ETH price is
      kept, USDC is read only on Linea and Ethereum, a missing price is taken from the
      server, and the total is only computed with a price. */
  function GetWalletBalances(b: WalletBalances, connected: bool, fetched: Option<Fetched>): (r: WalletBalances)
    ensures !connected ==> r == ZeroBalances
    ensures connected && fetched.None? ==> r == WalletBalances(0.0, 0.0, b.ethusd, 0.0)
    ensures connected && b.ethusd != 0.0 ==> r.ethusd == b.ethusd
    ensures connected && fetched.Some? ==>
      && r.eth == fetched.value.eth
      && r.usdc == (if fetched.value.chainId in {1, 59144} then fetched.value.usdc else 0.0)
      && (b.ethusd == 0.0 && fetched.value.apiPrice.Some? ==> r.ethusd == fetched.value.apiPrice.value)
      && (r.ethusd != 0.0 ==> r.totalValueUsd == r.eth * r.ethusd + r.usdc)
      && (r.ethusd == 0.0 ==> r.totalValueUsd == 0.0)
  {
    if !connected then ZeroBalances
    else
      var start := WalletBalances(0.0, 0.0, b.ethusd, 0.0);
      match fetched
      case None => start
      case Some(f) =>
        var usdc := if f.chainId == 59144 || f.chainId == 1 then f.usdc else 0.0;
        var ethusd := if start.ethusd == 0.0 && f.apiPrice.Some? then f.apiPrice.value else start.ethusd;
        var total := if ethusd != 0.0 then f.eth * ethusd + usdc else 0.0;
        WalletBalances(f.eth, usdc, ethusd, total)
  }

  /** Nothing of the earlier balances but the ETH price survives a fetch: two wallets that
      know the same price end with the same balances. */
  lemma FetchReplacesOldBalances(b1: WalletBalances, b2: WalletBalances, connected: bool, fetched: Option<Fetched>)
    requires b1.ethusd == b2.ethusd
    ensures GetWalletBalances(b1, connected, fetched) == GetWalletBalances(b2, connected, fetched)
  {
  }

  /** The wallet globals: the connected account, the disconnected list, the balances, the
      account saved under the wallet key, whether `window.web3` is set, and the listener
      bookkeeping (`installed` is the guard flag, `installs` counts the installations). */
  datatype Wallet = Wallet(
    userAccount: JsString, disconnected: seq<string>, balances: WalletBalances,
    stored: Option<string>, web3: bool, installed: bool, installs: nat)

  /** `setupMetaMaskEventListeners`: listeners are installed only with a provider and only
      when not yet installed. */
  function SetupListeners(w: Wallet, hasProvider: bool): (r: Wallet)
    ensures r.installed <==> w.installed || hasProvider
    ensures r.installs == if hasProvider && !w.installed then w.installs + 1 else w.installs
    ensures r.(installed := w.installed, installs := w.installs) == w
  {
    if !hasProvider || w.installed then w
    else w.(installed := true, installs := w.installs + 1)
  }

  /** The guard keeps the listeners installed at most once: from a state where the count
      matches the flag, it still matches after any further setup call. */
  predicate ListenersOnce(w: Wallet)
  {
    w.installs == if w.installed then 1 else 0
  }

  lemma SetupKeepsListenersOnce(w: Wallet, hasProvider: bool)
    requires ListenersOnce(w)
    ensures ListenersOnce(SetupListeners(w, hasProvider))
    ensures SetupListeners(w, hasProvider).installs <= 1
  {
  }

  lemma {:induction false} RepeatedSetupInstallsOnce(w: Wallet, providers: seq<bool>)
    requires ListenersOnce(w)
    ensures ListenersOnce(SetupAll(w, providers))
    ensures SetupAll(w, providers).installs <= 1
    decreases |providers|
  {
    if providers != [] {
      SetupKeepsListenersOnce(w, providers[0]);
      RepeatedSetupInstallsOnce(SetupListeners(w, providers[0]), providers[1..]);
    }
  }

  /** Setup called once per entry of `providers`, each saying whether a provider exists. */
  function SetupAll(w: Wallet, providers: seq<bool>): Wallet
    decreases |providers|
  {
    if providers == [] then w else SetupAll(SetupListeners(w, providers[0]), providers[1..])
  }

  /** `connectWallet`: a connected wallet is disconnected (the account is remembered as
      disconnected, the provider dropped, the balances and the saved account cleared);
      otherwise, with a provider that returns at least one account, the first becomes the
      account, leaves the disconnected list and is saved, the balances are fetched (awaited)
      and the listeners are set up. */
  function ConnectWallet(w: Wallet, hasProvider: bool, accounts: seq<string>, fetched: Option<Fetched>): (r: Wallet)
    ensures Truthy(w.userAccount) ==>
      r == w.(userAccount := None, disconnected := RememberDisconnected(w.disconnected, w.userAccount.value),
              balances := ZeroBalances, stored := None, web3 := false)
    ensures !Truthy(w.userAccount) && (!hasProvider || accounts == []) ==> r == w
    ensures !Truthy(w.userAccount) && hasProvider && accounts != [] ==>
      && r.userAccount == Some(accounts[0]) && r.stored == Some(accounts[0]) && r.web3
      && r.disconnected == ForgetDisconnected(w.disconnected, accounts[0])
      && r.installed
      && r.balances == GetWalletBalances(w.balances, accounts[0] != "", fetched)
  {
    if Truthy(w.userAccount) then
      w.(userAccount := None, disconnected := RememberDisconnected(w.disconnected, w.userAccount.value),
         balances := ZeroBalances, stored := None, web3 := false)
    else if !hasProvider || accounts == [] then w
    else
      var connected := w.(userAccount := Some(accounts[0]), stored := Some(accounts[0]), web3 := true,
                          disconnected := ForgetDisconnected(w.disconnected, accounts[0]));
      var fetchedIn := connected.(balances := GetWalletBalances(w.balances, Truthy(connected.userAccount), fetched));
      SetupListeners(fetchedIn, hasProvider)
  }

  /** `handleAccountsChanged`: no account clears the account and the balances; an account
      the user disconnected clears the account only; the current account (in any case) is
      ignored; any other account is switched to and saved, and its balances are fetched
      (`fetched` as for `GetWalletBalances`). */
  function HandleAccountsChanged(w: Wallet, accounts: seq<string>, fetched: Option<Fetched>): (r: Wallet)
    ensures accounts == [] ==> r == w.(userAccount := None, balances := ZeroBalances)
    ensures accounts != [] && Lower(accounts[0]) in w.disconnected ==> r == w.(userAccount := None)
    ensures (accounts != [] && Lower(accounts[0]) !in w.disconnected
             && Truthy(w.userAccount) && Lower(accounts[0]) == Lower(w.userAccount.value)) ==> r == w
    ensures (accounts != [] && Lower(accounts[0]) !in w.disconnected
             && !(Truthy(w.userAccount) && Lower(accounts[0]) == Lower(w.userAccount.value))) ==>
      r == w.(userAccount := Some(accounts[0]), stored := Some(accounts[0]),
              balances := GetWalletBalances(w.balances, w.web3 && accounts[0] != "", fetched))
    ensures r.disconnected == w.disconnected && r.installed == w.installed
  {
    if accounts == [] then w.(userAccount := None, balances := ZeroBalances)
    else
      var next := Lower(accounts[0]);
      if next in w.disconnected then w.(userAccount := None)
      else if Truthy(w.userAccount) && next == Lower(w.userAccount.value) then w
      else
        var switched := w.(userAccount := Some(accounts[0]), stored := Some(accounts[0]));
        switched.(balances := GetWalletBalances(w.balances, w.web3 && Truthy(switched.userAccount), fetched))
  }

  /** After the user disconnects an account, the wallet reporting that same account again,
      in any letter case, does not reconnect it. */
  lemma DisconnectedAccountStaysOut(w: Wallet, hasProvider: bool, echoed: string, f1: Option<Fetched>, f2: Option<Fetched>)
    requires Truthy(w.userAccount)
    requires Lower(echoed) == Lower(w.userAccount.value)
    ensures HandleAccountsChanged(ConnectWallet(w, hasProvider, [], f1), [echoed], f2).userAccount.None?
  {
    var d := ConnectWallet(w, hasProvider, [], f1);
    assert Lower(echoed) in d.disconnected;
  }

  /** Disconnecting and connecting again with the same account restores the account, the
      disconnected list and the saved account; the balances are fetched afresh, from no
      known price, so nothing of the old balances is carried over. */
  lemma ReconnectRestores(w: Wallet, hasProvider: bool, f1: Option<Fetched>, f2: Option<Fetched>)
    requires hasProvider && Truthy(w.userAccount)
    requires Lower(w.userAccount.value) !in w.disconnected
    ensures var r := ConnectWallet(ConnectWallet(w, hasProvider, [], f1), hasProvider, [w.userAccount.value], f2);
      && r.userAccount == w.userAccount && r.disconnected == w.disconnected
      && r.stored == Some(w.userAccount.value) && r.installed
      && r.balances == GetWalletBalances(ZeroBalances, true, f2)
  {
    ForgetUndoesRemember(w.disconnected, w.userAccount.value);
  }
}

=== FILE: wallet_manager.dfy ===
/** The legacy wallet helpers of the browser (`walletManager.js`): the saved account, the
    connect-button label, saving and restoring the trading history in local storage, and
    the daily expiry of the saved data. Local storage is a map from keys to texts; the
    page's history and accuracy objects are kept as their JSON texts. */
module WalletManager {
  import opened Common
  import WalletCore

  /** The local-storage keys the wallet code touches (`STORAGE_KEYS` and the raw-accuracy
      key). */
  datatype StorageKey =
    | WalletKey | TradeHistory | ModelPerformance | LastUpdate
    | PriceData | VolumeData | TimeLabels | RawAccuracy

  type Storage = map<StorageKey, string>

  /** One day in milliseconds. */
  const DayMs: int := 24 * 60 * 60 * 1000

  /** The six keys that expire after a day. */
  const ExpiringKeys: set<StorageKey> := {TradeHistory, ModelPerformance, LastUpdate, PriceData, VolumeData, TimeLabels}

  /** `persistWalletConnection(account)`: a truthy account is saved, anything else removes
      the saved one. */
  function PersistWalletConnection(st: Storage, account: JsString): (r: Storage)
    ensures Truthy(account) ==> WalletKey in r && r[WalletKey] == account.value
    ensures !Truthy(account) ==> WalletKey !in r
    ensures forall k | k != WalletKey :: (k in r <==> k in st) && (k in r ==> r[k] == st[k])
  {
    if Truthy(account) then st[WalletKey := account.value] else st - {WalletKey}
  }

  /** JavaScript `substring(start)` / `substring(0, end)`: indices past the end are clamped. */
  function Take(s: string, n: nat): (r: string)
    ensures IsPrefix(r, s) && |r| == if n <= |s| then n else |s|
  {
    if n <= |s| then s[..n] else s
  }

  function Drop(s: string, n: nat): (r: string)
    ensures |r| == if n <= |s| then |s| - n else 0
    ensures n <= |s| ==> r == s[n..]
  {
    if n <= |s| then s[n..] else ""
  }

  const SignOutIcon := " <i class=\"fas fa-sign-out-alt ml-2\"></i>"

  /** The label of the wallet button in `updateWalletUI`: the first six characters, "...",
      and everything from index 38 of the account; "Connect Wallet" without an account. */
  function ButtonLabel(account: JsString): (r: string)
    ensures !Truthy(account) ==> r == "Connect Wallet"
    ensures Truthy(account) ==> r == Take(account.value, 6) + "..." + Drop(account.value, 38) + SignOutIcon
  {
    if Truthy(account) then Take(account.value, 6) + "..." + Drop(account.value, 38) + SignOutIcon
    else "Connect Wallet"
  }

  /** On a well-formed address the fixed offset 38 is the last four characters, so the label
      shows exactly the abbreviation `formatWalletAddress` produces. */
  lemma LabelMatchesFormattedAddress(a: string)
    requires WalletCore.IsAddress(a)
    ensures ButtonLabel(Some(a)) == WalletCore.FormatWalletAddress(a) + SignOutIcon
  {
  }

  /** On a longer account text the fixed offset shows more than four trailing characters,
      where `formatWalletAddress` shows four. */
  lemma LabelDiffersOnLongerText(a: string)
    requires |a| == 44
    ensures |ButtonLabel(Some(a))| == |WalletCore.FormatWalletAddress(a) + SignOutIcon| + 2
  {
  }

  /** `persistTradingHistory` at time `nowMs`: the history, the accuracy and the raw
      accuracy (as JSON texts) and the time stamp `Date.now().toString()` are saved. */
  function PersistTradingHistory(st: Storage, history: string, accuracy: string, raw: string, nowMs: nat): (r: Storage)
    ensures r.Keys == st.Keys + {TradeHistory, ModelPerformance, RawAccuracy, LastUpdate}
    ensures r[TradeHistory] == history && r[ModelPerformance] == accuracy && r[RawAccuracy] == raw
    ensures r[LastUpdate] == NatToString(nowMs)
    ensures forall k | k in st && k !in {TradeHistory, ModelPerformance, RawAccuracy, LastUpdate} :: r[k] == st[k]
  {
    st[TradeHistory := history][ModelPerformance := accuracy][RawAccuracy := raw][LastUpdate := NatToString(nowMs)]
  }

  /** The value the page holds after `loadPersistedHistory`: without an account nothing is
      read; otherwise each of the two texts that is saved and non-empty replaces the
      current one. */
  function LoadPersistedHistory(st: Storage, account: JsString, history: string, accuracy: string): (r: (string, string))
    ensures !Truthy(account) ==> r == (history, accuracy)
    ensures Truthy(account) ==>
      && r.0 == (if TradeHistory in st && st[TradeHistory] != "" then st[TradeHistory] else history)
      && r.1 == (if ModelPerformance in st && st[ModelPerformance] != "" then st[ModelPerformance] else accuracy)
  {
    if !Truthy(account) then (history, accuracy)
    else
      (if TradeHistory in st && st[TradeHistory] != "" then st[TradeHistory] else history,
       if ModelPerformance in st && st[ModelPerformance] != "" then st[ModelPerformance] else accuracy)
  }

  /** What was saved is what a connected page loads back, whatever it held before; a page
      without an account keeps its own. */
  lemma PersistThenLoad(st: Storage, history: string, accuracy: string, raw: string, nowMs: nat,
                        account: JsString, h0: string, a0: string)
    requires history != "" && accuracy != ""
    ensures var saved := PersistTradingHistory(st, history, accuracy, raw, nowMs);
      && (Truthy(account) ==> LoadPersistedHistory(saved, account, h0, a0) == (history, accuracy))
      && (!Truthy(account) ==> LoadPersistedHistory(saved, account, h0, a0) == (h0, a0))
  {
  }

  /** The saved time stamp, `|| '0'` applied and read by `parse`; `None` is `NaN`. */
  function LastUpdateStamp(st: Storage, parse: string -> Option<int>): Option<int>
  {
    parse(if LastUpdate in st && st[LastUpdate] != "" then st[LastUpdate] else "0")
  }

  /** The expiry rule shared by both copies of `clearExpiredData`: the six keys go when the
      stamp is more than a day old; an unreadable stamp never expires. */
  function ClearExpiredWith(st: Storage, nowMs: int, stamp: Option<int>): (r: Storage)
    ensures stamp.Some? && nowMs - stamp.value > DayMs ==> r == st - ExpiringKeys
    ensures !(stamp.Some? && nowMs - stamp.value > DayMs) ==> r == st
    ensures forall k | k !in ExpiringKeys :: (k in r <==> k in st) && (k in r ==> r[k] == st[k])
  {
    if stamp.Some? && nowMs - stamp.value > DayMs then st - ExpiringKeys else st
  }

  function ParseAuto(s: string): Option<int> { ParseIntAuto(s) }

  /** `clearExpiredData` of this file, whose `parseInt` has no radix. */
  function ClearExpiredData(st: Storage, nowMs: int): (r: Storage)
    ensures var stamp := LastUpdateStamp(st, ParseAuto);
      && (stamp.Some? && nowMs - stamp.value > DayMs ==> r == st - ExpiringKeys)
      && (!(stamp.Some? && nowMs - stamp.value > DayMs) ==> r == st)
  {
    ClearExpiredWith(st, nowMs, LastUpdateStamp(st, ParseAuto))
  }

  /** Without a saved stamp everything expiring is cleared once the clock is past one day. */
  lemma MissingStampCountsAsZero(st: Storage, nowMs: int)
    requires LastUpdate !in st
    ensures ClearExpiredData(st, nowMs) == if nowMs > DayMs then st - ExpiringKeys else st
  {
    ParseIntDigits("0");
  }

  /** Data saved at `savedMs` is cleared at `nowMs` exactly when more than a day has passed,
      and the saved account is never touched. */
  lemma ExpiresAfterADay(st: Storage, history: string, accuracy: string, raw: string, savedMs: nat, nowMs: int)
    ensures var saved := PersistTradingHistory(st, history, accuracy, raw, savedMs);
      var cleared := ClearExpiredData(saved, nowMs);
      && (cleared == saved - ExpiringKeys <==> nowMs - savedMs > DayMs)
      && (WalletKey in st ==> WalletKey in cleared && cleared[WalletKey] == st[WalletKey])
  {
    var saved := PersistTradingHistory(st, history, accuracy, raw, savedMs);
    var stamp := NatToString(savedMs);
    NatToStringValue(savedMs);
    ParseIntDigits(stamp);
    assert LastUpdateStamp(saved, ParseAuto) == Some(savedMs as int);
    assert TradeHistory in saved && TradeHistory !in saved - ExpiringKeys;
  }
}

=== FILE: wallet_ui.dfy ===
/** The visual wallet helpers of the browser (`walletUI.js`): the button label, the
    once-only save of the wallet card, the network badge and its class rewrite, and this
    file's copy of the daily expiry. The DOM is reduced to the texts these helpers read and
    write. */
module WalletUI {
  import opened Common
  import WalletCore
  import WM = WalletManager

  /** `updateWalletUI` of this file: the account is shown through `formatWalletAddress`. */
  function ButtonLabel(account: JsString): (r: string)
    ensures !Truthy(account) ==> r == "Connect Wallet"
    ensures Truthy(account) ==> r == WalletCore.FormatWalletAddress(account.value) + WM.SignOutIcon
  {
    if Truthy(account) then WalletCore.FormatWalletAddress(account.value) + WM.SignOutIcon
    else "Connect Wallet"
  }

  /** Both copies of `updateWalletUI` show the same label for every well-formed address and
      for no account. */
  lemma LabelsAgreeOnAddresses(account: JsString)
    requires !Truthy(account) || WalletCore.IsAddress(account.value)
    ensures ButtonLabel(account) == WM.ButtonLabel(account)
  {
    if Truthy(account) {
      WM.LabelMatchesFormattedAddress(account.value);
    }
  }

  // ---------------------------------------------------------------- loading state

  /** `showLoadingWalletState`: the card's current HTML is saved when nothing truthy is
      saved yet and the card is not empty. */
  function SaveWalletCard(saved: JsString, cardHtml: string): (r: JsString)
    ensures !Truthy(saved) && cardHtml != "" ==> r == Some(cardHtml)
    ensures Truthy(saved) || cardHtml == "" ==> r == saved
  {
    if !Truthy(saved) && |cardHtml| > 0 then Some(cardHtml) else saved
  }

  /** Whatever the card holds on later calls (the loading markup, say), the first
      non-empty card stays saved. */
  lemma {:induction false} FirstCardStaysSaved(saved: JsString, cards: seq<string>, k: nat)
    requires !Truthy(saved)
    requires k < |cards| && cards[k] != ""
    requires forall i | 0 <= i < k :: cards[i] == ""
    ensures SaveAll(saved, cards) == Some(cards[k])
    decreases k
  {
    if k == 0 {
      SavedStays(Some(cards[0]), cards[1..]);
    } else {
      assert cards[0] == "";
      FirstCardStaysSaved(saved, cards[1..], k - 1);
    }
  }

  lemma {:induction false} SavedStays(saved: JsString, cards: seq<string>)
    requires Truthy(saved)
    ensures SaveAll(saved, cards) == saved
    decreases |cards|
  {
    if cards != [] {
      SavedStays(SaveWalletCard(saved, cards[0]), cards[1..]);
    }
  }

  /** The loading state shown over the successive card contents `cards`. */
  function SaveAll(saved: JsString, cards: seq<string>): JsString
    decreases |cards|
  {
    if cards == [] then saved else SaveAll(SaveWalletCard(saved, cards[0]), cards[1..])
  }

  // ---------------------------------------------------------------- network badge

  /** `updateConnectedNetwork`: the name and background class of the six known chains, and
      "Unknown Network" on grey otherwise. */
  function NetworkBadge(chainId: int): (r: (string, string))
    ensures chainId == 1 ==> r == ("Ethereum", "bg-blue-900")
    ensures chainId == 59144 ==> r == ("Linea", "bg-purple-900")
    ensures chainId == 137 ==> r == ("Polygon", "bg-indigo-900")
    ensures chainId == 10 ==> r == ("Optimism", "bg-red-900")
    ensures chainId == 42161 ==> r == ("Arbitrum", "bg-blue-800")
    ensures chainId == 56 ==> r == ("BNB Chain", "bg-yellow-800")
    ensures chainId !in {1, 59144, 137, 10, 42161, 56} ==> r == ("Unknown Network", "bg-gray-800")
  {
    if chainId == 1 then ("Ethereum", "bg-blue-900")
    else if chainId == 59144 then ("Linea", "bg-purple-900")
    else if chainId == 137 then ("Polygon", "bg-indigo-900")
    else if chainId == 10 then ("Optimism", "bg-red-900")
    else if chainId == 42161 then ("Arbitrum", "bg-blue-800")
    else if chainId == 56 then ("BNB Chain", "bg-yellow-800")
    else ("Unknown Network", "bg-gray-800")
  }

  /** Longest prefix of word characters (`\w*`). */
  function WordPrefix(s: string): (r: string)
    ensures IsPrefix(r, s) && forall i | 0 <= i < |r| :: IsWordChar(r[i])
    ensures |r| < |s| ==> !IsWordChar(s[|r|])
  {
    if s != [] && IsWordChar(s[0]) then [s[0]] + WordPrefix(s[1..]) else []
  }

  /** The length of the match of `bg-\w+-\d+` at the start of `s`, if any. `\w` excludes
      `-`, so the word part is the whole run of word characters and the digit part is the
      whole run of digits. */
  function MatchBg(s: string): (n: Option<nat>)
    ensures n.Some? ==> 6 <= n.value <= |s| && BgAt(s, 0)
  {
    if |s| < 3 || !BgAt(s, 0) then None
    else
      var w := WordPrefix(s[3..]);
      if |w| == 0 || 3 + |w| == |s| || s[3 + |w|] != '-' then None
      else
        var d := DigitPrefix(s[4 + |w|..]);
        if |d| == 0 then None else Some(4 + |w| + |d|)
  }

  /** `replace(/bg-\w+-\d+/g, '')`: scanning left to right, every match is dropped and the
      scan resumes after it. */
  function StripBg(s: string): (r: string)
    ensures |r| <= |s|
    decreases |s|
  {
    if s == [] then []
    else match MatchBg(s)
      case Some(n) => StripBg(s[n..])
      case None => [s[0]] + StripBg(s[1..])
  }

  /** The badge class after the update: the background tokens removed, the rest trimmed, and
      the new background appended after one space. */
  function BadgeClass(className: string, chainId: int): (r: string)
    ensures var cls := NetworkBadge(chainId).1;
      |r| >= |cls| + 1 && r[|r| - |cls|..] == cls && r[|r| - |cls| - 1] == ' '
  {
    var cls := NetworkBadge(chainId).1;
    SpaceThenSuffix(Trim(StripBg(className)), cls);
    Trim(StripBg(className)) + " " + cls
  }

  lemma SpaceThenSuffix(a: string, cls: string)
    ensures var r := a + " " + cls;
      |r| >= |cls| + 1 && r[|r| - |cls|..] == cls && r[|r| - |cls| - 1] == ' '
  {
    var r := a + " " + cls;
    assert r[|a| + 1..] == cls;
  }

  /** A background token `bg-<word>-<digits>` as the class list holds it. */
  ghost predicate IsBgToken(t: string)
  {
    exists w, d | t == "bg-" + w + "-" + d ::
      |w| > 0 && |d| > 0 && AllDigits(d) && forall i | 0 <= i < |w| :: IsWordChar(w[i])
  }

  /** `bg-` occurs at index `i` of `t`. */
  predicate BgAt(t: string, i: nat)
    requires i + 3 <= |t|
  {
    t[i] == 'b' && t[i + 1] == 'g' && t[i + 2] == '-'
  }

  /** A token in which `bg-` does not occur. */
  predicate NoBg(t: string)
  {
    forall i: nat | i + 3 <= |t| :: !BgAt(t, i)
  }

  /** What the rewrite keeps of a token. */
  ghost function Kept(t: string): string
  {
    if IsBgToken(t) then "" else t
  }

  ghost function KeptAll(tokens: seq<string>): (r: seq<string>)
    ensures |r| == |tokens|
    ensures forall i | 0 <= i < |tokens| :: r[i] == Kept(tokens[i])
  {
    if tokens == [] then [] else [Kept(tokens[0])] + KeptAll(tokens[1..])
  }

  /** On a class list whose every token is a background token or free of `bg-`, the
      rewrite removes exactly the background tokens and keeps every separator. */
  lemma StripRemovesBgTokens(className: string)
    requires forall t | t in Split(className, ' ') :: IsBgToken(t) || NoBg(t)
    ensures StripBg(className) == Join(KeptAll(Split(className, ' ')), " ")
  {
    var tokens := Split(className, ' ');
    JoinSplit(className, ' ');
    assert forall i | 0 <= i < |tokens| :: WholeToken(tokens[i]) by {
      forall i | 0 <= i < |tokens| ensures WholeToken(tokens[i]) {
        assert tokens[i] in tokens;
      }
    }
    StripJoin(tokens);
  }

  /** A token of a class list the rewrite handles token by token. */
  ghost predicate WholeToken(t: string)
  {
    ' ' !in t && (IsBgToken(t) || NoBg(t))
  }

  lemma {:induction false} StripJoin(tokens: seq<string>)
    requires forall i | 0 <= i < |tokens| :: WholeToken(tokens[i])
    ensures StripBg(Join(tokens, " ")) == Join(KeptAll(tokens), " ")
    decreases |tokens|
  {
    if tokens == [] {
    } else if |tokens| == 1 {
      StripToken(tokens[0], "");
      assert tokens[0] + "" == tokens[0];
    } else {
      var t, rest := tokens[0], tokens[1..];
      var j := Join(rest, " ");
      JoinCons(tokens, " ");
      assert WholeToken(t);
      StripToken(t, " " + j);
      StripSpace(j);
      assert forall i | 0 <= i < |rest| :: WholeToken(rest[i]) by {
        forall i | 0 <= i < |rest| ensures WholeToken(rest[i]) {
          assert rest[i] == tokens[i + 1];
        }
      }
      StripJoin(rest);
      var kept := KeptAll(tokens);
      assert kept[0] == Kept(t) && kept[1..] == KeptAll(rest);
      JoinCons(kept, " ");
    }
  }

  lemma JoinCons(parts: seq<string>, sep: string)
    requires |parts| >= 2
    ensures Join(parts, sep) == parts[0] + (sep + Join(parts[1..], sep))
  {
  }

  /** A space never starts a match, so it is copied. */
  lemma StripSpace(s: string)
    ensures StripBg(" " + s) == " " + StripBg(s)
  {
    assert (" " + s)[1..] == s;
  }

  /** A whole token followed by a space or by the end is handled on its own. */
  lemma StripToken(t: string, rest: string)
    requires WholeToken(t)
    requires rest == [] || rest[0] == ' '
    ensures StripBg(t + rest) == Kept(t) + StripBg(rest)
  {
    if IsBgToken(t) {
      var w, d :| t == "bg-" + w + "-" + d && |w| > 0 && |d| > 0 && AllDigits(d)
                  && forall i | 0 <= i < |w| :: IsWordChar(w[i]);
      BgTokenMatches(w, d, rest);
      assert (t + rest)[|t|..] == rest;
    } else {
      PlainTokenStrips(t, rest);
    }
  }

  /** A background token followed by a space or the end matches as a whole. */
  lemma BgTokenMatches(w: string, d: string, rest: string)
    requires |w| > 0 && |d| > 0 && AllDigits(d) && forall i | 0 <= i < |w| :: IsWordChar(w[i])
    requires rest == [] || rest[0] == ' '
    ensures MatchBg("bg-" + w + "-" + d + rest) == Some(|"bg-" + w + "-" + d|)
  {
    var s := "bg-" + w + "-" + d + rest;
    assert BgAt(s, 0);
    assert s[3..] == w + ("-" + d + rest);
    WordPrefixStops(w, "-" + d + rest);
    assert s[3 + |w|] == '-';
    assert s[4 + |w|..] == d + rest;
    DigitPrefixStops(d, rest);
    MatchBgUnfold(s, w, d);
  }

  /** The match found once its word and digit parts are known. */
  lemma MatchBgUnfold(s: string, w: string, d: string)
    requires |s| >= 3 && BgAt(s, 0)
    requires WordPrefix(s[3..]) == w && |w| > 0 && 3 + |w| < |s| && s[3 + |w|] == '-'
    requires DigitPrefix(s[4 + |w|..]) == d && |d| > 0
    ensures MatchBg(s) == Some(4 + |w| + |d|)
  {
  }

  lemma {:induction false} WordPrefixStops(w: string, x: string)
    requires forall i | 0 <= i < |w| :: IsWordChar(w[i])
    requires x == [] || !IsWordChar(x[0])
    ensures WordPrefix(w + x) == w
    decreases |w|
  {
    if w != [] {
      assert (w + x)[1..] == w[1..] + x;
      WordPrefixStops(w[1..], x);
    }
  }

  lemma {:induction false} DigitPrefixStops(d: string, x: string)
    requires AllDigits(d)
    requires x == [] || !IsDigit(x[0])
    ensures DigitPrefix(d + x) == d
    decreases |d|
  {
    if d != [] {
      assert IsDigit(d[0]) && AllDigits(d[1..]);
      assert (d + x)[1..] == d[1..] + x;
      DigitPrefixStops(d[1..], x);
    }
  }

  /** A match needs `bg-` at its start, which a token free of it (followed by a space or
      the end) does not offer. */
  lemma NoMatchInPlainToken(t: string, rest: string)
    requires t != [] && ' ' !in t && NoBg(t)
    requires rest == [] || rest[0] == ' '
    ensures MatchBg(t + rest).None?
  {
    var s := t + rest;
    if |s| >= 3 && |t| >= 3 {
      assert !BgAt(t, 0);
      assert s[..3] == t[..3];
    } else if |s| >= 3 {
      assert s[|t|] == ' ';
    }
  }

  /** Dropping the first character keeps a token free of `bg-`. */
  lemma NoBgTail(t: string)
    requires t != [] && NoBg(t)
    ensures NoBg(t[1..])
  {
    forall i: nat | i + 3 <= |t[1..]|
      ensures !BgAt(t[1..], i)
    {
      assert !BgAt(t, i + 1);
    }
  }

  /** A token without `bg-`, followed by a space or the end, is copied unchanged. */
  lemma {:induction false} PlainTokenStrips(t: string, rest: string)
    requires ' ' !in t && NoBg(t)
    requires rest == [] || rest[0] == ' '
    ensures StripBg(t + rest) == t + StripBg(rest)
    decreases |t|
  {
    if t != [] {
      var tail := t[1..];
      var r := StripBg(rest);
      PlainStep(t, rest);
      NoBgTail(t);
      PlainTokenStrips(tail, rest);
      assert StripBg(tail + rest) == tail + r;
      ConsAssoc(t, r);
    } else {
      assert t + rest == rest;
    }
  }

  lemma ConsAssoc(t: string, r: string)
    requires t != []
    ensures [t[0]] + (t[1..] + r) == t + r
  {
    assert t == [t[0]] + t[1..];
  }

  /** One step of copying a token free of `bg-`: its first character is kept. */
  lemma PlainStep(t: string, rest: string)
    requires t != [] && ' ' !in t && NoBg(t)
    requires rest == [] || rest[0] == ' '
    ensures StripBg(t + rest) == [t[0]] + StripBg(t[1..] + rest)
  {
    var s := t + rest;
    NoMatchInPlainToken(t, rest);
    StripCopies(s);
    assert s[0] == t[0] && s[1..] == t[1..] + rest;
  }

  /** Where no match starts, the first character is copied. */
  lemma StripCopies(s: string)
    requires s != [] && MatchBg(s).None?
    ensures StripBg(s) == [s[0]] + StripBg(s[1..])
  {
  }

  /** Where a match starts, it is skipped. */
  lemma StripSkips(s: string, n: nat)
    requires s != [] && MatchBg(s) == Some(n)
    ensures StripBg(s) == StripBg(s[n..])
  {
  }

  /** A badge holding one other class and a background gets the new background in place
      of the old one, whatever the chain. */
  lemma BackgroundReplaced(word: string, w: string, d: string, chainId: int)
    requires word != [] && NoBg(word) && forall i | 0 <= i < |word| :: !IsSpace(word[i])
    requires |w| > 0 && |d| > 0 && AllDigits(d) && forall i | 0 <= i < |w| :: IsWordChar(w[i])
    ensures BadgeClass(word + " " + ("bg-" + w + "-" + d), chainId) == word + " " + NetworkBadge(chainId).1
  {
    StripWordBg(word, w, d);
    TrimKept(word);
  }

  /** The rewrite keeps the word and its space and drops the background token. */
  lemma StripWordBg(word: string, w: string, d: string)
    requires NoBg(word) && ' ' !in word
    requires |w| > 0 && |d| > 0 && AllDigits(d) && forall i | 0 <= i < |w| :: IsWordChar(w[i])
    ensures StripBg(word + " " + ("bg-" + w + "-" + d)) == word + " "
  {
    var bg := "bg-" + w + "-" + d;
    StripBgToken(w, d);
    StripSpace(bg);
    assert word + " " + bg == word + (" " + bg);
    PlainTokenStrips(word, " " + bg);
  }

  /** A background token on its own is removed entirely. */
  lemma StripBgToken(w: string, d: string)
    requires |w| > 0 && |d| > 0 && AllDigits(d) && forall i | 0 <= i < |w| :: IsWordChar(w[i])
    ensures StripBg("bg-" + w + "-" + d) == []
  {
    var bg := "bg-" + w + "-" + d;
    BgTokenMatches(w, d, "");
    assert bg + "" == bg;
    StripSkips(bg, |bg|);
    assert bg[|bg|..] == [];
  }

  /** Trimming a space-free word followed by one space gives the word. */
  lemma TrimKept(word: string)
    requires word != [] && forall i | 0 <= i < |word| :: !IsSpace(word[i])
    ensures Trim(word + " ") == word
  {
    var kept := word + " ";
    assert kept[0] == word[0];
    assert TrimStart(kept) == kept;
    assert kept[..|kept| - 1] == word;
    assert TrimEnd(kept) == TrimEnd(word);
    assert TrimEnd(word) == word;
  }

  // ---------------------------------------------------------------- expiry

  function Parse10(s: string): Option<int> { ParseIntRadix10(s) }

  /** `clearExpiredData` of this file, whose `parseInt` has radix 10. */
  function ClearExpiredData(st: WM.Storage, nowMs: int): (r: WM.Storage)
    ensures var stamp := WM.LastUpdateStamp(st, Parse10);
      && (stamp.Some? && nowMs - stamp.value > WM.DayMs ==> r == st - WM.ExpiringKeys)
      && (!(stamp.Some? && nowMs - stamp.value > WM.DayMs) ==> r == st)
  {
    WM.ClearExpiredWith(st, nowMs, WM.LastUpdateStamp(st, Parse10))
  }

  /** On every stamp the page writes, the two copies of `clearExpiredData` agree. */
  lemma ExpiryCopiesAgree(st: WM.Storage, history: string, accuracy: string, raw: string, savedMs: nat, nowMs: int)
    ensures var saved := WM.PersistTradingHistory(st, history, accuracy, raw, savedMs);
      ClearExpiredData(saved, nowMs) == WM.ClearExpiredData(saved, nowMs)
  {
    ParseIntDigits(NatToString(savedMs));
  }

  /** They differ on a hexadecimal stamp: the radix-less copy reads "0x1" as 1, this one as
      0. */
  lemma ExpiryCopiesDifferOnHex(st: WM.Storage)
    ensures WM.LastUpdateStamp(st[WM.LastUpdate := "0x1"], WM.ParseAuto) == Some(1)
    ensures WM.LastUpdateStamp(st[WM.LastUpdate := "0x1"], Parse10) == Some(0)
  {
    var st2 := st[WM.LastUpdate := "0x1"];
    assert WM.LastUpdate in st2 && st2[WM.LastUpdate] == "0x1";
    HexStampAuto();
    HexStampRadix10();
  }

  lemma HexStampAuto()
    ensures ParseIntAuto("0x1") == Some(1)
  {
    var s := "0x1";
    assert TrimStart(s) == s;
    assert SplitSign(s) == (false, s);
    assert HasHexPrefix(s);
    assert s[2..] == "1";
    assert HexPrefix("1") == "1";
  }

  lemma HexStampRadix10()
    ensures ParseIntRadix10("0x1") == Some(0)
  {
    var s := "0x1";
    assert TrimStart(s) == s;
    assert SplitSign(s) == (false, s);
    assert DigitPrefix(s) == "0";
    assert DigitsValue("0") == 0;
  }
}
